=== FILE: README.md ===
# Media index of a Telegram file-search bot, in Dafny

This project models the media-index layer of a Telegram bot that indexes
video files posted in channels and lets users search for them. The layer
exists in two versions. The dual-database version keeps a primary `Media`
collection and a secondary `Media2` collection. The single-database version
keeps one `Media` collection. The model covers:

- the file-identifier codec: `<iiqq` packing, zero-run compression with
  the sentinel bytes 22 and 4, and unpadded base64url (section 5 of
  RFC 4648);
- the dual-store write router `save_file` and its cached size reading
  `check_db_size`;
- the search pattern builders and pagers of both versions, series groups,
  `get_bad_files` and `get_file_details`;
- the single-store `save_file`, `search_files` and `formate_file_name`;
- `get_readable_time`, `get_status` and the autofilter opt-out list;
- the in-memory pending-action and last-message maps;
- the `file_…` deep-link payload, the file-details cache and the cached
  search of the start handler;
- the batch loop of the channel indexer.

What the outside world answers becomes an input:

- the clock, as integer seconds or ticks;
- the `dbstats` answer;
- whether a pattern compiles, and whether it matches a text;
- `str.lower`;
- `clean_filename`;
- the settings `MULTIPLE_DB`, `DB_CHANGE_LIMIT`, `USE_CAPTION_FILTER` and `MAX_B_TN`;
- the result of `FileId.decode`;
- the store's failures;
- the messages the bot fetches.

A collection is a map from `_id` to record, together with its `_id`s
newest first, which is the `$natural` descending order.

Modules, one per file:

| file | module | models |
|---|---|---|
| common.dfy | Common | `Option`, bytes, slicing, filtering, de-duplication |
| text.dfy | Text | Python's `strip`, `split`, `split(sep)`, `split(sep, n)`, `join`, `str(n)` for naturals |
| base64url.dfy | Base64Url | unpadded base64url and its decoder |
| zerorun.dfy | ZeroRun | the zero-run compression of `encode_file_id` and its expansion |
| pack.dfy | Pack | `struct.pack("<iiqq")` and its inverse |
| fileid.dfy | FileIdCodec | `encode_file_id`, `encode_file_ref`, `unpack_new_file_id` |
| dualstore.dfy | DualStore | `check_db_size`, dual-store `save_file`, `get_file_details` |
| series.dfy | SeriesGroups | `save_series_group`, `get_series_files`, `delete_series_group` |
| search.dfy | FederatedSearch | dual-store `get_search_results` and `get_bad_files` |
| singlestore.dfy | SingleStore | single-store `save_file`, `search_files`, `get_bad_files`, `get_file_details`, `formate_file_name` |
| querysearch.dfy | QuerySearch | `get_search_results` of the filters module, with a small regular-expression matcher |
| readabletime.dfy | ReadableTime | `get_readable_time`, `get_status` |
| autofilter.dfy | Autofilter | the `chatsdb` opt-out list |
| session.dfy | Session | `pending_actions`, `last_bot_message`, `last_video_message` |
| startlink.dfy | StartLink | the start payload, `FILE_DETAILS_CACHE`, `get_search_results_cached` |
| indexer.dfy | Indexer | `index_files_to_db` and the preview count |

## Model

| member | source | states |
|---|---|---|
| Common.Slice | src/database/utils/filters.py:68 | `xs[offset:offset+n]` has at most n items. It is empty past the end, the exact window when that fits, and the rest of the list otherwise |
| Common.Filter | src/database/utils/files.py:78-81 | the kept items are items of the input that pass the test, every input item that passes the test is kept, and a one-item list is kept exactly when its item passes |
| Common.FilterConcat | src/database/utils/files.py:78-81 | filtering a concatenation is filtering each part and concatenating, so the kept items keep their order and their number of occurrences |
| Common.FilterFilter | src/database/utils/files.py:108-112 | filtering by one test and then by another is filtering once by both |
| Common.FilterIdempotent | src/database/utils/files.py:152-156 | filtering twice with the same test is filtering once |
| Common.Dedup | database/ia_filterdb.py:281-285 | `list(set(...))` holds exactly the input's elements, each once |
| Text.Strip | src/database/utils/filters.py:53 | `str.strip()` returns the window of the input that starts after its leading whitespace. Only whitespace lies outside the window, and the window neither starts nor ends with whitespace |
| Text.SplitWsJoin | src/database/utils/files.py:152-155 | `' '.join(words).split()` gives back the words, for any list of non-empty, space-free words |
| Text.JoinSplitOn | database/ia_filterdb.py:162 | joining the parts of `s.split(c)` with `c` rebuilds `s` |
| Text.ReplaceIsSplitJoin | src/database/utils/files.py:66 | `s.replace(c, r)` equals `r.join(s.split(c))` |
| Text.NatToStringInjective | src/modules/start.py:123 | distinct offsets print as distinct digit strings, so `str` of a natural is one-to-one |
| Base64Url.EncodeLength | database/ia_filterdb.py:364-365 | unpadded base64url of n bytes has ⌈4n/3⌉ characters |
| Base64Url.Encode | database/ia_filterdb.py:362 | every character of the unpadded text is in the url-safe alphabet `A–Z a–z 0–9 - _` |
| Base64Url.Decode | database/ia_filterdb.py:362 | the decoder that undoes the encoding: a text of n characters that decodes gives ⌊3n/4⌋ bytes |
| Base64Url.DecodeEncode | database/ia_filterdb.py:364-365 | decoding the unpadded base64url text of any byte string gives the byte string back |
| Base64Url.EncodeInjective | database/ia_filterdb.py:364-365 | distinct byte strings have distinct base64url texts |
| Base64Url.UrlSafeEncodeStripped | database/ia_filterdb.py:362 | `urlsafe_b64encode(b).rstrip("=")`, built as padded text with the padding stripped, is the unpadded encoding |
| Base64Url.PaddedIsEncodePlusPad | database/ia_filterdb.py:362 | the padded encoding is the unpadded one followed by 0, 2 or 1 `=` for n mod 3 = 0, 1, 2 |
| Base64Url.ValueOfCharOf | database/ia_filterdb.py:364-365 | each of the 64 digits of the alphabet reads back as its value |
| ZeroRun.Compress | database/ia_filterdb.py:354-361 | a result is canonical: every 0 is followed by a non-zero count and another byte. Failure needs more than 256 bytes of input |
| ZeroRun.CompressFailsIffLongRun | database/ia_filterdb.py:354-361 | the loop raises (through `bytes([256])`) exactly when some run of at least 256 zeros is followed by a non-zero byte |
| ZeroRun.ExpandCompress | database/ia_filterdb.py:354-361 | expanding each `(0, n)` pair back into n zeros recovers the input without its trailing zeros |
| ZeroRun.CanonicalHasNoAdjacentZeros | database/ia_filterdb.py:358-361 | compressed bytes never hold two adjacent zeros |
| ZeroRun.CompressBytes | database/ia_filterdb.py:352-361 | the byte-by-byte loop with its run counter computes the run-by-run definition |
| Pack.FromLEToLE | database/ia_filterdb.py:370-376 | reading back a w-byte little-endian value gives the value |
| Pack.PackSigned | database/ia_filterdb.py:370-376 | one field of `<iiqq` packs exactly when it fits w-byte two's complement (otherwise `struct.error`), and has w bytes |
| Pack.UnpackPackSigned | database/ia_filterdb.py:370-376 | unpacking a packed signed field gives the integer back, negatives included |
| Pack.PackFields | database/ia_filterdb.py:370-376 | the four fields pack into 24 bytes exactly when the first two fit 32 bits and the last two fit 64 bits |
| Pack.UnpackPackFields | database/ia_filterdb.py:370-376 | the packing is undone field by field |
| Pack.PackFieldsInjective | database/ia_filterdb.py:370-376 | distinct field tuples pack to distinct bytes |
| FileIdCodec.EncodeFileId | database/ia_filterdb.py:351-362 | an identifier exists exactly when the bytes with the sentinel have no zero run of 256 or more before a non-zero byte, and is written in the base64url alphabet |
| FileIdCodec.DecodeEncodeFileId | database/ia_filterdb.py:351-362 | decoding (base64url, expand, drop the sentinel 22 4) recovers the bytes |
| FileIdCodec.DecodeFileId | database/ia_filterdb.py:351-362 | an identifier reads back exactly when it is base64url text whose `(0, n)`-expanded bytes end in the sentinel 22 4, and the bytes read are that expansion without the sentinel |
| FileIdCodec.EncodeFileIdInjective | database/ia_filterdb.py:351-362 | distinct byte strings get distinct identifiers, which is what makes `_id` deduplicate media |
| FileIdCodec.ShortInputEncodes | src/database/utils/files.py:123-133 | inputs of at most 254 bytes, the 24-byte packing among them, always encode |
| FileIdCodec.EncodeFileRef | database/ia_filterdb.py:364-365 | the reference text has ⌈4n/3⌉ base64url characters and decodes to the reference bytes |
| FileIdCodec.UnpackNewFileId | src/database/utils/files.py:140-148 | a pair comes back exactly when the id decodes and its fields fit `<iiqq`, otherwise `(None, None)`. Both halves decode to what was packed |
| FileIdCodec.FileIdsDistinguishFields | database/ia_filterdb.py:367-379 | two media whose four fields differ get different `_id`s |
| DualStore.CheckDbSize | database/ia_filterdb.py:75-99 | a primary reading less than 60 s old is returned as is. A failing `dbstats` gives 0 and leaves the cache. Only a primary reading updates the cache, with the current time |
| DualStore.CachedReadingServed | database/ia_filterdb.py:84-95 | a primary reading taken now is served unchanged to every primary call within the next 60 s, whatever `dbstats` would say |
| DualStore.StaleCacheRequeried | database/ia_filterdb.py:84-95 | 60 s or more later the primary is measured again and the cache takes the new value |
| DualStore.SaveFile | database/ia_filterdb.py:103-140 | `(True, 1)` is the only success and the codes stay in 0..3. A failure changes no store, and an id that does not decode or does not unpack as `<iiqq` gives `(False, 3)` with the cache unchanged. Otherwise, with `MULTIPLE_DB`, the cache becomes the one the size reading refreshed. On the secondary path, a raising `count_documents` gives `(False, 3)`. When the id decodes and the secondary-path check neither raises nor finds it, a `ValidationError` gives `(False, 2)`, any other exception `(False, 3)`, an id already in the target collection `(False, 0)`, and a new id is saved. A success adds the record to exactly one store |
| DualStore.SaveRouting | database/ia_filterdb.py:107-131 | a committed record goes to the secondary exactly when `MULTIPLE_DB` holds and the measured primary size is at least `DB_CHANGE_LIMIT`·1024·1024, and only that store changes |
| DualStore.SecondaryPathChecksPrimary | database/ia_filterdb.py:115-119 | on the secondary path an id already in the primary gives `(False, 0)`, or `(False, 3)` when `count_documents` raises. Nothing is written, whatever `commit` would have raised |
| DualStore.PrimaryPathIgnoresSecondary | database/ia_filterdb.py:108-131 | on the primary path the outcome and the new primary do not depend on the secondary, and the secondary is untouched |
| DualStore.SavePreservesDisjoint | database/ia_filterdb.py:109-131 | starting from stores that share no id, no id ends up in both, unless the primary path is taken for an id that is already in the secondary |
| DualStore.SecondSaveIsDuplicate | database/ia_filterdb.py:115-137 | saving the same media again answers `(False, 0)` and changes nothing, unless the route moved from secondary back to primary in between |
| DualStore.GetFileDetails | database/ia_filterdb.py:257-264 | at most one record, the primary's when it has the id, otherwise the secondary's. Empty exactly when neither has it |
| DualStore.SavedRecordIsFound | database/ia_filterdb.py:103-131 | after a successful save the lookup returns exactly the record built, from whichever store took it |
| DualStore.FreshMediaIsSaved | database/ia_filterdb.py:103-131 | a decodable id that is new to its target collection, with no store exception, is committed as `(True, 1)`, and the lookup then returns the record built for it |
| SeriesGroups.SaveSeriesGroup | database/ia_filterdb.py:269-303 | False with nothing written for an empty name, empty ids or a store failure. Otherwise only that group changes, to exactly the old ids united with the new ones, each once |
| SeriesGroups.SaveSeriesGroupIdempotent | database/ia_filterdb.py:279-288 | saving the same group twice stores what one save stores |
| SeriesGroups.GetSeriesFiles | database/ia_filterdb.py:305-333 | an unknown name gives `([], 0)`. Otherwise the files are one record per stored id that some searched collection holds, in the order of the stored ids, and the total is their count |
| SeriesGroups.FindMedia | database/ia_filterdb.py:320-330 | an id is found exactly when the primary holds it or, with `MULTIPLE_DB`, the secondary does. The secondary's record wins, because it is put into the dictionary last |
| SeriesGroups.Resolve | database/ia_filterdb.py:331 | the comprehension returns at most one record per stored id |
| SeriesGroups.ResolveAllPresent | database/ia_filterdb.py:331 | when every stored id is found, the records come back one per id, in list order |
| SeriesGroups.ResolveSkipsUnknown | database/ia_filterdb.py:331 | the `if fid in file_id_to_media` guard only drops the ids no collection holds |
| SeriesGroups.ResolveFound | database/ia_filterdb.py:329-331 | the result is the record of each found id, in the order of the stored ids |
| SeriesGroups.ResolveContents | database/ia_filterdb.py:318-331 | resolution keeps the ids found in the primary (or, with `MULTIPLE_DB`, the secondary) and skips the rest |
| SeriesGroups.DeleteSeriesGroup | database/ia_filterdb.py:335-347 | True exactly when the group existed. It is removed and no other group changes. A store failure gives False and leaves everything |
| SeriesGroups.SavedSeriesResolves | database/ia_filterdb.py:269-333 | after a save, the group's files are exactly those found among the old and new ids |
| SeriesGroups.DeletedSeriesIsEmpty | database/ia_filterdb.py:335-347 | after a delete the group's file list is `([], 0)` |
| FederatedSearch.PatternIsReplacement | database/ia_filterdb.py:156-166 | the multi-word pattern is the query wrapped once in the boundary group, with every space replaced by boundary, separator, boundary |
| FederatedSearch.PatternsAgreeOnOneWord | database/ia_filterdb.py:156-166 | for a one-word query the search pattern and the `get_bad_files` pattern coincide. The separators differ only in the brackets |
| FederatedSearch.QueryPattern | database/ia_filterdb.py:156-166 | the pattern is `.` exactly for the empty query, and any other query's pattern opens with the word-boundary group |
| FederatedSearch.NextOffset | database/ia_filterdb.py:219-221 | the next offset is the offset plus the page exactly when the page is non-empty and that sum is below the total, and 0 otherwise |
| FederatedSearch.PageSize | database/ia_filterdb.py:144-154 | the page size is even. It is 10 when the chat sets `max_btn`, otherwise `MAX_B_TN`, or the caller's value without a chat, rounded up by at most one |
| FederatedSearch.Selects | database/ia_filterdb.py:172-178 | the store filter: the pattern finds the name (or, with `USE_CAPTION_FILTER`, the caption), and the file type matches when one is asked for |
| FederatedSearch.Matching | database/ia_filterdb.py:194 | one collection's matches, newest first: every document returned passes the filter, and every document that passes is returned |
| FederatedSearch.FederatedPage | database/ia_filterdb.py:194-222 | the page never exceeds the page size, and the next offset is 0 or the offset plus the page, below the total |
| FederatedSearch.FederatedPageIsSlice | database/ia_filterdb.py:194-222 | the two-cursor merge returns exactly the window `[offset, offset+m)` of primary matches followed by secondary matches, and the total is their number |
| FederatedSearch.GetSearchResults | database/ia_filterdb.py:143-222 | an uncompilable pattern gives `([], 0, 0)`. Pages never exceed the page size. The next offset is 0 or moves past the page, below the total |
| FederatedSearch.Candidates | database/ia_filterdb.py:182-222 | the candidates are the series' files when the query names a series with found media. Otherwise every candidate passes the store filter, every primary document that passes is a candidate, and with `MULTIPLE_DB` so is every secondary one |
| FederatedSearch.CandidatesIsFilter | database/ia_filterdb.py:194-222 | without a series, the candidates are the primary's documents that pass the filter, in order, followed with `MULTIPLE_DB` by the secondary's |
| FederatedSearch.SearchPageIsWindow | database/ia_filterdb.py:183-222 | every page, series or media, is the window of one candidate list, whose length is the total |
| FederatedSearch.WalkVisitsAll | database/ia_filterdb.py:219-221 | following the next offsets until 0 lists every remaining candidate once, in order |
| FederatedSearch.GetBadFiles | database/ia_filterdb.py:224-254 | an uncompilable pattern gives `([], 0)`. Every file returned passes the filter, every primary document that passes is returned, and with `MULTIPLE_DB` so is every secondary one. Without it only primary documents come back. The total is the length |
| FederatedSearch.GetBadFilesIsFilter | database/ia_filterdb.py:246-253 | the files are the primary's documents that pass, in order, followed with `MULTIPLE_DB` by the secondary's |
| FederatedSearch.SearchWalkListsBadFiles | database/ia_filterdb.py:143-254 | for a one-word query naming no series, paging through the search lists exactly what `get_bad_files` returns |
| SingleStore.NormaliseName | src/database/utils/files.py:36 | the stored name has the same length, with `_ - . +` turned into spaces and every other character kept |
| SingleStore.NormaliseNameIdempotent | src/database/utils/files.py:36 | normalising twice is normalising once |
| SingleStore.NormaliseNameIsReplacements | src/database/utils/files.py:36 | the character-class substitution equals four single-character replacements in a row |
| SingleStore.FileTypeOf | src/database/utils/files.py:46 | a type exists exactly when there is a non-empty mime type. It is the mime type's prefix up to the first `/` and holds no `/` |
| SingleStore.FileTypeIsFirstSplitPart | src/database/utils/files.py:46 | the type is `mime_type.split('/')[0]` |
| SingleStore.SaveFile | src/database/utils/files.py:34-58 | `'suc'` exactly when the id decodes, the store works and the id is new, and the record is then added. `'dup'` exactly when the id is already there. Anything but `'suc'` changes nothing |
| SingleStore.SecondSaveIsDup | src/database/utils/files.py:34-58 | saving the same media twice gives `'dup'` and leaves the store as after the first save |
| SingleStore.FilesPattern | src/database/utils/files.py:62-67 | a query without a space is put between the two boundary groups, the same pattern the dual store's `get_bad_files` builds for it. For a query with a space, the pattern is the words split on single spaces, joined by the separator, and no space is left in it |
| SingleStore.SearchFilter | src/database/utils/files.py:69-74 | the compiled pattern is used exactly when it compiles, and it is then the pattern of the stripped query. Otherwise the stripped query is compared as plain text |
| SingleStore.StrideNext | src/database/utils/files.py:90 | the next offset is offset+m exactly when that is below the total, otherwise `''` |
| SingleStore.SearchFiles | src/database/utils/files.py:61-92 | pages have at most m files, and the next offset follows the stride rule |
| SingleStore.SearchFilesIsWindow | src/database/utils/files.py:74-92 | with or without a language, the page is the window `[offset, offset+m)` of the candidates, and the total is their count |
| SingleStore.StrideWalkVisitsAll | src/database/utils/files.py:88-90 | walking `offset, offset+m, …` until `''` visits each remaining match once, in order |
| SingleStore.GetBadFiles | src/database/utils/files.py:95-113 | a bare empty list exactly when the pattern does not compile. Otherwise every file matches the pattern and the type, every document that matches both is returned, and the total is the count |
| SingleStore.GetBadFilesIsFilter | src/database/utils/files.py:108-113 | the files are exactly the documents, newest first, whose name matches the pattern and whose type is the one asked for |
| SingleStore.GetFileDetails | src/database/utils/files.py:116-120 | one record exactly when the store works and holds the id. It is the stored record |
| SingleStore.SavedIsFound | src/database/utils/files.py:34-58 | a saved media is found again under its id |
| SingleStore.FormateFileName | src/database/utils/files.py:151-157 | the words of the result are exactly the input's words not starting with `[`, `@` or `www.`, in order, and the result is those words joined by single spaces |
| SingleStore.FormateFileNameIdempotent | src/database/utils/files.py:151-157 | formatting a formatted name changes nothing |
| QuerySearch.NamePattern | src/database/utils/filters.py:53-60 | the pattern built from the escaped, split query is used exactly when it compiles, otherwise the escaped stripped query. A query without inner whitespace gets the escaped query either way, which reads as the query's characters taken literally |
| QuerySearch.AsWrittenPattern | src/database/utils/filters.py:53-55 | escaping the whole query, splitting and joining with `.*` leaves a query without whitespace as just the escaped query |
| QuerySearch.Pattern | src/database/utils/filters.py:53-55 | the corrected pattern, each word escaped on its own, reads as the query's words taken literally with `.*` between them |
| QuerySearch.ParseWords | src/database/utils/filters.py:54-55 | escaped words joined by `.*` read back as the words' literal characters with a wildcard run between them |
| QuerySearch.MatchSpacedWords | src/database/utils/filters.py:54-55 | that piece list matches the words joined by single spaces |
| QuerySearch.PatternFindsWords | src/database/utils/filters.py:54-55 | a name holding the query's words, separated by single spaces, is found by the word-then-escape pattern |
| QuerySearch.PatternFindsQueryWords | src/database/utils/filters.py:53-55 | the corrected pattern parses, and it finds any name that holds the query's words separated by single spaces |
| QuerySearch.AsWrittenMissesSpacedName | src/database/utils/filters.py:54-55 | as written, the query `a b` gives the pattern `a\.*b`, which does not find the name `a b` |
| QuerySearch.SpacedQueryMissesSpacedName | src/database/utils/filters.py:53-66 | when the pattern built for `a b` compiles, no document named `a b` is a candidate, for any matcher that finds only what the pattern reads as |
| QuerySearch.Candidates | src/database/utils/filters.py:62-66 | every candidate matches the name pattern built as the code builds it and, with a language, contains it in its lower-cased name |
| QuerySearch.MatchesFor | src/database/utils/filters.py:62-66 | every match of a chosen pattern matches it and, with a language, contains it in its lower-cased name |
| QuerySearch.MatchesForIsFilter | src/database/utils/filters.py:62-66 | the matches are exactly the documents, newest first, whose name the pattern matches and, with a language, whose lower-cased name contains it |
| QuerySearch.PageFor | src/database/utils/filters.py:65-76 | the total is the number of matches. Pages have at most m files. The next offset is offset+m exactly when that is below the total |
| QuerySearch.GetSearchResults | src/database/utils/filters.py:52-76 | with the as-written pattern, the total is the number of candidates. Pages have at most m files. The next offset is offset+m exactly when that is below the total |
| QuerySearch.SearchResultsIsWindow | src/database/utils/filters.py:65-76 | every page is the window `[offset, offset+m)` of the candidates |
| QuerySearch.PageIsWindow | src/database/utils/filters.py:65-76 | every page of a chosen pattern is the window `[offset, offset+m)` of its matches |
| QuerySearch.BrowseListsAll | src/database/utils/filters.py:73-76 | walking the pages from 0 until `''` lists every candidate once, in order |
| ReadableTime.Decompose | src/database/utils/filters.py:44-49 | the days, hours, minutes and seconds weighted by 86400, 3600, 60, 1 sum to the input, with hours < 24 and minutes, seconds < 60 |
| ReadableTime.GetReadableTime | src/database/utils/filters.py:43-50 | no text for zero or negative input, and never leading or trailing whitespace |
| ReadableTime.ReadableTimeShowsDecomposition | src/database/utils/filters.py:43-50 | the text is the non-zero units of the decomposition, largest first, joined by single spaces |
| ReadableTime.ReadableTimeEmptyIff | src/database/utils/filters.py:43-50 | the text is empty exactly when the input is at most 0 |
| ReadableTime.GetStatus | src/database/utils/filters.py:29-34 | morning exactly for hours 5–11, afternoon exactly for 12–17, evening exactly for the rest |
| ReadableTime.ColomboHour | src/database/utils/filters.py:27-28 | the hour is the one whose 3600 seconds hold the instant's second of the Asia/Colombo day (UTC+5:30) |
| ReadableTime.StatusAt | src/database/utils/filters.py:26-34 | the greeting at any instant is one of the three |
| ReadableTime.MorningStartsAtHalfPastElevenUtc | src/database/utils/filters.py:27-30 | morning begins at 23:30 UTC, when it is 05:00 in Colombo (UTC+5:30) |
| ReadableTime.AfternoonStartsAtHalfPastSixUtc | src/database/utils/filters.py:27-32 | afternoon begins at 06:30 UTC, when it is 12:00 in Colombo |
| ReadableTime.EveningStartsAtHalfPastTwelveUtc | src/database/utils/filters.py:27-34 | evening begins at 12:30 UTC, when it is 18:00 in Colombo |
| Autofilter.EnableAutofilter | src/database/utils/filters.py:81-82 | `delete_one` removes the chat's first document and keeps the others in order. An absent chat changes nothing |
| Autofilter.EnableRemovesOneDocument | src/database/utils/filters.py:81-82 | enabling takes exactly one copy of the chat id out of the collection |
| Autofilter.DisableAutofilter | src/database/utils/filters.py:84-86 | afterwards the chat is disabled. A document is inserted only when none exists |
| Autofilter.DisableIdempotent | src/database/utils/filters.py:84-86 | disabling twice leaves what disabling once leaves |
| Autofilter.DisableKeepsOnePerChat | src/database/utils/filters.py:84-86 | a collection with one document per chat keeps that shape |
| Autofilter.EnableAfterDisable | src/database/utils/filters.py:78-86 | with one document per chat, enabling turns the chat on and leaves every other chat as it was |
| Autofilter.EnableRemovesOnlyOneDocument | src/database/utils/filters.py:81-82 | with two documents for a chat, one enable leaves it disabled |
| Autofilter.GetEnabledChats | src/database/utils/filters.py:88-90 | the list holds the chat id of every document, in document order, so exactly the chats for which `is_autofilter_enabled` is False |
| Session.ResetState | utils.py:20-24 | all three maps are empty afterwards |
| Session.SetPending | utils.py:26-29 | the chat now maps the key to the data. The chat's other keys are kept, and no other chat changes |
| Session.GetPending | utils.py:31-32 | the stored data, or `{}` for an unknown chat or key |
| Session.PopPending | utils.py:34-37 | returns what `get_pending` would, removes only that key, and keeps the set of chats |
| Session.GetAfterSet | utils.py:26-32 | reading after writing a (chat, key) gives the written data |
| Session.SetLeavesOthers | utils.py:26-32 | writing one (chat, key) leaves every other (chat, key) reading as before |
| Session.PopAfterSet | utils.py:26-37 | pop returns what was set. A second pop returns `{}` and changes nothing |
| Session.PopLeavesOthers | utils.py:31-37 | popping one (chat, key) leaves every other reading as before |
| Session.ResetForgetsAll | utils.py:20-49 | after a reset every pending read is `{}` and every last-message read is None |
| Session.GetLast | utils.py:42-49 | None exactly for an absent chat, otherwise the stored message id |
| Session.LastWriteWins | utils.py:39-49 | of two writes for one chat, the later is read back |
| StartLink.ParsePayload | src/modules/start.py:20-30 | a start argument is a file link exactly when it is present and starts with `file_` |
| StartLink.PayloadOf | src/modules/start.py:23-28 | `file_X` gives file id X when X has no `_`, otherwise chat id = X before its first `_` and file id = the rest |
| StartLink.PayloadNeverInvalid | src/modules/start.py:24-30 | the invalid-format reply is unreachable: `split("_", 2)` of a `file_` argument always has 2 or 3 parts |
| StartLink.PayloadRoundTrip | src/modules/start.py:23-28 | the link `file_<id>` brings `<id>` back exactly when `<id>` holds no `_` |
| StartLink.CodecWritesUnderscore | database/ia_filterdb.py:351-362 | `encode_file_id` of the single byte 255 exists and holds `_`, so some real `_id`s put into a `file_…` link do not survive the payload |
| StartLink.FileDetails | src/modules/start.py:32-37 | a cached id is served from the cache without a lookup. Otherwise the store is asked, and only a non-empty answer is added. Existing entries never change |
| StartLink.FileDetailsCoherent | src/modules/start.py:32-37 | a cache that agrees with the store keeps agreeing, and its answer is what a working store gives whenever the store works or the id is cached |
| StartLink.FoundIdSurvivesOutage | src/modules/start.py:32-37 | once an id has been found, a later store failure still serves it |
| StartLink.CacheKeyInjective | src/modules/start.py:123 | `f"{search}_{offset}"` determines both the search and the offset |
| StartLink.CacheKey | src/modules/start.py:123 | the key starts with the search and `_`, and the offset reads back from the digits after it |
| StartLink.CachedLookup | src/modules/start.py:122-131 | an entry younger than the age limit is returned and the cache is kept. Otherwise the fresh result is returned and stored with the clock reading taken after the search, not the one the age was checked against. Other keys are untouched |
| StartLink.CachedSearch | src/modules/start.py:122-131 | the corrected cached search stores its key and leaves all other keys untouched |
| StartLink.CachedSearchIsWindow | src/modules/start.py:122-131 | with the corrected call, a coherent cache stays coherent, and the answer is the window `[offset, offset+8)` of the matches, cached or not |
| StartLink.AsWrittenNextOffsetRepeats | src/modules/start.py:129 | as written, with more matches than the offset, the next offset returned is the requested offset itself. The page holds the first `offset` matches, so at the call site's offset 0 it is empty |
| StartLink.CachedSearchAdvances | src/modules/start.py:122-131 | corrected, the next offset moves on by the page size |
| Indexer.PreviewCount | src/modules/index.py:80 | the count to index is positive exactly when the last id exceeds the skip, and is then their difference |
| Indexer.Saves | src/modules/index.py:155-161 | one save is queued per message that is a video or document with a supported mime type, and no other |
| Indexer.ClassifyAll | src/modules/index.py:139-161 | each fetched message adds one to `processed`. The deleted, no-media and unsupported counters grow by the number of such messages. The saves queued are those of the supported media, in message order |
| Indexer.ClassesPartition | src/modules/index.py:143-161 | every message lands in exactly one of deleted, no media, unsupported, queued |
| Indexer.CountResults | src/modules/index.py:165-171 | `'suc'` raises `total_files`, `'dup'` raises `duplicate`, an exception raises `errors`, each by its number of occurrences. Nothing else changes |
| Indexer.TalliedAtMostQueued | src/modules/index.py:165-171 | suc, dup, exception and the uncounted `'err'` partition the results |
| Indexer.TallyBatch | src/modules/index.py:139-171 | after a batch, `processed` grows by the batch length. Deleted, no-media and unsupported each grow by their number of messages. The count returned is the number of supported media. `total_files`, `duplicate` and `errors` grow by the number of `'suc'`, `'dup'` and exception outcomes among the queued saves. So saved + duplicate + errors grows by at most the number queued |
| Indexer.BatchMessages | src/modules/index.py:122-129 | the batch is the b = min(200, cur) messages with ids `cur−b+1 .. cur`, oldest first |
| Indexer.Advance | src/modules/index.py:122-191 | a flood wait changes nothing, so the same batch is fetched again. Otherwise the batch `[cur−b+1, cur]` with b = min(200, cur) is recorded, `cur` drops by b and `processed` grows by b. A failed fetch adds b to `errors` and to the failed ids and queues nothing. Fetched messages change the counters exactly as the batch tally of those ids does. The counters stay accounted for |
| Indexer.Step | src/modules/index.py:122-191 | one iteration keeps the batches tiling the ids from `lst−skip` down to `cur`, keeps `processed` equal to the number of ids fetched so far, keeps the counters accounted for, and adds a batch exactly when it did not wait out a flood |
| Indexer.AdvanceAsWritten | src/modules/index.py:130-132 | as written, a flood wait ends the run, because the handler reads `e.x`; any other fetch gives the corrected step |
| Indexer.AsWrittenFloodWaitEndsRun | src/modules/index.py:130-132 | as written, one flood wait ends the run with ids still unfetched; corrected, the state is kept and the batch is retried |
| Indexer.TilesExtend | src/modules/index.py:122-123 | a batch just below the covered range extends the covering |
| Indexer.IndexFilesToDb | src/modules/index.py:84-191 | nothing is fetched exactly when the preview count is 0. The batches tile `lst−skip` down to the last id not yet fetched. On completion all `lst−skip` ids are covered and processed. A cancel stops before any further batch. Every processed message is accounted for, and saved + duplicate + errors stays within the saves attempted plus failed fetches |
| Indexer.TilesCover | src/modules/index.py:122-137 | every id in the tiled range lies in some batch |
| Indexer.TilesDisjoint | src/modules/index.py:122-137 | later batches lie strictly below earlier ones, so no id is fetched twice |

## Left out

- MongoDB, motor and umongo are not modelled. A collection is a map with a newest-first order, and a query's matches are a filtered sequence.
- `cursor.limit(0)` means "no limit" in MongoDB. Here a page of size 0 is empty, and the walk lemmas ask for a page size of at least 1.
- Regular expressions: both database modules leave compilation and matching as parameters. `IGNORECASE` is therefore not modelled.
- QuerySearch has a small matcher of its own, for literals, `.` and `*` only. It exists to show the escaping defect of the filters module. It is not a model of Python's `re`.
- `check_db_size` does not look at the database handle. Whether the handle names the primary is an input, because both handles share one database name in the configuration.
- The clock is an integer input: seconds for `time.time()`, ticks for the event-loop time.
- `asyncio.sleep` after a flood wait and between batches is not modelled.
- The asyncio lock of the indexer and concurrency in general are not modelled. Every operation is one sequential step.
- `FileId.decode` of pyrogram is an input: a decoded value, or `None` when decoding fails.
- `clean_filename` is a parameter. Its definition is not part of this model.
- The per-chat settings read by `get_settings` are reduced to `chatMaxBtn`: whether the chat sets `max_btn`. The `save_group_settings` repair on a malformed setting is not modelled.
- A `filter` dictionary supplied by the caller of the dual-store `get_search_results` is not modelled. The model always builds the filter itself.
- SeriesGroups.SaveSeriesGroup: `list(set(...))` has no defined order. The model keeps the first occurrence of each id, old ids first. The contract states membership and distinctness only, so it holds for any order.
- `get_size`, `format_watch_date` and other floating-point or date formatting are not modelled.
- `auto_detect_series` is not modelled, because it uses floating-point scores.
- `parse_file_name`, `dreamxbotz_clean_title`, `dreamxbotz_get_series` and `dreamxbotz_get_movies` are not modelled. They depend on regular-expression engine semantics.
- The TMDB and IMDb clients are not modelled, because they are network code.
- The SQLite store in db.py is not modelled. Its behaviour lives in SQL statements.
- The Telegram handlers, keyboards, message edits and progress texts are not modelled. This includes the `temp.CANCEL = False` reset, which is a global flag write. Indexer.IndexFilesToDb reads one cancel flag per round from its script.
- The indexer sets `media.caption = message.caption` before saving. This is not modelled, because saving is an input outcome here.
- Indexer.IndexFilesToDb does not model the outer `except` (index.py:193-194). An exception outside the fetch is a Telegram or I/O failure. A flood wait is modelled as the retry the handler intends; the as-written end of the run is stated step by step by Indexer.AdvanceAsWritten, as the finding below says. The loop is instead bounded by its script of rounds; when the script runs out, the result is `OutOfRounds`.
- QuerySearch.GetSearchResults and QuerySearch.Candidates search with the pattern as the code builds it, so the escaping defect under "## Findings" is part of their behaviour, as QuerySearch.SpacedQueryMissesSpacedName shows. The corrected QuerySearch.Pattern is stated on its own, by QuerySearch.PatternFindsQueryWords.
- StartLink.CachedSearchAsWritten has no contract of its own. Its behaviour is stated by StartLink.AsWrittenNextOffsetRepeats.
- The base64url decoder, the zero-run expansion and `<iiqq` unpacking do not appear in the code. They exist only as partners for the round-trip properties.

## Findings

| source | as written | input that shows it | evidently intended | confidence | as-written member | corrected member |
|---|---|---|---|---|---|---|
| src/database/utils/filters.py:54-55 | the query is escaped before it is split on whitespace. `re.escape` turns each space into `\ `, so every word but the last keeps a trailing `\`, and the `.*` joiner becomes `\.*`: any number of literal dots | the query `a b` builds `a\.*b`, which does not find the name `a b` | split the stripped query into words, escape each word, and join the words with `.*` | not executed | QuerySearch.AsWrittenMissesSpacedName | QuerySearch.PatternFindsQueryWords |
| src/modules/index.py:131 | the flood-wait handler sleeps for `e.x`. The loop uses `enums.MessageMediaType` (index.py:151), which only pyrogram 2 has, and pyrogram 2's `FloodWait` carries its wait in `value` (as broadcast.py:42 reads it), not `x`. The handler then raises `AttributeError`, which the sibling `except Exception` does not catch; the outer `except` ends the run with "Indexing failed" | any batch whose fetch meets a flood limit: the run stops with ids still unfetched instead of waiting and fetching the batch again | `await asyncio.sleep(e.value)` and `continue`, so the same batch is fetched again | not executed; depends on the installed pyrogram being version 2 | Indexer.AsWrittenFloodWaitEndsRun | Indexer.Advance |
| src/modules/start.py:129 | `get_search_results(search, offset)` passes the offset as the second positional argument, which is `max_results`. The search always starts at 0, and `offset` becomes the page size | any search with more matches than the offset: the next offset returned equals the offset requested, so paging never advances (at the one call site the offset is 0, so the page size is 0 and the next offset is 0 again) | `get_search_results(search, offset=offset)` with the default page size of 8 | not executed | StartLink.AsWrittenNextOffsetRepeats | StartLink.CachedSearchAdvances |

=== FILE: autofilter.dfy ===
/** The autofilter opt-out list of `src/database/utils/filters.py`: the
    `chatsdb` collection holds one document per chat that has switched the
    automatic filter off. The collection is a sequence of chat ids in
    insertion order, since nothing stops it from holding one id twice. */
module Autofilter {

  type ChatsDb = seq<int>

  /** `is_autofilter_enabled`: the chat has no document. */
  predicate IsAutofilterEnabled(db: ChatsDb, chat: int)
  {
    chat !in db
  }

  /** Position of the first document for a chat. */
  function FirstIndex(db: ChatsDb, chat: int): (k: nat)
    requires chat in db
    ensures k < |db| && db[k] == chat && chat !in db[..k]
  {
    if db[0] == chat then 0 else FirstIndex(db[1..], chat) + 1
  }

  /** `delete_one`: the first document for the chat goes, nothing else. */
  function RemoveFirst(db: ChatsDb, chat: int): (r: ChatsDb)
    ensures chat in db ==> r == db[..FirstIndex(db, chat)] + db[FirstIndex(db, chat) + 1..]
    ensures chat !in db ==> r == db
  {
    if chat in db then
      var k := FirstIndex(db, chat);
      assert db == db[..k] + [chat] + db[k + 1..];
      db[..k] + db[k + 1..]
    else db
  }

  /** `enable_autofilter`. */
  function EnableAutofilter(db: ChatsDb, chat: int): (r: ChatsDb)
    ensures chat in db ==> |r| == |db| - 1 && r == db[..FirstIndex(db, chat)] + db[FirstIndex(db, chat) + 1..]
    ensures chat !in db ==> r == db
  {
    RemoveFirst(db, chat)
  }

  /** Enabling removes exactly one document of the chat, when there is one. */
  lemma EnableRemovesOneDocument(db: ChatsDb, chat: int)
    ensures multiset(EnableAutofilter(db, chat)) == multiset(db) - multiset{chat}
  {
    if chat in db {
      var k := FirstIndex(db, chat);
      assert db == db[..k] + [chat] + db[k + 1..];
    }
  }

  /** `disable_autofilter`: a document is added only when the chat has none. */
  function DisableAutofilter(db: ChatsDb, chat: int): (r: ChatsDb)
    ensures !IsAutofilterEnabled(r, chat)
    ensures chat in db ==> r == db
    ensures chat !in db ==> r == db + [chat]
  {
    if chat in db then db else db + [chat]
  }

  /** `get_enabled_chats`: the `chat_id` of every document, in order. The
      ids returned are those of the chats that have the filter switched off. */
  function GetEnabledChats(db: ChatsDb): (r: seq<int>)
    ensures forall c :: c in r <==> !IsAutofilterEnabled(db, c)
    ensures |r| == |db|
    ensures multiset(r) == multiset(db)
    ensures forall i :: 0 <= i < |r| ==> r[i] == db[i]
  {
    db
  }

  /** One document per chat. */
  predicate OnePerChat(db: ChatsDb)
  {
    forall i, j :: 0 <= i < j < |db| ==> db[i] != db[j]
  }

  lemma DisableIdempotent(db: ChatsDb, chat: int)
    ensures DisableAutofilter(DisableAutofilter(db, chat), chat) == DisableAutofilter(db, chat)
  {
  }

  lemma DisableKeepsOnePerChat(db: ChatsDb, chat: int)
    requires OnePerChat(db)
    ensures OnePerChat(DisableAutofilter(db, chat))
  {
  }

  /** With one document per chat, enabling turns the filter back on and
      touches no other chat. */
  lemma {:induction false} EnableAfterDisable(db: ChatsDb, chat: int)
    requires OnePerChat(db)
    ensures IsAutofilterEnabled(EnableAutofilter(db, chat), chat)
    ensures forall c :: c != chat ==> (IsAutofilterEnabled(EnableAutofilter(db, chat), c) <==> IsAutofilterEnabled(db, c))
  {
    var r := EnableAutofilter(db, chat);
    if chat in db {
      var k := FirstIndex(db, chat);
      var before, after := db[..k], db[k + 1..];
      assert r == before + after;
      assert db == before + [chat] + after;
      assert chat !in after by {
        forall j | 0 <= j < |after|
          ensures after[j] != chat
        {
          assert after[j] == db[k + 1 + j];
          assert db[k] != db[k + 1 + j];
        }
      }
      forall c | c != chat
        ensures c in r <==> c in db
      {
        assert c in r <==> c in before || c in after;
        assert c in db <==> c in before || c in after;
      }
    }
  }

  /** With two documents for a chat, one `enable_autofilter` leaves the
      chat still opted out. */
  lemma EnableRemovesOnlyOneDocument(chat: int)
    ensures !IsAutofilterEnabled(EnableAutofilter([chat, chat], chat), chat)
  {
    assert EnableAutofilter([chat, chat], chat) == [chat];
  }
}

=== FILE: base64url.dfy ===
/** The URL- and filename-safe base64 alphabet of section 5 of RFC 4648, as
    `base64.urlsafe_b64encode(b).decode().rstrip("=")` uses it: standard
    base64 with '-' and '_' for values 62 and 63, padding stripped.
    `Decode` is the inverse the identifier codec relies on for uniqueness. */
module Base64Url {
  import opened Common

  /** Characters of the alphabet: A-Z, a-z, 0-9, '-', '_'. */
  predicate IsUrlChar(c: char)
  {
    ('A' <= c <= 'Z') || ('a' <= c <= 'z') || ('0' <= c <= '9') || c == '-' || c == '_'
  }

  /** The character that stands for the six-bit value `v`. */
  function CharOf(v: int): (c: char)
    requires 0 <= v < 64
    ensures IsUrlChar(c)
  {
    if v < 26 then ('A' as int + v) as char
    else if v < 52 then ('a' as int + (v - 26)) as char
    else if v < 62 then ('0' as int + (v - 52)) as char
    else if v == 62 then '-'
    else '_'
  }

  /** The six-bit value of an alphabet character; `None` outside it. */
  function ValueOf(c: char): (r: Option<int>)
    ensures r.Some? <==> IsUrlChar(c)
    ensures r.Some? ==> 0 <= r.value < 64
  {
    if 'A' <= c <= 'Z' then Some(c as int - 'A' as int)
    else if 'a' <= c <= 'z' then Some(c as int - 'a' as int + 26)
    else if '0' <= c <= '9' then Some(c as int - '0' as int + 52)
    else if c == '-' then Some(62)
    else if c == '_' then Some(63)
    else None
  }

  lemma ValueOfCharOf(v: int)
    requires 0 <= v < 64
    ensures ValueOf(CharOf(v)) == Some(v)
  {
  }

  /** The second and third six-bit values of a group straddle two bytes. */
  function Sextet1(b0: byte, b1: byte): (v: int)
    ensures 0 <= v < 64
  {
    (b0 % 4) * 16 + b1 / 16
  }

  function Sextet2(b1: byte, b2: byte): (v: int)
    ensures 0 <= v < 64
  {
    (b1 % 16) * 4 + b2 / 64
  }

  /** Three bytes as four characters. */
  function EncodeGroup(b0: byte, b1: byte, b2: byte): string
  {
    [CharOf(b0 / 4), CharOf(Sextet1(b0, b1)), CharOf(Sextet2(b1, b2)), CharOf(b2 % 64)]
  }

  /** Unpadded base64url: a trailing single byte gives two characters and a
      trailing pair gives three. */
  function Encode(b: seq<byte>): (r: string)
    ensures forall i :: 0 <= i < |r| ==> IsUrlChar(r[i])
  {
    if |b| == 0 then ""
    else if |b| == 1 then [CharOf(b[0] / 4), CharOf(Sextet1(b[0], 0))]
    else if |b| == 2 then [CharOf(b[0] / 4), CharOf(Sextet1(b[0], b[1])), CharOf(Sextet2(b[1], 0))]
    else EncodeGroup(b[0], b[1], b[2]) + Encode(b[3..])
  }

  /** Four characters per three bytes, rounded up: no padding characters. */
  lemma {:induction false} EncodeLength(b: seq<byte>)
    ensures |Encode(b)| == (4 * |b| + 2) / 3
    decreases |b|
  {
    if |b| >= 3 {
      EncodeLength(b[3..]);
    }
  }

  /** Standard padded output: a trailing single byte is followed by "==" and
      a trailing pair by "=". */
  function EncodePadded(b: seq<byte>): string
  {
    if |b| == 0 then ""
    else if |b| == 1 then Encode(b) + "=="
    else if |b| == 2 then Encode(b) + "="
    else EncodeGroup(b[0], b[1], b[2]) + EncodePadded(b[3..])
  }

  /** Python's `s.rstrip(c)` for one character. */
  function RStripChar(s: string, c: char): (r: string)
    ensures |r| <= |s| && r == s[..|r|]
    ensures |r| > 0 ==> r[|r| - 1] != c
  {
    if |s| > 0 && s[|s| - 1] == c then RStripChar(s[..|s| - 1], c) else s
  }

  /** `urlsafe_b64encode(b).decode().rstrip("=")`: the padded encoding with
      every trailing '=' removed. */
  function UrlSafeEncodeStripped(b: seq<byte>): (r: string)
    ensures r == Encode(b)
  {
    PaddedIsEncodePlusPad(b);
    NoPadChar(b);
    StripPad(Encode(b), Pad(|b|));
    RStripChar(EncodePadded(b), '=')
  }

  function Pad(n: nat): string
  {
    if n % 3 == 1 then "==" else if n % 3 == 2 then "=" else ""
  }

  lemma {:induction false} PaddedIsEncodePlusPad(b: seq<byte>)
    ensures EncodePadded(b) == Encode(b) + Pad(|b|)
    decreases |b|
  {
    if |b| >= 3 {
      PaddedIsEncodePlusPad(b[3..]);
      assert |b[3..]| % 3 == |b| % 3;
    }
  }

  lemma NoPadChar(b: seq<byte>)
    ensures '=' !in Encode(b)
  {
    var e := Encode(b);
    assert forall i :: 0 <= i < |e| ==> e[i] != '=';
  }

  lemma StripPad(s: string, pad: string)
    requires '=' !in s
    requires pad == "" || pad == "=" || pad == "=="
    ensures RStripChar(s + pad, '=') == s
  {
    if pad == "==" {
      assert (s + pad)[..|s| + 1] == s + "=";
    }
    if pad != "" {
      assert (s + "=")[..|s|] == s;
    }
    if |s| > 0 {
      assert s[|s| - 1] in s;
    }
  }

  /** The three bytes a group of four six-bit values stands for. */
  function Byte0(v0: int, v1: int): (r: int)
    requires 0 <= v0 < 64 && 0 <= v1 < 64
    ensures 0 <= r < 256
  {
    v0 * 4 + v1 / 16
  }

  function Byte1(v1: int, v2: int): (r: int)
    requires 0 <= v1 < 64 && 0 <= v2 < 64
    ensures 0 <= r < 256
  {
    (v1 % 16) * 16 + v2 / 4
  }

  function Byte2(v2: int, v3: int): (r: int)
    requires 0 <= v2 < 64 && 0 <= v3 < 64
    ensures 0 <= r < 256
  {
    (v2 % 4) * 64 + v3
  }

  /** Four characters back to three bytes. */
  function DecodeGroup(v0: int, v1: int, v2: int, v3: int): seq<byte>
    requires 0 <= v0 < 64 && 0 <= v1 < 64 && 0 <= v2 < 64 && 0 <= v3 < 64
  {
    [Byte0(v0, v1) as byte, Byte1(v1, v2) as byte, Byte2(v2, v3) as byte]
  }

  /** Unpadded base64url decoding; `None` for a character outside the
      alphabet or a length that leaves one character over. */
  function Decode(s: string): (r: Option<seq<byte>>)
    ensures r.Some? ==> |r.value| == (3 * |s|) / 4
  {
    if |s| == 0 then Some([])
    else if |s| == 1 then None
    else
      var o0, o1 := ValueOf(s[0]), ValueOf(s[1]);
      if o0.None? || o1.None? then None
      else if |s| == 2 then Some([Byte0(o0.value, o1.value) as byte])
      else
        var o2 := ValueOf(s[2]);
        if o2.None? then None
        else if |s| == 3 then Some([Byte0(o0.value, o1.value) as byte, Byte1(o1.value, o2.value) as byte])
        else
          var o3 := ValueOf(s[3]);
          if o3.None? then None
          else match Decode(s[4..])
            case None => None
            case Some(rest) => Some(DecodeGroup(o0.value, o1.value, o2.value, o3.value) + rest)
  }

  /** Each byte comes back from the six-bit values it was split into. */
  lemma Byte0Back(b0: byte, b1: byte)
    ensures Byte0(b0 / 4, Sextet1(b0, b1)) == b0 as int
  {
    assert Sextet1(b0, b1) / 16 == b0 % 4;
  }

  lemma Byte1Back(b0: byte, b1: byte, b2: byte)
    ensures Byte1(Sextet1(b0, b1), Sextet2(b1, b2)) == b1 as int
  {
    assert Sextet1(b0, b1) % 16 == b1 / 16;
    assert Sextet2(b1, b2) / 4 == b1 % 16;
  }

  lemma Byte2Back(b1: byte, b2: byte)
    ensures Byte2(Sextet2(b1, b2), b2 % 64) == b2 as int
  {
    assert Sextet2(b1, b2) % 4 == b2 / 64;
  }

  lemma GroupRoundTrip(b0: byte, b1: byte, b2: byte)
    ensures DecodeGroup(b0 / 4, Sextet1(b0, b1), Sextet2(b1, b2), b2 % 64) == [b0, b1, b2]
  {
    Byte0Back(b0, b1);
    Byte1Back(b0, b1, b2);
    Byte2Back(b1, b2);
  }

  /** Decoding the encoding gives the bytes back, for every byte string. */
  lemma {:induction false} DecodeEncode(b: seq<byte>)
    ensures Decode(Encode(b)) == Some(b)
    decreases |b|
  {
    if |b| == 1 {
      DecodeEncodeOne(b);
    } else if |b| == 2 {
      DecodeEncodeTwo(b);
    } else if |b| >= 3 {
      DecodeEncode(b[3..]);
      DecodeEncodeGroup(b);
    }
  }

  /** Two, three and four characters from their six-bit values decode to
      one byte, two bytes, and one group ahead of any decodable tail. */
  lemma DecodeTwoValues(v0: int, v1: int)
    requires 0 <= v0 < 64 && 0 <= v1 < 64
    ensures Decode([CharOf(v0), CharOf(v1)]) == Some([Byte0(v0, v1) as byte])
  {
    ValueOfCharOf(v0);
    ValueOfCharOf(v1);
  }

  lemma DecodeThreeValues(v0: int, v1: int, v2: int)
    requires 0 <= v0 < 64 && 0 <= v1 < 64 && 0 <= v2 < 64
    ensures Decode([CharOf(v0), CharOf(v1), CharOf(v2)]) == Some([Byte0(v0, v1) as byte, Byte1(v1, v2) as byte])
  {
    ValueOfCharOf(v0);
    ValueOfCharOf(v1);
    ValueOfCharOf(v2);
  }

  lemma DecodeFourValues(v0: int, v1: int, v2: int, v3: int, tail: string)
    requires 0 <= v0 < 64 && 0 <= v1 < 64 && 0 <= v2 < 64 && 0 <= v3 < 64
    requires Decode(tail).Some?
    ensures Decode([CharOf(v0), CharOf(v1), CharOf(v2), CharOf(v3)] + tail)
         == Some(DecodeGroup(v0, v1, v2, v3) + Decode(tail).value)
  {
    ValueOfCharOf(v0);
    ValueOfCharOf(v1);
    ValueOfCharOf(v2);
    ValueOfCharOf(v3);
    var e := [CharOf(v0), CharOf(v1), CharOf(v2), CharOf(v3)] + tail;
    assert e[4..] == tail;
  }

  lemma DecodeEncodeOne(b: seq<byte>)
    requires |b| == 1
    ensures Decode(Encode(b)) == Some(b)
  {
    DecodeTwoValues(b[0] / 4, Sextet1(b[0], 0));
    Byte0Back(b[0], 0);
    assert [b[0]] == b;
  }

  lemma DecodeEncodeTwo(b: seq<byte>)
    requires |b| == 2
    ensures Decode(Encode(b)) == Some(b)
  {
    DecodeThreeValues(b[0] / 4, Sextet1(b[0], b[1]), Sextet2(b[1], 0));
    Byte0Back(b[0], b[1]);
    Byte1Back(b[0], b[1], 0);
    assert [b[0], b[1]] == b;
  }

  lemma EncodeGroupAhead(b0: byte, b1: byte, b2: byte, tail: seq<byte>)
    ensures Encode([b0, b1, b2] + tail) == EncodeGroup(b0, b1, b2) + Encode(tail)
  {
    assert ([b0, b1, b2] + tail)[3..] == tail;
  }

  lemma DecodeEncodeGroupAhead(b0: byte, b1: byte, b2: byte, tail: seq<byte>)
    requires Decode(Encode(tail)) == Some(tail)
    ensures Decode(EncodeGroup(b0, b1, b2) + Encode(tail)) == Some([b0, b1, b2] + tail)
  {
    DecodeFourValues(b0 / 4, Sextet1(b0, b1), Sextet2(b1, b2), b2 % 64, Encode(tail));
    GroupRoundTrip(b0, b1, b2);
  }

  lemma SplitGroup(b: seq<byte>)
    requires |b| >= 3
    ensures b == [b[0], b[1], b[2]] + b[3..]
  {
  }

  lemma DecodeEncodeGroup(b: seq<byte>)
    requires |b| >= 3
    requires Decode(Encode(b[3..])) == Some(b[3..])
    ensures Decode(Encode(b)) == Some(b)
  {
    SplitGroup(b);
    EncodeGroupAhead(b[0], b[1], b[2], b[3..]);
    DecodeEncodeGroupAhead(b[0], b[1], b[2], b[3..]);
  }

  lemma EncodeInjective(a: seq<byte>, b: seq<byte>)
    requires Encode(a) == Encode(b)
    ensures a == b
  {
    DecodeEncode(a);
    DecodeEncode(b);
  }
}

=== FILE: common.dfy ===
/** Shared vocabulary: optional values, bytes, and the clamped slicing that
    both Python's `s[a:b]` and a store cursor's `skip(a).limit(n)` perform. */
module Common {

  datatype Option<+T> = None | Some(value: T)

  /** One octet, as Python's `bytes` elements are. */
  type byte = x: int | 0 <= x < 256

  function Min(a: int, b: int): int
  {
    if a <= b then a else b
  }

  function Max(a: int, b: int): int
  {
    if a <= b then b else a
  }

  /** `s[off:off+n]` in Python, and `skip(off).limit(n)` on a cursor over `s`:
      indices past the end are clamped, so the result is never longer than
      `n` and is empty once `off` reaches `|s|`. */
  function Slice<T>(s: seq<T>, off: nat, n: nat): (r: seq<T>)
    ensures |r| <= n
    ensures off >= |s| ==> r == []
    ensures off + n <= |s| ==> r == s[off..off + n]
    ensures off <= |s| < off + n ==> r == s[off..]
  {
    s[Min(off, |s|)..Min(off + n, |s|)]
  }

  /** Elements of `s` that satisfy `keep`, in their original order. */
  function Filter<T>(s: seq<T>, keep: T -> bool): (r: seq<T>)
    ensures |r| <= |s|
    ensures forall i :: 0 <= i < |r| ==> r[i] in s && keep(r[i])
    ensures forall i :: 0 <= i < |s| && keep(s[i]) ==> s[i] in r
    ensures |s| == 1 ==> r == (if keep(s[0]) then s else [])
  {
    if |s| == 0 then []
    else (if keep(s[0]) then [s[0]] else []) + Filter(s[1..], keep)
  }

  lemma {:induction false} FilterIdempotent<T>(s: seq<T>, keep: T -> bool)
    ensures Filter(Filter(s, keep), keep) == Filter(s, keep)
  {
    if |s| != 0 {
      FilterIdempotent(s[1..], keep);
      if keep(s[0]) {
        assert Filter(s, keep) == [s[0]] + Filter(s[1..], keep);
        assert Filter(s, keep)[1..] == Filter(s[1..], keep);
      } else {
        assert Filter(s, keep) == Filter(s[1..], keep);
      }
    }
  }

  /** Filtering distributes over concatenation: the kept items keep their
      order and their number of occurrences. */
  lemma {:induction false} FilterConcat<T>(a: seq<T>, b: seq<T>, keep: T -> bool)
    ensures Filter(a + b, keep) == Filter(a, keep) + Filter(b, keep)
    decreases |a|
  {
    if |a| == 0 {
      assert a + b == b;
    } else {
      FilterConcat(a[1..], b, keep);
      assert (a + b)[0] == a[0];
      assert (a + b)[1..] == a[1..] + b;
      var head := if keep(a[0]) then [a[0]] else [];
      assert Filter(a, keep) == head + Filter(a[1..], keep);
      assert Filter(a + b, keep) == head + Filter(a[1..] + b, keep);
    }
  }

  /** Filtering by one test and then another is filtering by both. */
  lemma {:induction false} FilterFilter<T>(s: seq<T>, a: T -> bool, b: T -> bool, both: T -> bool)
    requires forall x :: both(x) == (a(x) && b(x))
    ensures Filter(Filter(s, a), b) == Filter(s, both)
    decreases |s|
  {
    if |s| != 0 {
      FilterFilter(s[1..], a, b, both);
      if a(s[0]) {
        assert Filter(s, a) == [s[0]] + Filter(s[1..], a);
        assert Filter(s, a)[1..] == Filter(s[1..], a);
      } else {
        assert Filter(s, a) == Filter(s[1..], a);
      }
    }
  }

  /** Two tests that agree everywhere keep the same items. */
  lemma {:induction false} FilterSame<T>(s: seq<T>, a: T -> bool, b: T -> bool)
    requires forall x :: a(x) == b(x)
    ensures Filter(s, a) == Filter(s, b)
    decreases |s|
  {
    if |s| != 0 {
      FilterSame(s[1..], a, b);
    }
  }

  /** The sequence without repeated elements, keeping first occurrences. */
  function Dedup<T(==)>(s: seq<T>): (r: seq<T>)
    ensures forall i :: 0 <= i < |r| ==> r[i] in s
    ensures forall i :: 0 <= i < |s| ==> s[i] in r
    ensures forall i, j :: 0 <= i < j < |r| ==> r[i] != r[j]
    decreases |s|
  {
    if |s| == 0 then []
    else
      var rest := Dedup(s[..|s| - 1]);
      if s[|s| - 1] in rest then rest else rest + [s[|s| - 1]]
  }
}

=== FILE: dualstore.dfy ===
/** The write side of `database/ia_filterdb.py`: two media collections (the
    primary `Media` and the secondary `Media2`), the cached size reading of the
    primary that `check_db_size` keeps, the write router `save_file`, and the
    point lookup `get_file_details`. Each collection is a map from `_id` to
    record; the clock, the `dbstats` answer and the store's own failures are
    inputs. */
module DualStore {
  import opened Common
  import FileIdCodec

  /** One document of either media collection. */
  datatype MediaRecord = MediaRecord(
    fileId: string,
    fileRef: string,
    fileName: string,
    fileSize: int,
    fileType: Option<string>,
    mimeType: Option<string>,
    caption: Option<string>)

  type Store = map<string, MediaRecord>

  datatype Stores = Stores(primary: Store, secondary: Store)

  /** Every record sits under its own `file_id`, as the `_id` attribute makes it. */
  ghost predicate WellKeyed(s: Store)
  {
    forall id :: id in s ==> s[id].fileId == id
  }

  /** No `_id` is held by both collections. */
  ghost predicate Disjoint(st: Stores)
  {
    st.primary.Keys !! st.secondary.Keys
  }

  /** `_db_size_cache`: when the primary's size was last measured, and the value. */
  datatype SizeCache = SizeCache(time: int, size: int)

  /** `DB_SIZE_CACHE_DURATION`, in seconds. */
  const CacheDuration: int := 60

  datatype SizeReading = SizeReading(size: int, cache: SizeCache)

  /** A primary reading taken less than `CacheDuration` ago. */
  predicate Fresh(now: int, cache: SizeCache)
  {
    now - cache.time < CacheDuration
  }

  /** `check_db_size`. `isPrimary` is whether the handle names the primary
      database; `reading` is what `dbstats` answers (`dataSize`), `None` when
      the command raises. */
  function CheckDbSize(isPrimary: bool, now: int, cache: SizeCache, reading: Option<int>): (r: SizeReading)
    ensures isPrimary && Fresh(now, cache) ==> r == SizeReading(cache.size, cache)
    ensures !(isPrimary && Fresh(now, cache)) && reading.None? ==> r == SizeReading(0, cache)
    ensures !(isPrimary && Fresh(now, cache)) && reading.Some? ==> r.size == reading.value
    ensures !isPrimary ==> r.cache == cache
    ensures isPrimary && !Fresh(now, cache) && reading.Some? ==> r.cache == SizeCache(now, reading.value)
  {
    if isPrimary && Fresh(now, cache) then SizeReading(cache.size, cache)
    else
      match reading
      case None => SizeReading(0, cache)
      case Some(size) => SizeReading(size, if isPrimary then SizeCache(now, size) else cache)
  }

  /** A fresh primary reading is served, unchanged and without a query, to
      every primary call in the next `CacheDuration` seconds. */
  lemma CachedReadingServed(now: int, cache: SizeCache, v: int, later: int, reading: Option<int>)
    requires !Fresh(now, cache)
    requires now <= later < now + CacheDuration
    ensures var first := CheckDbSize(true, now, cache, Some(v));
            CheckDbSize(true, later, first.cache, reading) == SizeReading(v, first.cache)
  {
  }

  /** After the window a primary call measures again. */
  lemma StaleCacheRequeried(now: int, cache: SizeCache, v: int, later: int, w: int)
    requires !Fresh(now, cache)
    requires later >= now + CacheDuration
    ensures var first := CheckDbSize(true, now, cache, Some(v));
            CheckDbSize(true, later, first.cache, Some(w)) == SizeReading(w, SizeCache(later, w))
  {
  }

  /** The settings `save_file` reads: `MULTIPLE_DB` and `DB_CHANGE_LIMIT` (MiB). */
  datatype RouterConfig = RouterConfig(multipleDb: bool, dbChangeLimitMb: int)

  /** What `save_file` receives besides the store state. */
  datatype IncomingMedia = IncomingMedia(
    decoded: Option<FileIdCodec.DecodedFileId>,
    fileName: Option<string>,
    fileSize: int,
    fileType: Option<string>,
    mimeType: Option<string>,
    caption: Option<string>)

  /** What `commit` raises apart from a duplicate key: nothing, a
      `ValidationError`, or any other exception. */
  datatype StoreFault = NoFault | Invalid | Broken

  datatype SaveResult = SaveResult(saved: bool, code: int, stores: Stores, cache: SizeCache)

  /** The limit in bytes that moves writes to the secondary. */
  function LimitBytes(cfg: RouterConfig): int
  {
    cfg.dbChangeLimitMb * 1024 * 1024
  }

  /** Whether `save_file` writes to the secondary, given the size reading. */
  predicate RoutesToSecondary(cfg: RouterConfig, now: int, cache: SizeCache, reading: Option<int>)
  {
    cfg.multipleDb && CheckDbSize(true, now, cache, reading).size >= LimitBytes(cfg)
  }

  /** The record `save_file` builds for an identifier pair. */
  function BuildRecord(ids: (string, string), name: string, m: IncomingMedia): MediaRecord
  {
    MediaRecord(ids.0, ids.1, name, m.fileSize, m.fileType, m.mimeType, m.caption)
  }

  /** The collection `save_file` writes to: the secondary once the primary
      is over the limit, otherwise the primary. */
  function Target(cfg: RouterConfig, now: int, cache: SizeCache, reading: Option<int>, st: Stores): Store
  {
    if RoutesToSecondary(cfg, now, cache, reading) then st.secondary else st.primary
  }

  /** The identifier decodes and, on the secondary path, the existence check
      on the primary neither raises nor finds it: the save reaches `commit`. */
  predicate Admitted(cfg: RouterConfig, m: IncomingMedia, now: int, cache: SizeCache,
                     reading: Option<int>, countFails: bool, st: Stores)
  {
    && FileIdCodec.UnpackNewFileId(m.decoded).Some?
    && !(&& RoutesToSecondary(cfg, now, cache, reading)
         && (countFails || FileIdCodec.UnpackNewFileId(m.decoded).value.0 in st.primary))
  }

  /** `save_file`: `(True, 1)` after a commit, `(False, 0)` for a duplicate,
      `(False, 2)` for a validation error, `(False, 3)` for anything else,
      including an identifier that does not decode or does not fit `<iiqq`.
      With `MULTIPLE_DB` the size reading refreshes the cache. `clean` is the
      `clean_filename` collaborator. `countFails` says whether the
      existence check `Media.count_documents` on the secondary path raises;
      `fault` is what `commit` raises. */
  function SaveFile(cfg: RouterConfig, clean: Option<string> -> string, m: IncomingMedia, now: int,
                    reading: Option<int>, countFails: bool, fault: StoreFault, st: Stores,
                    cache: SizeCache): (r: SaveResult)
    ensures r.saved <==> r.code == 1
    ensures 0 <= r.code <= 3
    ensures !r.saved ==> r.stores == st
    ensures r.saved ==> m.decoded.Some? && fault == NoFault
    ensures r.saved && RoutesToSecondary(cfg, now, cache, reading) ==> !countFails
    ensures r.saved ==> FileIdCodec.UnpackNewFileId(m.decoded).Some?
    ensures r.saved ==>
      var id := FileIdCodec.UnpackNewFileId(m.decoded).value.0;
      && id !in st.primary
      && (|| (id in r.stores.primary && r.stores.primary[id].fileId == id
              && r.stores.primary == st.primary[id := r.stores.primary[id]]
              && r.stores.secondary == st.secondary)
          || (id !in st.secondary && id in r.stores.secondary && r.stores.secondary[id].fileId == id
              && r.stores.secondary == st.secondary[id := r.stores.secondary[id]]
              && r.stores.primary == st.primary))
    ensures FileIdCodec.UnpackNewFileId(m.decoded).None? ==> r == SaveResult(false, 3, st, cache)
    ensures FileIdCodec.UnpackNewFileId(m.decoded).Some? ==>
              r.cache == (if cfg.multipleDb then CheckDbSize(true, now, cache, reading).cache else cache)
    ensures (&& FileIdCodec.UnpackNewFileId(m.decoded).Some?
             && RoutesToSecondary(cfg, now, cache, reading) && countFails)
            ==> !r.saved && r.code == 3 && r.stores == st
    ensures Admitted(cfg, m, now, cache, reading, countFails, st) && fault == Invalid ==> r.code == 2
    ensures Admitted(cfg, m, now, cache, reading, countFails, st) && fault == Broken ==> r.code == 3
    ensures (&& Admitted(cfg, m, now, cache, reading, countFails, st) && fault == NoFault
             && FileIdCodec.UnpackNewFileId(m.decoded).value.0 in Target(cfg, now, cache, reading, st))
            ==> r.code == 0
    ensures (&& Admitted(cfg, m, now, cache, reading, countFails, st) && fault == NoFault
             && FileIdCodec.UnpackNewFileId(m.decoded).value.0 !in Target(cfg, now, cache, reading, st))
            ==> r.saved
  {
    match FileIdCodec.UnpackNewFileId(m.decoded)
    case None => SaveResult(false, 3, st, cache)
    case Some(ids) =>
      var name := clean(m.fileName);
      var reading' := CheckDbSize(true, now, cache, reading);
      var cache' := if cfg.multipleDb then reading'.cache else cache;
      var toSecondary := RoutesToSecondary(cfg, now, cache, reading);
      if toSecondary && countFails then SaveResult(false, 3, st, cache')
      else if toSecondary && ids.0 in st.primary then SaveResult(false, 0, st, cache')
      else
        var rec := BuildRecord(ids, name, m);
        var target := Target(cfg, now, cache, reading, st);
        match fault
        case Invalid => SaveResult(false, 2, st, cache')
        case Broken => SaveResult(false, 3, st, cache')
        case NoFault =>
          if ids.0 in target then SaveResult(false, 0, st, cache')
          else if toSecondary then SaveResult(true, 1, Stores(st.primary, st.secondary[ids.0 := rec]), cache')
          else SaveResult(true, 1, Stores(st.primary[ids.0 := rec], st.secondary), cache')
  }

  /** The collection that received a record, and the record itself. */
  lemma SaveRouting(cfg: RouterConfig, clean: Option<string> -> string, m: IncomingMedia, now: int,
                    reading: Option<int>, countFails: bool, st: Stores, cache: SizeCache)
    requires SaveFile(cfg, clean, m, now, reading, countFails, NoFault, st, cache).saved
    ensures var r := SaveFile(cfg, clean, m, now, reading, countFails, NoFault, st, cache);
            var ids := FileIdCodec.UnpackNewFileId(m.decoded).value;
            var rec := BuildRecord(ids, clean(m.fileName), m);
            if RoutesToSecondary(cfg, now, cache, reading)
            then ids.0 !in st.primary && ids.0 !in st.secondary
                 && r.stores == Stores(st.primary, st.secondary[ids.0 := rec])
            else ids.0 !in st.primary && r.stores == Stores(st.primary[ids.0 := rec], st.secondary)
  {
  }

  /** On the secondary path an identifier already in the primary is refused
      with `(False, 0)` before anything is written, or with `(False, 3)`
      when the existence check itself raises. */
  lemma SecondaryPathChecksPrimary(cfg: RouterConfig, clean: Option<string> -> string, m: IncomingMedia, now: int,
                                   reading: Option<int>, countFails: bool, fault: StoreFault, st: Stores, cache: SizeCache)
    requires RoutesToSecondary(cfg, now, cache, reading)
    requires FileIdCodec.UnpackNewFileId(m.decoded).Some?
    requires FileIdCodec.UnpackNewFileId(m.decoded).value.0 in st.primary
    ensures var r := SaveFile(cfg, clean, m, now, reading, countFails, fault, st, cache);
            !r.saved && r.code == (if countFails then 3 else 0) && r.stores == st
  {
  }

  /** The primary path never looks at the secondary: two states that agree on
      the primary give the same outcome and the same primary. */
  lemma PrimaryPathIgnoresSecondary(cfg: RouterConfig, clean: Option<string> -> string, m: IncomingMedia, now: int,
                                    reading: Option<int>, countFails: bool, fault: StoreFault, st1: Stores, st2: Stores, cache: SizeCache)
    requires !RoutesToSecondary(cfg, now, cache, reading)
    requires st1.primary == st2.primary
    ensures var r1 := SaveFile(cfg, clean, m, now, reading, countFails, fault, st1, cache);
            var r2 := SaveFile(cfg, clean, m, now, reading, countFails, fault, st2, cache);
            && r1.code == r2.code && r1.stores.primary == r2.stores.primary
            && r1.stores.secondary == st1.secondary && r2.stores.secondary == st2.secondary
  {
  }

  /** Saving keeps the collections disjoint when the write goes to the
      secondary, or when the identifier is not already in the secondary. */
  lemma SavePreservesDisjoint(cfg: RouterConfig, clean: Option<string> -> string, m: IncomingMedia, now: int,
                              reading: Option<int>, countFails: bool, fault: StoreFault, st: Stores, cache: SizeCache)
    requires Disjoint(st)
    requires RoutesToSecondary(cfg, now, cache, reading)
             || FileIdCodec.UnpackNewFileId(m.decoded).None?
             || FileIdCodec.UnpackNewFileId(m.decoded).value.0 !in st.secondary
    ensures Disjoint(SaveFile(cfg, clean, m, now, reading, countFails, fault, st, cache).stores)
  {
  }

  /** Saving the same media twice stores it once: the second call answers
      `(False, 0)` and changes nothing, unless the first call wrote to the
      secondary and the second is routed to the primary. */
  lemma SecondSaveIsDuplicate(cfg: RouterConfig, clean: Option<string> -> string, m: IncomingMedia,
                              now1: int, reading1: Option<int>, countFails1: bool,
                              now2: int, reading2: Option<int>, countFails2: bool,
                              fault2: StoreFault, st: Stores, cache: SizeCache)
    requires SaveFile(cfg, clean, m, now1, reading1, countFails1, NoFault, st, cache).saved
    requires var c1 := SaveFile(cfg, clean, m, now1, reading1, countFails1, NoFault, st, cache).cache;
             !RoutesToSecondary(cfg, now1, cache, reading1) || RoutesToSecondary(cfg, now2, c1, reading2)
    requires fault2 == NoFault && !countFails2
    ensures var r1 := SaveFile(cfg, clean, m, now1, reading1, countFails1, NoFault, st, cache);
            var r2 := SaveFile(cfg, clean, m, now2, reading2, countFails2, fault2, r1.stores, r1.cache);
            !r2.saved && r2.code == 0 && r2.stores == r1.stores
  {
  }

  /** `get_file_details`: the primary is asked first, then the secondary. */
  function GetFileDetails(st: Stores, id: string): (r: seq<MediaRecord>)
    ensures |r| <= 1
    ensures |r| == 0 <==> id !in st.primary && id !in st.secondary
    ensures id in st.primary ==> r == [st.primary[id]]
    ensures id !in st.primary && id in st.secondary ==> r == [st.secondary[id]]
  {
    if id in st.primary then [st.primary[id]]
    else if id in st.secondary then [st.secondary[id]]
    else []
  }

  /** A record just saved is what the lookup returns for its identifier,
      provided the collections were disjoint. */
  lemma SavedRecordIsFound(cfg: RouterConfig, clean: Option<string> -> string, m: IncomingMedia, now: int,
                           reading: Option<int>, countFails: bool, st: Stores, cache: SizeCache)
    requires Disjoint(st)
    requires SaveFile(cfg, clean, m, now, reading, countFails, NoFault, st, cache).saved
    ensures var r := SaveFile(cfg, clean, m, now, reading, countFails, NoFault, st, cache);
            var ids := FileIdCodec.UnpackNewFileId(m.decoded).value;
            GetFileDetails(r.stores, ids.0) == [BuildRecord(ids, clean(m.fileName), m)]
  {
    SaveRouting(cfg, clean, m, now, reading, countFails, st, cache);
  }

  /** A media whose identifier decodes and is new to the collection it is
      routed to is committed when the store raises nothing, and the lookup
      then returns the record built for it. */
  lemma FreshMediaIsSaved(cfg: RouterConfig, clean: Option<string> -> string, m: IncomingMedia, now: int,
                          reading: Option<int>, countFails: bool, st: Stores, cache: SizeCache)
    requires Disjoint(st)
    requires Admitted(cfg, m, now, cache, reading, countFails, st)
    requires FileIdCodec.UnpackNewFileId(m.decoded).value.0 !in Target(cfg, now, cache, reading, st)
    ensures var r := SaveFile(cfg, clean, m, now, reading, countFails, NoFault, st, cache);
            var ids := FileIdCodec.UnpackNewFileId(m.decoded).value;
            && r.saved && r.code == 1
            && GetFileDetails(r.stores, ids.0) == [BuildRecord(ids, clean(m.fileName), m)]
  {
    SavedRecordIsFound(cfg, clean, m, now, reading, countFails, st, cache);
  }
}

=== FILE: fileid.dfy ===
/** The identifier codec shared by `database/ia_filterdb.py` and
    `src/database/utils/files.py` (the two copies are the same text):
    `encode_file_id` turns the packed provider fields into the store's `_id`,
    `encode_file_ref` turns the provider's file reference into a re-usable
    token, and `unpack_new_file_id` composes them after the provider's own
    decoder. `DecodeFileId` and `Base64Url.Decode` are the inverses that show
    no two inputs share an identifier. */
module FileIdCodec {
  import opened Common
  import Base64Url
  import ZeroRun
  import Pack

  /** The two bytes appended before compression: 22 and 4. */
  const Sentinel: seq<byte> := [22, 4]

  /** `encode_file_id(s)`: append the sentinel, compress zero runs, then
      unpadded base64url. `None` where `bytes([n])` would raise. */
  function EncodeFileId(s: seq<byte>): (r: Option<string>)
    ensures r.Some? <==> !ZeroRun.HasLongRun(s + Sentinel)
    ensures r.Some? ==> forall i :: 0 <= i < |r.value| ==> Base64Url.IsUrlChar(r.value[i])
  {
    ZeroRun.CompressFailsIffLongRun(s + Sentinel);
    match ZeroRun.Compress(s + Sentinel)
    case None => None
    case Some(c) => Some(Base64Url.UrlSafeEncodeStripped(c))
  }

  /** `encode_file_ref(b)`: unpadded base64url. */
  function EncodeFileRef(b: seq<byte>): (r: string)
    ensures |r| == (4 * |b| + 2) / 3
    ensures forall i :: 0 <= i < |r| ==> Base64Url.IsUrlChar(r[i])
    ensures Base64Url.Decode(r) == Some(b)
  {
    Base64Url.EncodeLength(b);
    Base64Url.DecodeEncode(b);
    Base64Url.UrlSafeEncodeStripped(b)
  }

  /** Reading an identifier back: base64url, expand the runs, check and drop
      the sentinel. */
  function DecodeFileId(id: string): (r: Option<seq<byte>>)
    ensures r.Some? ==> (&& Base64Url.Decode(id).Some?
                         && ZeroRun.Expand(Base64Url.Decode(id).value) == r.value + Sentinel)
    ensures Base64Url.Decode(id).None? ==> r.None?
    ensures (&& Base64Url.Decode(id).Some?
             && var e := ZeroRun.Expand(Base64Url.Decode(id).value);
                |e| >= 2 && e[|e| - 2..] == Sentinel) ==> r.Some?
  {
    match Base64Url.Decode(id)
    case None => None
    case Some(c) =>
      var e := ZeroRun.Expand(c);
      if |e| >= 2 && e[|e| - 2..] == Sentinel then
        assert e == e[..|e| - 2] + e[|e| - 2..];
        Some(e[..|e| - 2])
      else None
  }

  lemma DecodeEncodeFileId(s: seq<byte>)
    requires EncodeFileId(s).Some?
    ensures DecodeFileId(EncodeFileId(s).value) == Some(s)
  {
    var t := s + Sentinel;
    var c := ZeroRun.Compress(t).value;
    Base64Url.DecodeEncode(c);
    ZeroRun.ExpandCompress(t);
    assert t[|t| - 1] == 4;
    var e := ZeroRun.Expand(c);
    assert e == t;
    assert e[|e| - 2..] == Sentinel;
    assert e[..|e| - 2] == s;
  }

  /** Distinct byte strings never share an identifier. */
  lemma EncodeFileIdInjective(a: seq<byte>, b: seq<byte>)
    requires EncodeFileId(a).Some? && EncodeFileId(a) == EncodeFileId(b)
    ensures a == b
  {
    DecodeEncodeFileId(a);
    DecodeEncodeFileId(b);
  }

  /** Inputs of at most 254 bytes (the 24 packed bytes among them) never hit
      the 255-byte run limit. */
  lemma ShortInputEncodes(s: seq<byte>)
    requires |s| <= 254
    ensures EncodeFileId(s).Some?
  {
  }

  /** What the provider's `FileId.decode` yields: the four packed fields and
      the raw file reference. */
  datatype DecodedFileId = DecodedFileId(fields: Pack.FileFields, fileReference: seq<byte>)

  /** `unpack_new_file_id`: `None` when the provider decoder raises or a field
      is out of its `struct.pack` range. The `files.py` copy returns
      `(None, None)` in exactly these cases; the `ia_filterdb.py` copy lets the
      exception reach its caller. */
  function UnpackNewFileId(decoded: Option<DecodedFileId>): (r: Option<(string, string)>)
    ensures r.None? <==> decoded.None? || Pack.PackFields(decoded.value.fields).None?
    ensures r.Some? ==> DecodeFileId(r.value.0) == Pack.PackFields(decoded.value.fields)
    ensures r.Some? ==> Base64Url.Decode(r.value.1) == Some(decoded.value.fileReference)
  {
    match decoded
    case None => None
    case Some(d) =>
      match Pack.PackFields(d.fields)
      case None => None
      case Some(packed) =>
        ShortInputEncodes(packed);
        DecodeEncodeFileId(packed);
        Some((EncodeFileId(packed).value, EncodeFileRef(d.fileReference)))
  }

  /** Two provider references with different fields get different `_id`s,
      which is what makes the store's unique key a deduplication key. */
  lemma FileIdsDistinguishFields(d1: DecodedFileId, d2: DecodedFileId)
    requires UnpackNewFileId(Some(d1)).Some? && UnpackNewFileId(Some(d2)).Some?
    requires d1.fields != d2.fields
    ensures UnpackNewFileId(Some(d1)).value.0 != UnpackNewFileId(Some(d2)).value.0
  {
    var r1, r2 := UnpackNewFileId(Some(d1)).value, UnpackNewFileId(Some(d2)).value;
    if r1.0 == r2.0 {
      Pack.PackFieldsInjective(d1.fields, d2.fields);
    }
  }
}

=== FILE: indexer.dfy ===
/** The channel indexing loop of `src/modules/index.py`: the message ids
    `1 .. lst - skip` are fetched newest first in batches of at most 200,
    each message is classified, supported media are saved, and the
    outcomes are tallied. What the bot and the store answer is an input: a
    script of rounds, one per loop iteration, each saying whether a cancel
    was seen and what the fetch returned. */
module Indexer {
  import opened Common
  import SingleStore

  /** Ids per `get_messages` call. */
  const BatchLimit: int := 200

  // ---- messages and their classification ----

  datatype MediaKind = Video | Document | OtherMedia

  /** What `save_file` gave back: its outcome string, or an exception that
      `gather(..., return_exceptions=True)` returned in its place. */
  datatype SaveReturn = Returned(outcome: SingleStore.SaveOutcome) | Raised

  /** The media attribute of a message: its mime type, and what saving it
      would give. */
  datatype MediaAttr = MediaAttr(mimeType: Option<string>, save: SaveReturn)

  /** A fetched message: missing or empty, without media, or with media of
      some kind whose attribute may be absent. */
  datatype Message = Missing | Plain | WithMedia(kind: MediaKind, media: Option<MediaAttr>)

  predicate SupportedMime(mime: Option<string>)
  {
    mime == Some("video/mp4") || mime == Some("video/x-matroska")
  }

  /** The message is saved: a video or document whose attribute is there
      with a supported mime type. */
  predicate IsQueued(m: Message)
  {
    m.WithMedia? && m.kind != OtherMedia && m.media.Some? && SupportedMime(m.media.value.mimeType)
  }

  predicate IsUnsupported(m: Message)
  {
    m.WithMedia? && !IsQueued(m)
  }

  datatype Stats = Stats(processed: nat, totalFiles: nat, duplicate: nat, errors: nat,
                         deleted: nat, noMedia: nat, unsupported: nat)

  const NoStats: Stats := Stats(0, 0, 0, 0, 0, 0, 0)

  /** The saves the first pass queues: one per queued message, in order. */
  function Saves(msgs: seq<Message>): (r: seq<SaveReturn>)
    ensures |r| == |Filter(msgs, IsQueued)|
    decreases |msgs|
  {
    if |msgs| == 0 then []
    else (if IsQueued(msgs[0]) then [msgs[0].media.value.save] else []) + Saves(msgs[1..])
  }

  /** The first pass over a batch: every message counts as processed and
      lands in one of deleted, no media, unsupported, or the save list. */
  function ClassifyAll(s: Stats, msgs: seq<Message>): (r: (Stats, seq<SaveReturn>))
    ensures r.0.processed == s.processed + |msgs|
    ensures r.0.deleted == s.deleted + |Filter(msgs, (m: Message) => m.Missing?)|
    ensures r.0.noMedia == s.noMedia + |Filter(msgs, (m: Message) => m.Plain?)|
    ensures r.0.unsupported == s.unsupported + |Filter(msgs, IsUnsupported)|
    ensures r.1 == Saves(msgs)
    ensures r.0.totalFiles == s.totalFiles && r.0.duplicate == s.duplicate && r.0.errors == s.errors
    decreases |msgs|
  {
    if |msgs| == 0 then (s, [])
    else
      var m := msgs[0];
      var s1 := s.(processed := s.processed + 1);
      var (s2, q) :=
        if m.Missing? then (s1.(deleted := s1.deleted + 1), [])
        else if m.Plain? then (s1.(noMedia := s1.noMedia + 1), [])
        else if !IsQueued(m) then (s1.(unsupported := s1.unsupported + 1), [])
        else (s1, [m.media.value.save]);
      var rest := ClassifyAll(s2, msgs[1..]);
      (rest.0, q + rest.1)
  }

  /** Every message falls in exactly one class. */
  lemma {:induction false} ClassesPartition(msgs: seq<Message>)
    ensures |Filter(msgs, (m: Message) => m.Missing?)| + |Filter(msgs, (m: Message) => m.Plain?)|
            + |Filter(msgs, IsUnsupported)| + |Filter(msgs, IsQueued)| == |msgs|
  {
    if |msgs| > 0 {
      ClassesPartition(msgs[1..]);
    }
  }

  /** The second pass: `'suc'` counts as saved, `'dup'` as a duplicate, an
      exception as an error, and `'err'` nowhere. */
  function CountResults(s: Stats, results: seq<SaveReturn>): (r: Stats)
    ensures r.totalFiles == s.totalFiles + multiset(results)[Returned(SingleStore.Suc)]
    ensures r.duplicate == s.duplicate + multiset(results)[Returned(SingleStore.Dup)]
    ensures r.errors == s.errors + multiset(results)[Raised]
    ensures r.processed == s.processed && r.deleted == s.deleted
    ensures r.noMedia == s.noMedia && r.unsupported == s.unsupported
    decreases |results|
  {
    if |results| == 0 then s
    else
      assert results == [results[0]] + results[1..];
      var s1 :=
        if results[0] == Returned(SingleStore.Suc) then s.(totalFiles := s.totalFiles + 1)
        else if results[0] == Returned(SingleStore.Dup) then s.(duplicate := s.duplicate + 1)
        else if results[0] == Raised then s.(errors := s.errors + 1)
        else s;
      CountResults(s1, results[1..])
  }

  /** Saved, duplicate and failed saves together with the `'err'` results
      are exactly the saves attempted. */
  lemma {:induction false} TalliedAtMostQueued(results: seq<SaveReturn>)
    ensures multiset(results)[Returned(SingleStore.Suc)] + multiset(results)[Returned(SingleStore.Dup)]
            + multiset(results)[Raised] + multiset(results)[Returned(SingleStore.Err)] == |results|
  {
    if |results| > 0 {
      TalliedAtMostQueued(results[1..]);
      assert results == [results[0]] + results[1..];
      assert multiset(results) == multiset{results[0]} + multiset(results[1..]);
      match results[0]
      case Raised =>
      case Returned(o) =>
        match o
        case Suc =>
        case Dup =>
        case Err =>
    }
  }

  /** Both passes over one fetched batch; the second result is the
      number of saves attempted. */
  function TallyBatch(s: Stats, msgs: seq<Message>): (r: (Stats, nat))
    ensures r.0.processed == s.processed + |msgs|
    ensures r.0.deleted == s.deleted + |Filter(msgs, (m: Message) => m.Missing?)|
    ensures r.0.noMedia == s.noMedia + |Filter(msgs, (m: Message) => m.Plain?)|
    ensures r.0.unsupported == s.unsupported + |Filter(msgs, IsUnsupported)|
    ensures r.1 == |Filter(msgs, IsQueued)|
    ensures r.0.totalFiles == s.totalFiles + multiset(Saves(msgs))[Returned(SingleStore.Suc)]
    ensures r.0.duplicate == s.duplicate + multiset(Saves(msgs))[Returned(SingleStore.Dup)]
    ensures r.0.errors == s.errors + multiset(Saves(msgs))[Raised]
    ensures r.0.deleted + r.0.noMedia + r.0.unsupported + r.1
            == s.deleted + s.noMedia + s.unsupported + |msgs|
    ensures r.0.totalFiles + r.0.duplicate + r.0.errors <= s.totalFiles + s.duplicate + s.errors + r.1
    ensures r.0.errors >= s.errors
  {
    var (classified, results) := ClassifyAll(s, msgs);
    ClassesPartition(msgs);
    TalliedAtMostQueued(results);
    (CountResults(classified, results), |results|)
  }

  // ---- the batch loop ----

  /** What `get_messages` did: a flood wait, another failure, or the
      messages, given for every id. */
  datatype Fetch = FloodWait | FetchFailed | Fetched(message: int -> Message)

  /** One loop iteration's view of the world. */
  datatype Round = Round(cancelled: bool, fetch: Fetch)

  /** The ids `first .. last`, both included. */
  datatype Batch = Batch(first: int, last: int)

  datatype Ending = NothingToIndex | Cancelled | Completed | OutOfRounds

  /** The `To Index` figure of the confirmation message. */
  function PreviewCount(lst: int, skip: int): (n: nat)
    ensures n > 0 <==> lst > skip
    ensures n > 0 ==> n == lst - skip
  {
    if lst > skip then lst - skip else 0
  }

  /** Batches that cover `bottom + 1 .. top` exactly, newest first, each
      within the batch limit. */
  ghost predicate Tiles(b: seq<Batch>, top: int, bottom: int)
  {
    && (|b| == 0 ==> top == bottom)
    && (|b| > 0 ==> b[0].last == top && b[|b| - 1].first == bottom + 1)
    && (forall i :: 0 <= i < |b| ==> 1 <= b[i].first <= b[i].last && b[i].last - b[i].first < BatchLimit)
    && (forall i :: 0 < i < |b| ==> b[i].last == b[i - 1].first - 1)
  }

  /** One more batch just below the tiled range extends it. */
  lemma TilesExtend(b: seq<Batch>, top: int, cur: int, first: int)
    requires Tiles(b, top, cur)
    requires 1 <= first <= cur && cur - first < BatchLimit
    ensures Tiles(b + [Batch(first, cur)], top, first - 1)
  {
  }

  /** Rounds that fetched, as opposed to waiting out a flood limit. */
  function Attempts(rs: seq<Round>): nat
  {
    if |rs| == 0 then 0
    else Attempts(rs[..|rs| - 1]) + (if rs[|rs| - 1].fetch.FloodWait? then 0 else 1)
  }

  /** What the loop has done so far: the counters, the batches fetched,
      the saves attempted, the ids of failed fetches, and `cur`, the
      newest id not yet fetched. */
  datatype Progress = Progress(stats: Stats, batches: seq<Batch>, queued: nat, failed: nat, cur: int)

  /** Every processed id is accounted for once, and a save is counted as
      saved, duplicate or error at most once. */
  predicate Accounted(p: Progress)
  {
    && p.stats.processed == p.stats.deleted + p.stats.noMedia + p.stats.unsupported + p.queued + p.failed
    && p.stats.totalFiles + p.stats.duplicate + p.stats.errors <= p.queued + p.failed
    && p.failed <= p.stats.errors
  }

  /** The messages of the batch ending at `cur`, oldest first: the ids
      `cur - b + 1 .. cur` with b = min(200, cur). */
  function BatchMessages(message: int -> Message, cur: int): (r: seq<Message>)
    requires cur > 0
    ensures |r| == Min(BatchLimit, cur)
    ensures forall i :: 0 <= i < |r| ==> r[i] == message(cur - |r| + 1 + i)
  {
    var size := Min(BatchLimit, cur);
    var first := Max(1, cur - size + 1);
    seq(size, i requires 0 <= i < size => message(first + i))
  }

  /** One loop iteration after the cancel check: a flood wait changes
      nothing, so the same batch is fetched again; a failed fetch counts the
      whole batch as processed and as errors, and fetched messages are
      tallied. */
  function Advance(p: Progress, fetch: Fetch): (r: Progress)
    requires p.cur > 0
    ensures fetch.FloodWait? ==> r == p
    ensures !fetch.FloodWait? ==>
              && r.cur == p.cur - Min(BatchLimit, p.cur)
              && r.batches == p.batches + [Batch(r.cur + 1, p.cur)]
              && r.stats.processed == p.stats.processed + (p.cur - r.cur)
    ensures fetch.FetchFailed? ==>
              && r.stats == p.stats.(errors := p.stats.errors + (p.cur - r.cur),
                                     processed := p.stats.processed + (p.cur - r.cur))
              && r.queued == p.queued
              && r.failed == p.failed + (p.cur - r.cur)
    ensures fetch.Fetched? ==>
              && r.stats == TallyBatch(p.stats, BatchMessages(fetch.message, p.cur)).0
              && r.queued == p.queued + TallyBatch(p.stats, BatchMessages(fetch.message, p.cur)).1
              && r.failed == p.failed
    ensures Accounted(p) ==> Accounted(r)
  {
    var size := Min(BatchLimit, p.cur);
    var first := Max(1, p.cur - size + 1);
    var batches := p.batches + [Batch(first, p.cur)];
    match fetch
    case FloodWait => p
    case FetchFailed =>
      Progress(p.stats.(errors := p.stats.errors + size, processed := p.stats.processed + size),
               batches, p.queued, p.failed + size, p.cur - size)
    case Fetched(message) =>
      var (tallied, saves) := TallyBatch(p.stats, BatchMessages(message, p.cur));
      Progress(tallied, batches, p.queued + saves, p.failed, p.cur - size)
  }

  /** The flood-wait handler as written: it reads `e.x`, which the
      `FloodWait` of pyrogram 2 (the library whose `enums` the loop uses)
      does not have, so the handler itself raises and the outer `except`
      ends the run. `None` is that end. */
  function AdvanceAsWritten(p: Progress, fetch: Fetch): (r: Option<Progress>)
    requires p.cur > 0
    ensures r.None? <==> fetch.FloodWait?
    ensures r.Some? ==> r.value == Advance(p, fetch)
  {
    if fetch.FloodWait? then None else Some(Advance(p, fetch))
  }

  /** As written, one flood wait ends the run with ids still unfetched;
      corrected, the same state is kept and the batch is fetched again. */
  lemma AsWrittenFloodWaitEndsRun(p: Progress)
    requires p.cur > 0
    ensures AdvanceAsWritten(p, FloodWait) == None
    ensures Advance(p, FloodWait) == p && Advance(p, FloodWait).cur > 0
  {
  }

  /** A step keeps the batches tiling the ids fetched so far. */
  lemma AdvanceTiles(p: Progress, fetch: Fetch, top: int)
    requires p.cur > 0 && Tiles(p.batches, top, p.cur)
    ensures Tiles(Advance(p, fetch).batches, top, Advance(p, fetch).cur)
  {
    if !fetch.FloodWait? {
      var r := Advance(p, fetch);
      TilesExtend(p.batches, top, p.cur, r.cur + 1);
    }
  }

  /** One loop step, `Advance`, keeps what the loop tracks: the tiling, the processed
      count, the accounting, and one more batch exactly when it fetched. */
  method Step(p: Progress, fetch: Fetch, n: int) returns (r: Progress)
    requires 0 < p.cur <= n && Tiles(p.batches, n, p.cur)
    requires p.stats.processed == n - p.cur && Accounted(p)
    ensures 0 <= r.cur <= n && Tiles(r.batches, n, r.cur)
    ensures r.stats.processed == n - r.cur && Accounted(r)
    ensures |r.batches| == |p.batches| + (if fetch.FloodWait? then 0 else 1)
  {
    AdvanceTiles(p, fetch, n);
    r := Advance(p, fetch);
  }

  /** One more round either waited out a flood or made an attempt. */
  lemma AttemptsSnoc(rounds: seq<Round>, used: nat)
    requires used < |rounds|
    ensures Attempts(rounds[..used + 1]) == Attempts(rounds[..used]) + (if rounds[used].fetch.FloodWait? then 0 else 1)
  {
    assert rounds[..used + 1][..used] == rounds[..used];
  }

  /** `index_files_to_db`. `queued` counts the saves attempted and `failed`
      the ids of batches whose fetch failed; `used` is the number of rounds
      that reached the fetch. */
  method IndexFilesToDb(lst: int, skip: int, rounds: seq<Round>)
    returns (stats: Stats, batches: seq<Batch>, queued: nat, failed: nat, used: nat, ending: Ending)
    ensures used <= |rounds|
    ensures ending == NothingToIndex <==> PreviewCount(lst, skip) == 0
    ensures ending == NothingToIndex ==> stats == NoStats && batches == [] && used == 0
    ensures PreviewCount(lst, skip) > 0 ==> Tiles(batches, lst - skip, lst - skip - stats.processed)
    ensures ending == Completed ==> stats.processed == PreviewCount(lst, skip) && Tiles(batches, lst - skip, 0)
    ensures ending == Cancelled ==> used < |rounds| && rounds[used].cancelled
    ensures ending == OutOfRounds ==> used == |rounds|
    ensures forall i :: 0 <= i < used ==> !rounds[i].cancelled
    ensures |batches| == Attempts(rounds[..used])
    ensures stats.processed == stats.deleted + stats.noMedia + stats.unsupported + queued + failed
    ensures stats.totalFiles + stats.duplicate + stats.errors <= queued + failed
    ensures failed <= stats.errors
  {
    used := 0;
    var n := lst - skip;
    if n <= 0 {
      stats, batches, queued, failed := NoStats, [], 0, 0;
      ending := NothingToIndex;
      return;
    }
    var p := Progress(NoStats, [], 0, 0, n);
    ending := Completed;
    while p.cur > 0
      invariant 0 <= p.cur <= n
      invariant used <= |rounds|
      invariant Tiles(p.batches, n, p.cur)
      invariant p.stats.processed == n - p.cur
      invariant |p.batches| == Attempts(rounds[..used])
      invariant forall i :: 0 <= i < used ==> !rounds[i].cancelled
      invariant Accounted(p)
      decreases |rounds| - used
    {
      if used == |rounds| {
        ending := OutOfRounds;
        break;
      }
      if rounds[used].cancelled {
        ending := Cancelled;
        break;
      }
      AttemptsSnoc(rounds, used);
      p := Step(p, rounds[used].fetch, n);
      used := used + 1;
    }
    stats, batches, queued, failed := p.stats, p.batches, p.queued, p.failed;
  }

  /** Tiling batches hold every id of their range. */
  lemma {:induction false} TilesCover(b: seq<Batch>, top: int, bottom: int, id: int)
    requires Tiles(b, top, bottom)
    requires bottom < id <= top
    ensures exists i :: 0 <= i < |b| && b[i].first <= id <= b[i].last
    decreases |b|
  {
    var k := |b| - 1;
    if k > 0 && id > b[k].last {
      var rest := b[..k];
      assert b[k].last == b[k - 1].first - 1;
      assert Tiles(rest, top, b[k].last);
      TilesCover(rest, top, b[k].last, id);
      var i :| 0 <= i < |rest| && rest[i].first <= id <= rest[i].last;
      assert b[i] == rest[i];
    }
  }

  /** Batches never overlap: a later batch lies wholly below an earlier one. */
  lemma {:induction false} TilesDisjoint(b: seq<Batch>, top: int, bottom: int, i: int, j: int)
    requires Tiles(b, top, bottom)
    requires 0 <= i < j < |b|
    ensures b[j].last < b[i].first
    decreases j - i
  {
    if j > i + 1 {
      TilesDisjoint(b, top, bottom, i, j - 1);
    }
  }
}

=== FILE: pack.dfy ===
/** `struct.pack("<iiqq", file_type, dc_id, media_id, access_hash)`: two
    32-bit and two 64-bit signed integers, little-endian two's complement,
    24 bytes with no padding. A value out of its field's range makes
    `struct.pack` raise, modelled as `None`. */
module Pack {
  import opened Common

  function Pow256(n: nat): (p: nat)
    ensures p >= 1
  {
    if n == 0 then 1 else 256 * Pow256(n - 1)
  }

  /** The low `w` bytes of `v`, least significant first. */
  function ToLE(v: nat, w: nat): (b: seq<byte>)
    ensures |b| == w
  {
    if w == 0 then [] else [(v % 256) as byte] + ToLE(v / 256, w - 1)
  }

  /** The unsigned value of little-endian bytes. */
  function FromLE(b: seq<byte>): (v: nat)
    ensures v < Pow256(|b|)
  {
    if |b| == 0 then 0 else b[0] + 256 * FromLE(b[1..])
  }

  lemma {:induction false} FromLEToLE(v: nat, w: nat)
    requires v < Pow256(w)
    ensures FromLE(ToLE(v, w)) == v
  {
    if w > 0 {
      var b := ToLE(v, w);
      assert b[1..] == ToLE(v / 256, w - 1);
      assert v / 256 < Pow256(w - 1);
      FromLEToLE(v / 256, w - 1);
    }
  }

  /** Smallest and one past the largest value a `w`-byte signed field holds. */
  function MinSigned(w: nat): int
    requires w >= 1
  {
    -(Pow256(w) / 2)
  }

  function MaxSignedExcl(w: nat): int
    requires w >= 1
  {
    Pow256(w) / 2
  }

  /** One signed field in two's complement; `None` when out of range. */
  function PackSigned(x: int, w: nat): (r: Option<seq<byte>>)
    requires w >= 1
    ensures r.Some? <==> MinSigned(w) <= x < MaxSignedExcl(w)
    ensures r.Some? ==> |r.value| == w
  {
    if MinSigned(w) <= x < MaxSignedExcl(w) then
      Some(ToLE(if x < 0 then x + Pow256(w) else x, w))
    else None
  }

  /** Reading a signed field back. */
  function UnpackSigned(b: seq<byte>): int
    requires |b| >= 1
  {
    var u := FromLE(b);
    if u >= Pow256(|b|) / 2 then u - Pow256(|b|) else u
  }

  lemma PowEven(w: nat)
    requires w >= 1
    ensures Pow256(w) == 2 * (Pow256(w) / 2)
  {
  }

  lemma UnpackPackSigned(x: int, w: nat)
    requires w >= 1
    requires PackSigned(x, w).Some?
    ensures UnpackSigned(PackSigned(x, w).value) == x
  {
    PowEven(w);
    var u := if x < 0 then x + Pow256(w) else x;
    FromLEToLE(u, w);
  }

  /** The four fields the provider's file reference decomposes into. */
  datatype FileFields = FileFields(fileType: int, dcId: int, mediaId: int, accessHash: int)

  /** `<iiqq`: 4 + 4 + 8 + 8 bytes, in field order. */
  function PackFields(f: FileFields): (r: Option<seq<byte>>)
    ensures r.Some? ==> |r.value| == 24
    ensures r.Some? <==> && MinSigned(4) <= f.fileType < MaxSignedExcl(4)
                         && MinSigned(4) <= f.dcId < MaxSignedExcl(4)
                         && MinSigned(8) <= f.mediaId < MaxSignedExcl(8)
                         && MinSigned(8) <= f.accessHash < MaxSignedExcl(8)
  {
    match (PackSigned(f.fileType, 4), PackSigned(f.dcId, 4), PackSigned(f.mediaId, 8), PackSigned(f.accessHash, 8))
    case (Some(a), Some(b), Some(c), Some(d)) => Some(a + b + c + d)
    case _ => None
  }

  function UnpackFields(b: seq<byte>): FileFields
    requires |b| == 24
  {
    FileFields(UnpackSigned(b[0..4]), UnpackSigned(b[4..8]), UnpackSigned(b[8..16]), UnpackSigned(b[16..24]))
  }

  lemma UnpackPackFields(f: FileFields)
    requires PackFields(f).Some?
    ensures UnpackFields(PackFields(f).value) == f
  {
    var a, b, c, d := PackSigned(f.fileType, 4).value, PackSigned(f.dcId, 4).value,
                      PackSigned(f.mediaId, 8).value, PackSigned(f.accessHash, 8).value;
    var p := a + b + c + d;
    assert p[0..4] == a && p[4..8] == b && p[8..16] == c && p[16..24] == d;
    UnpackPackSigned(f.fileType, 4);
    UnpackPackSigned(f.dcId, 4);
    UnpackPackSigned(f.mediaId, 8);
    UnpackPackSigned(f.accessHash, 8);
  }

  /** Distinct field tuples pack to distinct bytes. */
  lemma PackFieldsInjective(f: FileFields, g: FileFields)
    requires PackFields(f).Some? && PackFields(f) == PackFields(g)
    ensures f == g
  {
    UnpackPackFields(f);
    UnpackPackFields(g);
  }
}

=== FILE: querysearch.dfy ===
/** `get_search_results` of `src/database/utils/filters.py`: the pattern
    the code builds (the stripped query escaped as a whole, then split on
    whitespace and joined with `.*`), the escaped query it falls back to,
    and the stride pager over the matches, with an optional language filter
    on the lower-cased file name.

    To show what the pattern matches, the module carries a small fragment
    of Python's regular expressions: literal characters, backslash escapes
    of the characters `re.escape` escapes, `.` and a postfix `*`, searched
    for anywhere in the name. Everything outside the fragment parses to
    `None`; the store itself still matches through an opaque predicate. */
module QuerySearch {
  import opened Common
  import opened Text
  import DualStore
  import SingleStore

  /** The characters `re.escape` puts a backslash before (Python 3.7 on). */
  predicate IsEscaped(c: char)
  {
    || c == '(' || c == ')' || c == '[' || c == ']' || c == '{' || c == '}'
    || c == '?' || c == '*' || c == '+' || c == '-' || c == '|' || c == '^'
    || c == '$' || c == '\\' || c == '.' || c == '&' || c == '~' || c == '#'
    || c == ' ' || c == '\t' || c == '\n' || c == '\r' || c == '\U{000B}' || c == '\U{000C}'
  }

  /** One character as `re.escape` writes it. */
  function EscapeChar(c: char): (r: string)
    ensures |r| > 0 && r[0] != '*'
  {
    if IsEscaped(c) then ['\\', c] else [c]
  }

  /** `re.escape`. */
  function Escape(s: string): (r: string)
    ensures |r| >= |s|
  {
    if |s| == 0 then "" else EscapeChar(s[0]) + Escape(s[1..])
  }

  /** The pattern as the code builds it: the whole stripped query escaped
      first, then split on whitespace and joined with `.*`. An escaped space
      leaves its backslash at the end of the word before it, so the joiner
      after that word reads `\.*`, any number of literal dots. A query
      without whitespace gives just the escaped query. */
  function AsWrittenPattern(query: string): (r: string)
    ensures NoSpace(Strip(query)) ==> r == Escape(Strip(query))
  {
    OneWordPattern(Strip(query));
    Join(SplitWs(Escape(Strip(query))), ".*")
  }

  /** Escaping adds backslashes only, so it adds no whitespace. */
  lemma {:induction false} EscapeNoSpace(s: string)
    requires NoSpace(s)
    ensures NoSpace(Escape(s))
    decreases |s|
  {
    if |s| > 0 {
      EscapeNoSpace(s[1..]);
      var e := Escape(s);
      assert e == EscapeChar(s[0]) + Escape(s[1..]);
      assert forall i :: 0 <= i < |EscapeChar(s[0])| ==> !IsSpace(e[i]);
      assert forall i :: |EscapeChar(s[0])| <= i < |e| ==> e[i] == Escape(s[1..])[i - |EscapeChar(s[0])|];
    }
  }

  /** For a whitespace-free text, escaping, splitting and joining with
      `.*` is escaping alone. */
  lemma OneWordPattern(q: string)
    ensures NoSpace(q) ==> Join(SplitWs(Escape(q)), ".*") == Escape(q)
  {
    if NoSpace(q) {
      EscapeNoSpace(q);
      if |Escape(q)| > 0 {
        SplitWsOnlyWord(Escape(q));
      } else {
        assert SplitWs(Escape(q)) == [];
      }
    }
  }

  function EscapeAll(words: seq<string>): (r: seq<string>)
    ensures |r| == |words|
    ensures forall k :: 0 <= k < |r| ==> r[k] == Escape(words[k])
  {
    if |words| == 0 then [] else [Escape(words[0])] + EscapeAll(words[1..])
  }

  /** The pattern the code evidently means: the words of the stripped query,
      each escaped, joined with `.*`. It reads, in the fragment below, as
      the query's words taken literally with `.*` between them. */
  function Pattern(query: string): (r: string)
    ensures Parse(r) == Some(WordsPieces(SplitWs(Strip(query))))
  {
    ParseWords(SplitWs(Strip(query)));
    Join(EscapeAll(SplitWs(Strip(query))), ".*")
  }

  /** The name pattern of `get_search_results`: the pattern as the code
      builds it when that compiles, otherwise the escaped stripped query.
      Either way a query without whitespace is searched for literally. */
  function NamePattern(query: string, compiles: string -> bool): (p: string)
    ensures compiles(p) || p == Escape(Strip(query))
    ensures compiles(AsWrittenPattern(query)) ==> p == AsWrittenPattern(query)
    ensures !compiles(AsWrittenPattern(query)) ==> p == Escape(Strip(query))
    ensures NoSpace(Strip(query)) ==> p == Escape(Strip(query))
    ensures NoSpace(Strip(query)) ==> Parse(p) == Some(Lits(Strip(query)))
  {
    LiteralQuery(Strip(query));
    if compiles(AsWrittenPattern(query)) then AsWrittenPattern(query) else Escape(Strip(query))
  }

  /** An escaped text parses to its characters read literally. */
  lemma LiteralQuery(q: string)
    ensures Parse(Escape(q)) == Some(Lits(q))
  {
    ParseEscaped(q, "", []);
    assert Escape(q) + "" == Escape(q);
    assert Lits(q) + [] == Lits(q);
  }

  // ---- the regular-expression fragment ----

  datatype Atom = Lit(c: char) | Any
  datatype Piece = One(a: Atom) | Star(a: Atom)

  /** Characters that are syntax when they stand unescaped. */
  predicate IsMeta(c: char)
  {
    || c == '^' || c == '$' || c == '*' || c == '+' || c == '?' || c == '{' || c == '}'
    || c == '[' || c == ']' || c == '\\' || c == '|' || c == '(' || c == ')'
  }

  /** The atom at the head of a pattern and how many characters it takes. */
  function AtomAt(p: string): (r: Option<(Atom, nat)>)
    requires |p| > 0
    ensures r.Some? ==> 1 <= r.value.1 <= |p|
  {
    if p[0] == '\\' then
      if |p| >= 2 && IsEscaped(p[1]) then Some((Lit(p[1]), 2)) else None
    else if p[0] == '.' then Some((Any, 1))
    else if IsMeta(p[0]) then None
    else Some((Lit(p[0]), 1))
  }

  function Prepend(x: Piece, rest: Option<seq<Piece>>): Option<seq<Piece>>
  {
    match rest
    case None => None
    case Some(ps) => Some([x] + ps)
  }

  /** The pieces of a pattern in the fragment, or `None`. */
  function Parse(p: string): Option<seq<Piece>>
    decreases |p|
  {
    if |p| == 0 then Some([])
    else
      match AtomAt(p)
      case None => None
      case Some((a, k)) =>
        if k < |p| && p[k] == '*' then Prepend(Star(a), Parse(p[k + 1..]))
        else Prepend(One(a), Parse(p[k..]))
  }

  predicate AtomMatches(a: Atom, c: char)
  {
    match a
    case Lit(x) => x == c
    case Any => c != '\n'
  }

  /** The pieces match some prefix of `t`. */
  predicate MatchAt(ps: seq<Piece>, t: string)
    decreases |t|, |ps|
  {
    if |ps| == 0 then true
    else match ps[0]
      case One(a) => |t| > 0 && AtomMatches(a, t[0]) && MatchAt(ps[1..], t[1..])
      case Star(a) => MatchAt(ps[1..], t) || (|t| > 0 && AtomMatches(a, t[0]) && MatchAt(ps, t[1..]))
  }

  /** The pieces match somewhere in `t`, as a regular-expression search does. */
  predicate Search(ps: seq<Piece>, t: string)
    decreases |t|
  {
    MatchAt(ps, t) || (|t| > 0 && Search(ps, t[1..]))
  }

  /** A word read literally. */
  function Lits(w: string): (r: seq<Piece>)
    ensures |r| == |w|
  {
    if |w| == 0 then [] else [One(Lit(w[0]))] + Lits(w[1..])
  }

  /** The pieces of words read literally with `.*` between them. */
  function WordsPieces(words: seq<string>): seq<Piece>
  {
    if |words| == 0 then []
    else if |words| == 1 then Lits(words[0])
    else Lits(words[0]) + [Star(Any)] + WordsPieces(words[1..])
  }

  /** Neither an escaped word nor the joiner starts with `*`. */
  predicate Unstarred(rest: string)
  {
    |rest| == 0 || rest[0] != '*'
  }

  lemma EscapeStart(w: string)
    requires |w| > 0
    ensures Unstarred(Escape(w))
  {
  }

  /** One escaped character followed by an unstarred rest reads as itself. */
  lemma ParseEscapedChar(c: char, tail: string)
    requires Unstarred(tail)
    ensures Parse(EscapeChar(c) + tail) == Prepend(One(Lit(c)), Parse(tail))
  {
    var p := EscapeChar(c) + tail;
    var k := |EscapeChar(c)|;
    assert AtomAt(p) == Some((Lit(c), k));
    assert p[k..] == tail;
  }

  /** An escaped word parses to its characters read literally. */
  lemma {:induction false} ParseEscaped(w: string, rest: string, ps: seq<Piece>)
    requires Parse(rest) == Some(ps) && Unstarred(rest)
    ensures Parse(Escape(w) + rest) == Some(Lits(w) + ps)
    decreases |w|
  {
    if |w| > 0 {
      ParseEscaped(w[1..], rest, ps);
      ParseEscapedStep(w, rest, ps);
    } else {
      assert Escape(w) + rest == rest;
      assert Lits(w) + ps == ps;
    }
  }

  lemma ParseEscapedStep(w: string, rest: string, ps: seq<Piece>)
    requires |w| > 0 && Unstarred(rest)
    requires Parse(Escape(w[1..]) + rest) == Some(Lits(w[1..]) + ps)
    ensures Parse(Escape(w) + rest) == Some(Lits(w) + ps)
  {
    TailUnstarred(w, rest);
    ParseEscapedChar(w[0], Escape(w[1..]) + rest);
    EscapeCons(w, rest);
    LitsCons(w, ps);
  }

  lemma TailUnstarred(w: string, rest: string)
    requires |w| > 0 && Unstarred(rest)
    ensures Unstarred(Escape(w[1..]) + rest)
  {
    if |w| > 1 {
      EscapeStart(w[1..]);
    } else {
      assert Escape(w[1..]) + rest == rest;
    }
  }

  lemma EscapeCons(w: string, rest: string)
    requires |w| > 0
    ensures Escape(w) + rest == EscapeChar(w[0]) + (Escape(w[1..]) + rest)
  {
  }

  lemma LitsCons(w: string, ps: seq<Piece>)
    requires |w| > 0
    ensures Lits(w) + ps == [One(Lit(w[0]))] + (Lits(w[1..]) + ps)
  {
  }

  lemma ParseAnyStar(rest: string, ps: seq<Piece>)
    requires Parse(rest) == Some(ps)
    ensures Parse(".*" + rest) == Some([Star(Any)] + ps)
  {
    var p := ".*" + rest;
    assert AtomAt(p) == Some((Any, 1));
    assert p[2..] == rest;
  }

  /** The evidently intended pattern parses to the words read literally,
      `.*` between each two. */
  lemma {:induction false} ParseWords(words: seq<string>)
    requires AllWords(words)
    ensures Parse(Join(EscapeAll(words), ".*")) == Some(WordsPieces(words))
    ensures |words| > 0 ==> Unstarred(Join(EscapeAll(words), ".*"))
  {
    if |words| == 1 {
      ParseOneWord(words[0]);
    } else if |words| > 1 {
      ParseWords(words[1..]);
      ParseWordsStep(words);
    }
  }

  lemma ParseOneWord(w: string)
    requires |w| > 0
    ensures Parse(Join(EscapeAll([w]), ".*")) == Some(WordsPieces([w]))
    ensures Unstarred(Join(EscapeAll([w]), ".*"))
  {
    assert Join(EscapeAll([w]), ".*") == Escape(w) + "";
    ParseEscaped(w, "", []);
    assert Lits(w) + [] == Lits(w);
    EscapeStart(w);
  }

  lemma ParseWordsStep(words: seq<string>)
    requires |words| > 1 && |words[0]| > 0
    requires Parse(Join(EscapeAll(words[1..]), ".*")) == Some(WordsPieces(words[1..]))
    requires Unstarred(Join(EscapeAll(words[1..]), ".*"))
    ensures Parse(Join(EscapeAll(words), ".*")) == Some(WordsPieces(words))
    ensures Unstarred(Join(EscapeAll(words), ".*"))
  {
    var rest := Join(EscapeAll(words[1..]), ".*");
    var tailPieces := WordsPieces(words[1..]);
    ParseAnyStar(rest, tailPieces);
    ParseEscaped(words[0], ".*" + rest, [Star(Any)] + tailPieces);
    JoinEscapedCons(words);
    WordsPiecesCons(words);
    EscapedUnstarred(words[0], ".*" + rest);
  }

  lemma JoinEscapedCons(words: seq<string>)
    requires |words| > 1
    ensures Join(EscapeAll(words), ".*") == Escape(words[0]) + (".*" + Join(EscapeAll(words[1..]), ".*"))
  {
    var tail := EscapeAll(words[1..]);
    var es := [Escape(words[0])] + tail;
    assert EscapeAll(words) == es;
    assert es[1..] == tail;
    assert Join(es, ".*") == es[0] + ".*" + Join(tail, ".*");
  }

  lemma WordsPiecesCons(words: seq<string>)
    requires |words| > 1
    ensures WordsPieces(words) == Lits(words[0]) + ([Star(Any)] + WordsPieces(words[1..]))
  {
  }

  lemma EscapedUnstarred(w: string, rest: string)
    requires |w| > 0
    ensures Unstarred(Escape(w) + rest)
  {
    EscapeStart(w);
  }

  lemma {:induction false} MatchLits(w: string, ps: seq<Piece>, t: string)
    requires MatchAt(ps, t)
    ensures MatchAt(Lits(w) + ps, w + t)
    decreases |w|
  {
    if |w| > 0 {
      MatchLits(w[1..], ps, t);
      assert (Lits(w) + ps)[1..] == Lits(w[1..]) + ps;
      assert (w + t)[1..] == w[1..] + t;
    } else {
      assert Lits(w) + ps == ps;
      assert w + t == t;
    }
  }

  /** Words separated by single spaces, followed by anything, match the
      pieces of those words. */
  lemma {:induction false} MatchSpacedWords(words: seq<string>, y: string)
    ensures MatchAt(WordsPieces(words), Join(words, " ") + y)
  {
    if |words| == 1 {
      MatchLits(words[0], [], y);
      assert Lits(words[0]) + [] == Lits(words[0]);
    } else if |words| > 1 {
      MatchSpacedWords(words[1..], y);
      MatchSpacedStep(words, y);
    }
  }

  lemma MatchSpacedStep(words: seq<string>, y: string)
    requires |words| > 1
    requires MatchAt(WordsPieces(words[1..]), Join(words[1..], " ") + y)
    ensures MatchAt(WordsPieces(words), Join(words, " ") + y)
  {
    var rest := Join(words[1..], " ") + y;
    var star := [Star(Any)] + WordsPieces(words[1..]);
    MatchStarSpace(WordsPieces(words[1..]), rest);
    MatchLits(words[0], star, " " + rest);
    WordsPiecesCons(words);
    JoinSpacedCons(words, y);
  }

  lemma MatchStarSpace(ps: seq<Piece>, rest: string)
    requires MatchAt(ps, rest)
    ensures MatchAt([Star(Any)] + ps, " " + rest)
  {
    assert (" " + rest)[1..] == rest;
    assert ([Star(Any)] + ps)[1..] == ps;
  }

  lemma JoinSpacedCons(words: seq<string>, y: string)
    requires |words| > 1
    ensures Join(words, " ") + y == words[0] + (" " + (Join(words[1..], " ") + y))
  {
  }

  lemma {:induction false} SearchInside(ps: seq<Piece>, x: string, t: string)
    requires MatchAt(ps, t)
    ensures Search(ps, x + t)
    decreases |x|
  {
    if |x| > 0 {
      SearchInside(ps, x[1..], t);
      assert (x + t)[1..] == x[1..] + t;
    } else {
      assert x + t == t;
    }
  }

  /** The intended pattern finds every name that holds the query's words
      separated by single spaces: in particular a name equal to the query. */
  lemma PatternFindsQueryWords(query: string, x: string, y: string)
    ensures Parse(Pattern(query)).Some?
    ensures Search(Parse(Pattern(query)).value, x + Join(SplitWs(Strip(query)), " ") + y)
  {
    PatternFindsWords(SplitWs(Strip(query)), x, y);
  }

  lemma PatternFindsWords(words: seq<string>, x: string, y: string)
    requires AllWords(words)
    ensures Parse(Join(EscapeAll(words), ".*")) == Some(WordsPieces(words))
    ensures Search(WordsPieces(words), x + Join(words, " ") + y)
  {
    ParseWords(words);
    MatchSpacedWords(words, y);
    SearchInside(WordsPieces(words), x, Join(words, " ") + y);
    assert x + Join(words, " ") + y == x + (Join(words, " ") + y);
  }

  lemma StripAB(q: string)
    requires q == "a b"
    ensures Strip(q) == q
  {
    assert !IsSpace(q[0]) && !IsSpace(q[|q| - 1]);
    assert TrimStart(q) == q;
    assert TrimEnd(q) == q;
  }

  lemma EscapeAB(q: string)
    requires q == "a b"
    ensures Escape(q) == "a\\ b"
  {
    assert q[1..] == " b" && q[1..][1..] == "b" && q[1..][1..][1..] == "";
    assert Escape("b") == "b";
    assert Escape(" b") == "\\ b";
  }

  lemma WordB(b: string)
    requires b == "b"
    ensures IsWord(b)
  {
  }

  lemma WordABackslash(a: string)
    requires a == "a\\"
    ensures IsWord(a)
  {
    assert a[0] == 'a' && a[1] == '\\';
  }

  /** A space ahead of one word splits to that word. */
  lemma SplitSpaceWord(b: string)
    requires IsWord(b)
    ensures SplitWs(" " + b) == [b]
  {
    SplitWsLeadingSpace(b);
    SplitWsOnlyWord(b);
  }

  /** Two words with one space between split back into the two. */
  lemma SplitTwoWords(a: string, b: string)
    requires IsWord(a) && IsWord(b)
    ensures SplitWs(a + (" " + b)) == [a, b]
  {
    SplitWsWord(a, " " + b);
    SplitSpaceWord(b);
  }

  lemma SpaceB(t: string, b: string)
    requires t == " b" && b == "b"
    ensures t == " " + b
  {
  }

  lemma SplitEscapedAB(a: string, t: string)
    requires a == "a\\" && t == " b"
    ensures SplitWs(a + t) == [a, "b"]
  {
    var b := "b";
    WordABackslash(a);
    WordB(b);
    SpaceB(t, b);
    SplitTwoWords(a, b);
  }

  lemma ParseAsWrittenAB(p: string)
    requires p == "a\\.*b"
    ensures Parse(p) == Some([One(Lit('a')), Star(Lit('.')), One(Lit('b'))])
  {
    var none: seq<Piece> := [];
    var pb, pq, pp := [One(Lit('b'))], [Star(Lit('.')), One(Lit('b'))], [One(Lit('a')), Star(Lit('.')), One(Lit('b'))];
    assert Parse("") == Some(none);
    assert AtomAt("b") == Some((Lit('b'), 1));
    assert "b"[1..] == "";
    assert |"b"| == 1;
    assert Parse("b") == Prepend(One(Lit('b')), Parse("b"[1..]));
    assert [One(Lit('b'))] + none == pb;
    assert Parse("b") == Some(pb);
    var q := "\\.*b";
    assert AtomAt(q) == Some((Lit('.'), 2));
    assert q[3..] == "b";
    assert |q| == 4 && q[2] == '*';
    assert Parse(q) == Prepend(Star(Lit('.')), Parse(q[3..]));
    assert [Star(Lit('.'))] + pb == pq;
    assert Parse(q) == Some(pq);
    assert AtomAt(p) == Some((Lit('a'), 1));
    assert p[1..] == q && p[1] != '*';
    assert Parse(p) == Prepend(One(Lit('a')), Parse(p[1..]));
    assert [One(Lit('a'))] + pq == pp;
  }

  lemma AsWrittenMissesAB(ps: seq<Piece>, t: string)
    requires ps == [One(Lit('a')), Star(Lit('.')), One(Lit('b'))] && t == "a b"
    ensures !Search(ps, t)
  {
    var t1, t2, t3 := t[1..], t[2..], t[3..];
    assert t1[1..] == t2 && t2[1..] == t3 && |t3| == 0;
    assert t[0] == 'a' && t1[0] == ' ' && t2[0] == 'b';
    var rest := ps[1..];
    assert rest[0] == Star(Lit('.')) && rest[1..] == [One(Lit('b'))];
    assert !MatchAt(rest[1..], t1);
    assert !MatchAt(rest, t1);
    assert !MatchAt(ps, t);
    assert !MatchAt(ps, t1);
    assert !MatchAt(ps, t2);
    assert !MatchAt(ps, t3);
    assert !Search(ps, t3);
    assert !Search(ps, t2);
    assert !Search(ps, t1);
  }

  lemma ConcatAB(a: string, t: string, e: string)
    requires a == "a\\" && t == " b" && e == "a\\ b"
    ensures a + t == e
  {
  }

  lemma EscapedStripAB(q: string, a: string, t: string)
    requires q == "a b" && a == "a\\" && t == " b"
    ensures Escape(Strip(q)) == a + t
  {
    StripAB(q);
    EscapeAB(q);
    ConcatAB(a, t, Escape(q));
  }

  lemma JoinTwo(a: string, b: string, sep: string)
    ensures Join([a, b], sep) == a + sep + b
  {
    assert [a, b][1..] == [b];
  }

  lemma SpellAsWritten(a: string, b: string, p: string)
    requires a == "a\\" && b == "b" && p == "a\\.*b"
    ensures a + ".*" + b == p
  {
  }

  lemma AsWrittenPatternAB(q: string)
    requires q == "a b"
    ensures AsWrittenPattern(q) == "a\\.*b"
  {
    var a, t, b := "a\\", " b", "b";
    EscapedStripAB(q, a, t);
    SplitEscapedAB(a, t);
    JoinTwo(a, b, ".*");
    SpellAsWritten(a, b, "a\\.*b");
  }

  /** As written, the two-word query `a b` gives `a\.*b`, which does not
      find the file name `a b`. */
  lemma AsWrittenMissesSpacedName(q: string)
    requires q == "a b"
    ensures AsWrittenPattern(q) == "a\\.*b"
    ensures Parse(AsWrittenPattern(q)) == Some([One(Lit('a')), Star(Lit('.')), One(Lit('b'))])
    ensures !Search(Parse(AsWrittenPattern(q)).value, q)
  {
    AsWrittenPatternAB(q);
    ParseAsWrittenAB(AsWrittenPattern(q));
    AsWrittenMissesAB(Parse(AsWrittenPattern(q)).value, q);
  }

  // ---- the search ----

  /** The defect reaches the search: when the pattern built for `a b`
      compiles, no document named `a b` is a candidate, whatever the
      language, for any matcher that finds only what the pattern reads as. */
  lemma SpacedQueryMissesSpacedName(lang: Option<string>, compiles: string -> bool,
                                    matches: (string, string) -> bool, lower: string -> string,
                                    c: SingleStore.Collection)
    requires SingleStore.Listed(c)
    requires compiles(AsWrittenPattern("a b"))
    requires forall p, n :: matches(p, n) ==> Parse(p).Some? && Search(Parse(p).value, n)
    ensures forall i :: 0 <= i < |Candidates("a b", lang, compiles, matches, lower, c)| ==>
              Candidates("a b", lang, compiles, matches, lower, c)[i].fileName != "a b"
  {
    AsWrittenMissesSpacedName("a b");
    assert NamePattern("a b", compiles) == AsWrittenPattern("a b");
  }

  /** The store's matches for a chosen name pattern, newest first, then
      kept for the language when one is given: `lang in
      file_name.lower()`, where `lower` is Python's `str.lower`. */
  function MatchesFor(p: string, lang: Option<string>, matches: (string, string) -> bool,
                      lower: string -> string, c: SingleStore.Collection): (r: seq<DualStore.MediaRecord>)
    requires SingleStore.Listed(c)
    ensures forall i :: 0 <= i < |r| ==> matches(p, r[i].fileName)
    ensures lang.Some? && lang.value != "" ==>
              forall i :: 0 <= i < |r| ==> SingleStore.Contains(lower(r[i].fileName), lang.value)
  {
    var all := SingleStore.Selected(c, SingleStore.Pattern(p), matches);
    if lang.Some? && lang.value != "" then
      Filter(all, (m: DualStore.MediaRecord) => SingleStore.Contains(lower(m.fileName), lang.value))
    else all
  }

  /** The candidates of a query: the matches of its name pattern. */
  function Candidates(query: string, lang: Option<string>, compiles: string -> bool,
                      matches: (string, string) -> bool, lower: string -> string,
                      c: SingleStore.Collection): (r: seq<DualStore.MediaRecord>)
    requires SingleStore.Listed(c)
    ensures forall i :: 0 <= i < |r| ==> matches(NamePattern(query, compiles), r[i].fileName)
    ensures lang.Some? && lang.value != "" ==>
              forall i :: 0 <= i < |r| ==> SingleStore.Contains(lower(r[i].fileName), lang.value)
  {
    MatchesFor(NamePattern(query, compiles), lang, matches, lower, c)
  }

  /** The matches are exactly the documents, newest first, whose name the
      pattern matches and, when a language is given, whose lower-cased name
      contains it. */
  lemma MatchesForIsFilter(p: string, lang: Option<string>, matches: (string, string) -> bool,
                           lower: string -> string, c: SingleStore.Collection)
    requires SingleStore.Listed(c)
    ensures MatchesFor(p, lang, matches, lower, c)
            == Filter(SingleStore.Docs(c), (m: DualStore.MediaRecord) =>
                 && matches(p, m.fileName)
                 && (lang.Some? && lang.value != "" ==> SingleStore.Contains(lower(m.fileName), lang.value)))
  {
    var named := (m: DualStore.MediaRecord) => SingleStore.NameSelected(SingleStore.Pattern(p), matches, m.fileName);
    var both := (m: DualStore.MediaRecord) =>
                  && matches(p, m.fileName)
                  && (lang.Some? && lang.value != "" ==> SingleStore.Contains(lower(m.fileName), lang.value));
    if lang.Some? && lang.value != "" {
      FilterFilter(SingleStore.Docs(c), named,
                   (m: DualStore.MediaRecord) => SingleStore.Contains(lower(m.fileName), lang.value), both);
    } else {
      FilterSame(SingleStore.Docs(c), named, both);
    }
  }

  /** One page for a chosen name pattern. With a language the matches are
      collected and sliced; without one the cursor skips and limits, and
      the total is counted separately. */
  function PageFor(p: string, maxResults: nat, offset: nat, lang: Option<string>,
                   matches: (string, string) -> bool, lower: string -> string,
                   c: SingleStore.Collection): (r: SingleStore.FilesPage)
    requires SingleStore.Listed(c)
    ensures r.total == |MatchesFor(p, lang, matches, lower, c)|
    ensures |r.files| <= maxResults
    ensures r.nextOffset.Some? <==> offset + maxResults < r.total
    ensures r.nextOffset.Some? ==> r.nextOffset.value == offset + maxResults
  {
    var all := SingleStore.Selected(c, SingleStore.Pattern(p), matches);
    if lang.Some? && lang.value != "" then
      var langFiles := Filter(all, (m: DualStore.MediaRecord) => SingleStore.Contains(lower(m.fileName), lang.value));
      SingleStore.FilesPage(Slice(Slice(langFiles, offset, |langFiles|), 0, maxResults),
                            SingleStore.StrideNext(offset, maxResults, |langFiles|), |langFiles|)
    else
      SingleStore.FilesPage(Slice(all, offset, maxResults), SingleStore.StrideNext(offset, maxResults, |all|), |all|)
  }

  /** `get_search_results`: the page of the query's name pattern. A page
      size of zero gives an empty page. */
  function GetSearchResults(query: string, maxResults: nat, offset: nat, lang: Option<string>,
                            compiles: string -> bool, matches: (string, string) -> bool,
                            lower: string -> string, c: SingleStore.Collection): (r: SingleStore.FilesPage)
    requires SingleStore.Listed(c)
    ensures r.total == |Candidates(query, lang, compiles, matches, lower, c)|
    ensures |r.files| <= maxResults
    ensures r.nextOffset.Some? <==> offset + maxResults < r.total
    ensures r.nextOffset.Some? ==> r.nextOffset.value == offset + maxResults
  {
    PageFor(NamePattern(query, compiles), maxResults, offset, lang, matches, lower, c)
  }

  /** Every page for a pattern is the window `[offset, offset + maxResults)`
      of its matches. */
  lemma PageIsWindow(p: string, maxResults: nat, offset: nat, lang: Option<string>,
                     matches: (string, string) -> bool, lower: string -> string, c: SingleStore.Collection)
    requires SingleStore.Listed(c)
    ensures PageFor(p, maxResults, offset, lang, matches, lower, c).files
            == Slice(MatchesFor(p, lang, matches, lower, c), offset, maxResults)
  {
    var all := SingleStore.Selected(c, SingleStore.Pattern(p), matches);
    if lang.Some? && lang.value != "" {
      SingleStore.SliceOfSlice(Filter(all, (m: DualStore.MediaRecord) => SingleStore.Contains(lower(m.fileName), lang.value)),
                               offset, maxResults);
    }
  }

  /** Every page is the window `[offset, offset + maxResults)` of the
      candidates. */
  lemma SearchResultsIsWindow(query: string, maxResults: nat, offset: nat, lang: Option<string>,
                              compiles: string -> bool, matches: (string, string) -> bool,
                              lower: string -> string, c: SingleStore.Collection)
    requires SingleStore.Listed(c)
    ensures GetSearchResults(query, maxResults, offset, lang, compiles, matches, lower, c).files
            == Slice(Candidates(query, lang, compiles, matches, lower, c), offset, maxResults)
  {
    PageIsWindow(NamePattern(query, compiles), maxResults, offset, lang, matches, lower, c);
  }

  /** The files a client sees following `next_offset` from `offset`, for
      the pages of one name pattern. */
  function Browse(p: string, maxResults: nat, offset: nat, lang: Option<string>,
                  matches: (string, string) -> bool, lower: string -> string,
                  c: SingleStore.Collection): seq<DualStore.MediaRecord>
    requires SingleStore.Listed(c) && maxResults >= 1
    decreases |MatchesFor(p, lang, matches, lower, c)| - offset
  {
    var r := PageFor(p, maxResults, offset, lang, matches, lower, c);
    match r.nextOffset
    case None => r.files
    case Some(n) => r.files + Browse(p, maxResults, n, lang, matches, lower, c)
  }

  lemma {:induction false} BrowseIsWalk(p: string, maxResults: nat, offset: nat, lang: Option<string>,
                                        matches: (string, string) -> bool, lower: string -> string,
                                        c: SingleStore.Collection, all: seq<DualStore.MediaRecord>)
    requires SingleStore.Listed(c) && maxResults >= 1
    requires all == MatchesFor(p, lang, matches, lower, c)
    ensures Browse(p, maxResults, offset, lang, matches, lower, c) == SingleStore.StrideWalk(all, offset, maxResults)
    decreases |all| - offset
  {
    if offset + maxResults < |all| {
      BrowseIsWalk(p, maxResults, offset + maxResults, lang, matches, lower, c, all);
      BrowseStep(p, maxResults, offset, lang, matches, lower, c, all);
    } else {
      BrowseStep(p, maxResults, offset, lang, matches, lower, c, all);
    }
  }

  /** One page of the walk: the page is the window at `offset`, followed by
      the walk from the next offset when there is one. */
  lemma BrowseStep(p: string, maxResults: nat, offset: nat, lang: Option<string>,
                   matches: (string, string) -> bool, lower: string -> string,
                   c: SingleStore.Collection, all: seq<DualStore.MediaRecord>)
    requires SingleStore.Listed(c) && maxResults >= 1
    requires all == MatchesFor(p, lang, matches, lower, c)
    requires offset + maxResults < |all| ==>
               Browse(p, maxResults, offset + maxResults, lang, matches, lower, c)
               == SingleStore.StrideWalk(all, offset + maxResults, maxResults)
    ensures Browse(p, maxResults, offset, lang, matches, lower, c) == SingleStore.StrideWalk(all, offset, maxResults)
  {
    var r := PageFor(p, maxResults, offset, lang, matches, lower, c);
    PageIsWindow(p, maxResults, offset, lang, matches, lower, c);
    assert r.files == Slice(all, offset, maxResults);
    assert r.nextOffset == SingleStore.StrideNext(offset, maxResults, |all|);
  }

  /** Walking the offsets `0, m, 2m, ...` of a query's pages until `''`
      lists every candidate exactly once, newest first. */
  lemma BrowseListsAll(query: string, maxResults: nat, lang: Option<string>,
                       compiles: string -> bool, matches: (string, string) -> bool,
                       lower: string -> string, c: SingleStore.Collection)
    requires SingleStore.Listed(c) && maxResults >= 1
    ensures Browse(NamePattern(query, compiles), maxResults, 0, lang, matches, lower, c)
            == Candidates(query, lang, compiles, matches, lower, c)
  {
    var p := NamePattern(query, compiles);
    var all := MatchesFor(p, lang, matches, lower, c);
    BrowseIsWalk(p, maxResults, 0, lang, matches, lower, c, all);
    SingleStore.StrideWalkVisitsAll(all, 0, maxResults);
    assert all[0..] == all;
  }
}

=== FILE: readabletime.dfy ===
/** `get_readable_time` and `get_status` from `src/database/utils/filters.py`:
    a duration in whole seconds rendered as `"<d>days <h>hour <m>min <s>sec"`
    with the zero units left out, and the greeting for the hour of day in
    Asia/Colombo. */
module ReadableTime {
  import opened Text

  /** One step of the loop: when at least one `unit` remains, print the
      quotient with its name and keep the remainder. */
  function Emit(rem: int, unit: int, name: string): (r: (string, int))
    requires unit > 0
  {
    if rem >= unit then (NatToString(rem / unit) + name + " ", rem % unit) else ("", rem)
  }

  /** The text the loop accumulates, before the final `strip()`. */
  function Accumulated(seconds: int): string
  {
    var (a, r1) := Emit(seconds, 86400, "days");
    var (b, r2) := Emit(r1, 3600, "hour");
    var (c, r3) := Emit(r2, 60, "min");
    var (d, _) := Emit(r3, 1, "sec");
    a + b + c + d
  }

  /** `get_readable_time` for a whole number of seconds. */
  function GetReadableTime(seconds: int): (r: string)
    ensures seconds <= 0 ==> r == ""
    ensures |r| > 0 ==> !IsSpace(r[0]) && !IsSpace(r[|r| - 1])
  {
    Strip(Accumulated(seconds))
  }

  /** A duration split into days, hours, minutes and seconds. */
  datatype Duration = Duration(days: nat, hours: nat, minutes: nat, secs: nat)

  function Decompose(s: nat): (d: Duration)
    ensures d.days * 86400 + d.hours * 3600 + d.minutes * 60 + d.secs == s
    ensures d.hours < 24 && d.minutes < 60 && d.secs < 60
  {
    ModOfDayMod(s);
    ModOfHourMod(s);
    Duration(s / 86400, (s % 86400) / 3600, (s % 3600) / 60, s % 60)
  }

  /** A day and an hour are whole numbers of hours and minutes, so the
      remainder of a remainder is the remainder by the smaller unit. */
  lemma ModOfDayMod(s: nat)
    ensures (s % 86400) % 3600 == s % 3600
  {
    var q, r := s / 86400, s % 86400;
    var k := 24 * q + r / 3600 - s / 3600;
    assert 3600 * k == s % 3600 - r % 3600;
  }

  lemma ModOfHourMod(s: nat)
    ensures (s % 3600) % 60 == s % 60
  {
    var q, r := s / 3600, s % 3600;
    var k := 60 * q + r / 60 - s / 60;
    assert 60 * k == s % 60 - r % 60;
  }

  /** One unit's text, present only when its value is not zero. */
  function Unit(v: nat, name: string): seq<string>
  {
    if v > 0 then [NatToString(v) + name] else []
  }

  /** The units `get_readable_time` is expected to show, in order. */
  function Shown(s: nat): seq<string>
  {
    var d := Decompose(s);
    Unit(d.days, "days") + Unit(d.hours, "hour") + Unit(d.minutes, "min") + Unit(d.secs, "sec")
  }

  /** Each part followed by one space. */
  function Terminated(parts: seq<string>): string
  {
    if |parts| == 0 then "" else parts[0] + " " + Terminated(parts[1..])
  }

  lemma {:induction false} TerminatedConcat(a: seq<string>, b: seq<string>)
    ensures Terminated(a + b) == Terminated(a) + Terminated(b)
    decreases |a|
  {
    if |a| > 0 {
      TerminatedConcat(a[1..], b);
      assert (a + b)[1..] == a[1..] + b;
    } else {
      assert a + b == b;
    }
  }

  lemma {:induction false} TerminatedIsJoin(parts: seq<string>)
    requires |parts| > 0
    ensures Terminated(parts) == Join(parts, " ") + " "
    decreases |parts|
  {
    if |parts| > 1 {
      TerminatedIsJoin(parts[1..]);
    }
  }

  /** A part that starts with a digit and ends with a letter. */
  predicate Solid(p: string)
  {
    |p| > 0 && !IsSpace(p[0]) && !IsSpace(p[|p| - 1])
  }

  lemma {:induction false} JoinIsSolid(parts: seq<string>)
    requires |parts| > 0
    requires forall k :: 0 <= k < |parts| ==> Solid(parts[k])
    ensures Solid(Join(parts, " "))
    ensures Join(parts, " ")[0] == parts[0][0]
    decreases |parts|
  {
    if |parts| > 1 {
      JoinIsSolid(parts[1..]);
      var rest := Join(parts[1..], " ");
      assert Join(parts, " ") == parts[0] + " " + rest;
    }
  }

  lemma StripTrailingSpace(x: string)
    requires Solid(x)
    ensures Strip(x + " ") == x
  {
    var y := x + " ";
    assert y[0] == x[0];
    assert TrimStart(y) == y;
    assert IsSpace(y[|y| - 1]);
    assert y[..|y| - 1] == x;
    assert TrimEnd(x) == x;
    assert TrimEnd(y) == TrimEnd(x);
  }

  lemma UnitSolid(v: nat, name: string)
    requires |name| > 0 && !IsSpace(name[|name| - 1])
    ensures forall k :: 0 <= k < |Unit(v, name)| ==> Solid(Unit(v, name)[k])
  {
    if v > 0 {
      var p := NatToString(v) + name;
      assert p[0] == NatToString(v)[0];
      assert p[|p| - 1] == name[|name| - 1];
    }
  }

  /** The remainders the loop carries are the remainders of the whole. */
  lemma CarryDays(s: nat)
    ensures Emit(s, 86400, "days").1 == s % 86400
  {
  }

  lemma CarryHours(s: nat)
    ensures Emit(s % 86400, 3600, "hour").1 == s % 3600
  {
    ModOfDayMod(s);
  }

  lemma CarryMinutes(s: nat)
    ensures Emit(s % 3600, 60, "min").1 == s % 60
  {
    ModOfHourMod(s);
  }

  lemma EmitUnit(rem: nat, unit: nat, name: string)
    requires unit > 0
    ensures Emit(rem, unit, name).0 == Terminated(Unit(rem / unit, name))
    ensures Emit(rem, unit, name).1 == rem % unit
  {
    if rem >= unit {
      var p := NatToString(rem / unit) + name;
      assert rem / unit > 0;
      assert [p][1..] == [];
      assert Unit(rem / unit, name) == [p];
      assert Terminated([p]) == p + " " + Terminated([]);
    }
  }

  /** The loop emits each unit of the decomposition in turn. */
  lemma AccumulatedUnits(s: nat)
    ensures var d := Decompose(s);
            Accumulated(s) == Terminated(Unit(d.days, "days")) + Terminated(Unit(d.hours, "hour"))
                              + Terminated(Unit(d.minutes, "min")) + Terminated(Unit(d.secs, "sec"))
  {
    AccumulatedEmits(s);
    EmitsAreUnits(s);
  }

  /** The loop carries the remainders of the whole from unit to unit. */
  lemma AccumulatedEmits(s: nat)
    ensures Accumulated(s) == Emit(s, 86400, "days").0 + Emit(s % 86400, 3600, "hour").0
                              + Emit(s % 3600, 60, "min").0 + Emit(s % 60, 1, "sec").0
  {
    CarryDays(s);
    CarryHours(s);
    CarryMinutes(s);
  }

  lemma EmitsAreUnits(s: nat)
    ensures var d := Decompose(s);
            Emit(s, 86400, "days").0 + Emit(s % 86400, 3600, "hour").0
            + Emit(s % 3600, 60, "min").0 + Emit(s % 60, 1, "sec").0
            == Terminated(Unit(d.days, "days")) + Terminated(Unit(d.hours, "hour"))
               + Terminated(Unit(d.minutes, "min")) + Terminated(Unit(d.secs, "sec"))
  {
    EmitUnit(s, 86400, "days");
    EmitUnit(s % 86400, 3600, "hour");
    EmitUnit(s % 3600, 60, "min");
    EmitUnit(s % 60, 1, "sec");
  }

  lemma TerminatedShown(s: nat)
    ensures var d := Decompose(s);
            Terminated(Shown(s)) == Terminated(Unit(d.days, "days")) + Terminated(Unit(d.hours, "hour"))
                                    + Terminated(Unit(d.minutes, "min")) + Terminated(Unit(d.secs, "sec"))
  {
    var d := Decompose(s);
    var a, b, c, e := Unit(d.days, "days"), Unit(d.hours, "hour"), Unit(d.minutes, "min"), Unit(d.secs, "sec");
    TerminatedConcat(a, b);
    TerminatedConcat(a + b, c);
    TerminatedConcat(a + b + c, e);
  }

  lemma AccumulatedIsTerminated(s: nat)
    ensures Accumulated(s) == Terminated(Shown(s))
  {
    AccumulatedUnits(s);
    TerminatedShown(s);
  }

  /** The rendering is the non-zero units of the decomposition, each value
      followed by its name, separated by single spaces. */
  lemma ReadableTimeShowsDecomposition(s: nat)
    ensures GetReadableTime(s) == Join(Shown(s), " ")
  {
    AccumulatedIsTerminated(s);
    var parts := Shown(s);
    var d := Decompose(s);
    UnitSolid(d.days, "days");
    UnitSolid(d.hours, "hour");
    UnitSolid(d.minutes, "min");
    UnitSolid(d.secs, "sec");
    assert forall k :: 0 <= k < |parts| ==> Solid(parts[k]);
    if |parts| > 0 {
      TerminatedIsJoin(parts);
      JoinIsSolid(parts);
      StripTrailingSpace(Join(parts, " "));
    }
  }

  /** The rendering is empty exactly for durations of zero or less. */
  lemma ReadableTimeEmptyIff(s: int)
    ensures GetReadableTime(s) == "" <==> s <= 0
  {
    if s > 0 {
      ReadableTimeShowsDecomposition(s);
      var d := Decompose(s);
      assert d.days > 0 || d.hours > 0 || d.minutes > 0 || d.secs > 0;
      assert |Shown(s)| > 0;
      JoinNonEmpty(Shown(s));
    }
  }

  lemma JoinNonEmpty(parts: seq<string>)
    requires |parts| > 0 && |parts[0]| > 0
    ensures Join(parts, " ") != ""
  {
    assert |Join(parts, " ")| >= |parts[0]|;
  }

  /** The three greetings, in small capitals. */
  const Morning: string := "\U{0262}\U{1D0F}\U{1D0F}\U{1D05} \U{1D0D}\U{1D0F}\U{0280}\U{0274}\U{026A}\U{0274}\U{0262}"
  const Afternoon: string := "\U{0262}\U{1D0F}\U{1D0F}\U{1D05} \U{1D00}\U{A730}\U{1D1B}\U{1D07}\U{0280}\U{0274}\U{1D0F}\U{1D0F}\U{0274}"
  const Evening: string := "\U{0262}\U{1D0F}\U{1D0F}\U{1D05} \U{1D07}\U{1D20}\U{1D07}\U{0274}\U{026A}\U{0274}\U{0262}"

  /** `get_status` for an hour of the day. */
  function GetStatus(hour: int): (r: string)
    requires 0 <= hour < 24
    ensures r == Morning <==> 5 <= hour < 12
    ensures r == Afternoon <==> 12 <= hour < 18
    ensures r == Evening <==> hour < 5 || hour >= 18
  {
    if 5 <= hour < 12 then Morning
    else if 12 <= hour < 18 then Afternoon
    else Evening
  }

  /** The hour on the Asia/Colombo clock (UTC+05:30) at a Unix time. */
  function ColomboHour(unixSeconds: int): (h: int)
    ensures 0 <= h < 24
    ensures h * 3600 <= (unixSeconds + 19800) % 86400 < (h + 1) * 3600
  {
    HourOfDay(unixSeconds + 19800);
    ((unixSeconds + 19800) / 3600) % 24
  }

  /** The hour counted from the epoch, modulo 24, is the hour of the
      second within its day. */
  lemma HourOfDay(x: int)
    ensures ((x / 3600) % 24) * 3600 <= x % 86400 < ((x / 3600) % 24 + 1) * 3600
  {
    var d, s := x / 86400, x % 86400;
    assert x == d * 86400 + s;
    assert x / 3600 == d * 24 + s / 3600;
    assert (x / 3600) % 24 == s / 3600;
  }

  /** `get_status` at a Unix time: defined at every instant. */
  function StatusAt(unixSeconds: int): (r: string)
    ensures r == Morning || r == Afternoon || r == Evening
  {
    GetStatus(ColomboHour(unixSeconds))
  }

  /** Morning begins at 23:30 UTC: the Colombo hour turns 5 then. */
  lemma MorningStartsAtHalfPastElevenUtc(day: int)
    ensures StatusAt(day * 86400 - 1800) == Morning
    ensures StatusAt(day * 86400 - 1801) == Evening
  {
    assert (day * 86400 - 1800 + 19800) / 3600 == day * 24 + 5;
    assert (day * 86400 - 1801 + 19800) / 3600 == day * 24 + 4;
  }

  /** Afternoon begins at 06:30 UTC, when it is 12:00 in Colombo. */
  lemma AfternoonStartsAtHalfPastSixUtc(day: int)
    ensures StatusAt(day * 86400 + 23400) == Afternoon
    ensures StatusAt(day * 86400 + 23399) == Morning
  {
    DayHour(day, 12, 0);
    DayHour(day, 11, 3599);
  }

  /** Evening begins at 12:30 UTC, when it is 18:00 in Colombo. */
  lemma EveningStartsAtHalfPastTwelveUtc(day: int)
    ensures StatusAt(day * 86400 + 45000) == Evening
    ensures StatusAt(day * 86400 + 44999) == Afternoon
  {
    DayHour(day, 18, 0);
    DayHour(day, 17, 3599);
  }

  /** The Colombo hour of the second `sec` of hour `h` of a Colombo day. */
  lemma DayHour(day: int, h: int, sec: int)
    requires 0 <= h < 24 && 0 <= sec < 3600
    ensures ColomboHour(day * 86400 + h * 3600 + sec - 19800) == h
  {
    var n := day * 24 + h;
    assert day * 86400 + h * 3600 + sec == n * 3600 + sec;
    assert (n * 3600 + sec) / 3600 == n;
    assert n % 24 == h;
  }
}

=== FILE: search.dfy ===
/** The read side of `database/ia_filterdb.py`: the query pattern, the
    federated pager `get_search_results` (series first, then the primary
    followed by the secondary), and the unpaged `get_bad_files`. Regular
    expressions are not interpreted: `compiles` says whether a pattern
    compiles and `matches` whether a compiled, case-insensitive pattern finds
    a match in a text. */
module FederatedSearch {
  import opened Common
  import opened Text
  import DualStore
  import SeriesGroups

  /** The word-boundary group put around each query word. */
  const Boundary: string := "(\\b|[\\.\\+\\-_])"

  /** What joins the words in `get_search_results`. */
  const SearchSeparator: string := ".*[\\s\\.\\+\\-_()\\[\\]]"

  /** What joins the words in `get_bad_files`: the same class without brackets. */
  const BadFilesSeparator: string := ".*[\\s\\.\\+\\-_()]"

  function Wrap(part: string): string
  {
    Boundary + part + Boundary
  }

  function WrapAll(parts: seq<string>): (r: seq<string>)
    ensures |r| == |parts|
    ensures forall k :: 0 <= k < |r| ==> r[k] == Wrap(parts[k])
  {
    if |parts| == 0 then [] else [Wrap(parts[0])] + WrapAll(parts[1..])
  }

  /** The pattern for an already stripped query: `.` for the empty query,
      otherwise every space-separated word wrapped and the words joined by
      `sep`. */
  function QueryPattern(q: string, sep: string): (r: string)
    ensures r == "." <==> q == ""
    ensures q != "" ==> StartsWith(r, Boundary)
  {
    if q == "" then "."
    else if ' ' !in q then Wrap(q)
    else
      JoinWrapAll(SplitOn(q, ' '), sep);
      Join(WrapAll(SplitOn(q, ' ')), sep)
  }

  lemma {:induction false} JoinWrapAll(parts: seq<string>, sep: string)
    requires |parts| >= 1
    ensures Join(WrapAll(parts), sep) == Boundary + Join(parts, Boundary + sep + Boundary) + Boundary
    decreases |parts|
  {
    if |parts| > 1 {
      JoinWrapAll(parts[1..], sep);
      assert WrapAll(parts)[1..] == WrapAll(parts[1..]);
    }
  }

  /** Equivalently: each space of the query becomes boundary, separator,
      boundary, and the whole query is wrapped once. */
  lemma PatternIsReplacement(q: string, sep: string)
    requires q != ""
    ensures QueryPattern(q, sep) == Boundary + ReplaceChar(q, ' ', Boundary + sep + Boundary) + Boundary
  {
    ReplaceIsSplitJoin(q, ' ', Boundary + sep + Boundary);
    if ' ' in q {
      JoinWrapAll(SplitOn(q, ' '), sep);
    } else {
      SplitOnAbsent(q, ' ');
    }
  }

  /** The two patterns differ only between words. */
  lemma PatternsAgreeOnOneWord(q: string)
    requires ' ' !in q
    ensures QueryPattern(q, SearchSeparator) == QueryPattern(q, BadFilesSeparator)
  {
  }

  /** The collections as read: the two maps, and each collection's `_id`s
      newest first (the `$natural` descending order). */
  datatype Snapshot = Snapshot(stores: DualStore.Stores, primaryOrder: seq<string>, secondaryOrder: seq<string>)

  predicate Listed(store: DualStore.Store, order: seq<string>)
  {
    forall i :: 0 <= i < |order| ==> order[i] in store
  }

  ghost predicate WellFormed(snap: Snapshot)
  {
    && DualStore.WellKeyed(snap.stores.primary) && DualStore.WellKeyed(snap.stores.secondary)
    && Listed(snap.stores.primary, snap.primaryOrder) && Listed(snap.stores.secondary, snap.secondaryOrder)
  }

  function Docs(store: DualStore.Store, order: seq<string>): (r: seq<DualStore.MediaRecord>)
    requires Listed(store, order)
    ensures |r| == |order|
    ensures forall i :: 0 <= i < |r| ==> r[i] == store[order[i]]
  {
    seq(|order|, i requires 0 <= i < |order| => store[order[i]])
  }

  /** The settings the search reads: `MULTIPLE_DB`, `USE_CAPTION_FILTER`, `MAX_B_TN`. */
  datatype SearchConfig = SearchConfig(multipleDb: bool, useCaptionFilter: bool, maxBtn: nat)

  /** The store filter: the pattern on the name (or on the name or the
      caption), and the file type when one is asked for. */
  predicate Selects(cfg: SearchConfig, matches: (string, string) -> bool, pattern: string,
                    fileType: Option<string>, m: DualStore.MediaRecord)
  {
    && (|| matches(pattern, m.fileName)
        || (cfg.useCaptionFilter && m.caption.Some? && matches(pattern, m.caption.value)))
    && (fileType.None? || fileType.value == "" || m.fileType == fileType)
  }

  function Matching(cfg: SearchConfig, matches: (string, string) -> bool, pattern: string,
                    fileType: Option<string>, store: DualStore.Store, order: seq<string>): (r: seq<DualStore.MediaRecord>)
    requires Listed(store, order)
    ensures forall i :: 0 <= i < |r| ==> Selects(cfg, matches, pattern, fileType, r[i])
    ensures forall i :: 0 <= i < |order| && Selects(cfg, matches, pattern, fileType, store[order[i]]) ==>
              store[order[i]] in r
  {
    Filter(Docs(store, order), (m: DualStore.MediaRecord) => Selects(cfg, matches, pattern, fileType, m))
  }

  datatype SearchPage = SearchPage(files: seq<DualStore.MediaRecord>, nextOffset: nat, total: nat)

  /** The offset of the following page, `0` when there is none. */
  function NextOffset(offset: nat, count: nat, total: nat): (n: nat)
    ensures n == 0 || (count > 0 && n == offset + count < total)
    ensures count > 0 && offset + count < total ==> n == offset + count
  {
    if offset + count >= total || count == 0 then 0 else offset + count
  }

  /** The page size: 10 for a chat whose `max_btn` is set, `MAX_B_TN` for
      any other chat, the caller's value without a chat; then rounded up to
      an even number. `chatMaxBtn` is `None` when no chat is given. */
  function PageSize(cfg: SearchConfig, chatMaxBtn: Option<bool>, maxResults: nat): (n: nat)
    ensures n % 2 == 0
    ensures chatMaxBtn == Some(true) ==> n == 10
    ensures chatMaxBtn == Some(false) ==> cfg.maxBtn <= n <= cfg.maxBtn + 1
    ensures chatMaxBtn.None? ==> maxResults <= n <= maxResults + 1
  {
    var asked: nat := match chatMaxBtn
      case None => maxResults
      case Some(b) => if b then 10 else cfg.maxBtn;
    if asked % 2 != 0 then asked + 1 else asked
  }

  /** The two-cursor pager: the primary's page, topped up from the start of
      the secondary when it runs short, or a page of the secondary alone once
      the offset is past the primary's matches. */
  function FederatedPage(m1: seq<DualStore.MediaRecord>, m2: seq<DualStore.MediaRecord>, multipleDb: bool,
                         offset: nat, size: nat): (r: SearchPage)
    ensures |r.files| <= size
    ensures r.nextOffset == 0 || r.nextOffset == offset + |r.files| < r.total
  {
    var files1 := Slice(m1, offset, size);
    if !multipleDb then
      var total := if offset == 0 && |files1| < size then |files1| else |m1|;
      SearchPage(files1, NextOffset(offset, |files1|, total), total)
    else
      var total := |m1| + |m2|;
      var files :=
        if |files1| < size then
          if |files1| > 0 then files1 + Slice(m2, 0, size - |files1|)
          else if offset >= |m1| then Slice(m2, offset - |m1|, size)
          else files1
        else files1;
      SearchPage(files, NextOffset(offset, |files|, total), total)
  }

  /** The pager behaves as one cursor over the primary's matches followed by
      the secondary's. */
  lemma FederatedPageIsSlice(m1: seq<DualStore.MediaRecord>, m2: seq<DualStore.MediaRecord>, multipleDb: bool,
                             offset: nat, size: nat)
    ensures var all := if multipleDb then m1 + m2 else m1;
            var p := FederatedPage(m1, m2, multipleDb, offset, size);
            p.files == Slice(all, offset, size) && p.total == |all|
  {
    var files1 := Slice(m1, offset, size);
    if multipleDb && |files1| < size {
      if |files1| > 0 {
        assert offset < |m1| < offset + size;
        SliceAcross(m1, m2, offset, size);
      } else if offset >= |m1| {
        SliceBeyond(m1, m2, offset, size);
      }
    }
  }

  /** A window that starts in the first list and runs past its end. */
  lemma SliceAcross<T>(m1: seq<T>, m2: seq<T>, offset: nat, size: nat)
    requires offset < |m1| < offset + size
    ensures Slice(m1 + m2, offset, size) == m1[offset..] + Slice(m2, 0, size - (|m1| - offset))
  {
    var all := m1 + m2;
    var need := size - (|m1| - offset);
    if offset + size <= |all| {
      assert all[offset..offset + size] == m1[offset..] + m2[..need];
    } else {
      assert all[offset..] == m1[offset..] + m2;
    }
  }

  /** A window that starts past the end of the first list. */
  lemma SliceBeyond<T>(m1: seq<T>, m2: seq<T>, offset: nat, size: nat)
    requires offset >= |m1|
    ensures Slice(m1 + m2, offset, size) == Slice(m2, offset - |m1|, size)
  {
    var all := m1 + m2;
    assert all[|m1|..] == m2;
    var k := offset - |m1|;
    if offset + size <= |all| {
      assert all[offset..offset + size] == m2[k..k + size];
    } else if offset <= |all| {
      assert all[offset..] == m2[k..];
    }
  }

  /** `get_search_results` without a caller-supplied filter. A pattern that
      does not compile gives `([], 0, 0)`; a series named by the query is
      paged first; otherwise the matching media are. */
  function GetSearchResults(cfg: SearchConfig, chatMaxBtn: Option<bool>, maxResults: nat, query: string,
                            fileType: Option<string>, offset: nat,
                            compiles: string -> bool, matches: (string, string) -> bool,
                            series: SeriesGroups.SeriesStore, snap: Snapshot): (r: SearchPage)
    requires WellFormed(snap)
    ensures !compiles(QueryPattern(Strip(query), SearchSeparator)) ==> r == SearchPage([], 0, 0)
    ensures |r.files| <= PageSize(cfg, chatMaxBtn, maxResults)
    ensures r.nextOffset == 0 || r.nextOffset == offset + |r.files| < r.total
  {
    var q := Strip(query);
    var pattern := QueryPattern(q, SearchSeparator);
    if !compiles(pattern) then SearchPage([], 0, 0)
    else
      var size := PageSize(cfg, chatMaxBtn, maxResults);
      var sf := SeriesGroups.GetSeriesFiles(series, snap.stores, cfg.multipleDb, q);
      if sf.files != [] then
        var files := Slice(sf.files, offset, size);
        SearchPage(files, NextOffset(offset, |files|, sf.total), sf.total)
      else
        var m1 := Matching(cfg, matches, pattern, fileType, snap.stores.primary, snap.primaryOrder);
        var m2 := Matching(cfg, matches, pattern, fileType, snap.stores.secondary, snap.secondaryOrder);
        FederatedPage(m1, m2, cfg.multipleDb, offset, size)
  }

  /** Everything the query can page through: the series, when the query
      names one with resolvable media, otherwise the primary's matches
      followed (with `MULTIPLE_DB`) by the secondary's. */
  function Candidates(cfg: SearchConfig, query: string, fileType: Option<string>, matches: (string, string) -> bool,
                      series: SeriesGroups.SeriesStore, snap: Snapshot): (r: seq<DualStore.MediaRecord>)
    requires WellFormed(snap)
    ensures forall i :: 0 <= i < |r| ==>
              || Selects(cfg, matches, QueryPattern(Strip(query), SearchSeparator), fileType, r[i])
              || (Strip(query) in series && r[i].fileId in series[Strip(query)])
    ensures SeriesGroups.GetSeriesFiles(series, snap.stores, cfg.multipleDb, Strip(query)).files != [] ==>
              r == SeriesGroups.GetSeriesFiles(series, snap.stores, cfg.multipleDb, Strip(query)).files
    ensures SeriesGroups.GetSeriesFiles(series, snap.stores, cfg.multipleDb, Strip(query)).files == [] ==>
              forall m :: m in Docs(snap.stores.primary, snap.primaryOrder)
                          && Selects(cfg, matches, QueryPattern(Strip(query), SearchSeparator), fileType, m)
                          ==> m in r
    ensures SeriesGroups.GetSeriesFiles(series, snap.stores, cfg.multipleDb, Strip(query)).files == []
            && cfg.multipleDb ==>
              forall m :: m in Docs(snap.stores.secondary, snap.secondaryOrder)
                          && Selects(cfg, matches, QueryPattern(Strip(query), SearchSeparator), fileType, m)
                          ==> m in r
  {
    var q := Strip(query);
    var pattern := QueryPattern(q, SearchSeparator);
    var sf := SeriesGroups.GetSeriesFiles(series, snap.stores, cfg.multipleDb, q);
    if sf.files != [] then sf.files
    else
      var m1 := Matching(cfg, matches, pattern, fileType, snap.stores.primary, snap.primaryOrder);
      var m2 := Matching(cfg, matches, pattern, fileType, snap.stores.secondary, snap.secondaryOrder);
      if cfg.multipleDb then m1 + m2 else m1
  }

  /** Without a resolvable series the candidates are, in order and with
      their multiplicity, the selected records of the primary's documents
      followed (with `MULTIPLE_DB`) by the secondary's. */
  lemma CandidatesIsFilter(cfg: SearchConfig, query: string, fileType: Option<string>,
                           matches: (string, string) -> bool, series: SeriesGroups.SeriesStore, snap: Snapshot)
    requires WellFormed(snap)
    requires SeriesGroups.GetSeriesFiles(series, snap.stores, cfg.multipleDb, Strip(query)).files == []
    ensures var pattern := QueryPattern(Strip(query), SearchSeparator);
            var docs := Docs(snap.stores.primary, snap.primaryOrder)
                        + (if cfg.multipleDb then Docs(snap.stores.secondary, snap.secondaryOrder) else []);
            Candidates(cfg, query, fileType, matches, series, snap)
            == Filter(docs, (m: DualStore.MediaRecord) => Selects(cfg, matches, pattern, fileType, m))
  {
    var pattern := QueryPattern(Strip(query), SearchSeparator);
    var keep := (m: DualStore.MediaRecord) => Selects(cfg, matches, pattern, fileType, m);
    var d1 := Docs(snap.stores.primary, snap.primaryOrder);
    var d2 := Docs(snap.stores.secondary, snap.secondaryOrder);
    if cfg.multipleDb {
      FilterConcat(d1, d2, keep);
    } else {
      assert d1 + [] == d1;
    }
  }

  /** Every page is the window `[offset, offset + size)` of the candidates,
      and the total is their number. */
  lemma SearchPageIsWindow(cfg: SearchConfig, chatMaxBtn: Option<bool>, maxResults: nat, query: string,
                           fileType: Option<string>, offset: nat,
                           compiles: string -> bool, matches: (string, string) -> bool,
                           series: SeriesGroups.SeriesStore, snap: Snapshot)
    requires WellFormed(snap)
    requires compiles(QueryPattern(Strip(query), SearchSeparator))
    ensures var r := GetSearchResults(cfg, chatMaxBtn, maxResults, query, fileType, offset, compiles, matches, series, snap);
            var all := Candidates(cfg, query, fileType, matches, series, snap);
            && r.files == Slice(all, offset, PageSize(cfg, chatMaxBtn, maxResults))
            && r.total == |all|
            && r.nextOffset == NextOffset(offset, |r.files|, |all|)
  {
    var q := Strip(query);
    var pattern := QueryPattern(q, SearchSeparator);
    var m1 := Matching(cfg, matches, pattern, fileType, snap.stores.primary, snap.primaryOrder);
    var m2 := Matching(cfg, matches, pattern, fileType, snap.stores.secondary, snap.secondaryOrder);
    FederatedPageIsSlice(m1, m2, cfg.multipleDb, offset, PageSize(cfg, chatMaxBtn, maxResults));
  }

  /** The items a client sees when it starts at `offset` and keeps
      requesting the next offset until it is `0`. */
  function Walk<T>(all: seq<T>, offset: nat, size: nat): seq<T>
    requires size >= 1
    decreases |all| - offset
  {
    var page := Slice(all, offset, size);
    var next := NextOffset(offset, |page|, |all|);
    if next == 0 then page else page + Walk(all, next, size)
  }

  /** Following the offsets from any start visits every remaining
      candidate once, in order. */
  lemma {:induction false} WalkVisitsAll<T>(all: seq<T>, offset: nat, size: nat)
    requires size >= 1 && offset <= |all|
    ensures Walk(all, offset, size) == all[offset..]
    decreases |all| - offset
  {
    var page := Slice(all, offset, size);
    var next := NextOffset(offset, |page|, |all|);
    if next != 0 {
      WalkVisitsAll(all, next, size);
      assert all[offset..] == all[offset..next] + all[next..];
    }
  }

  datatype BadFiles = BadFiles(files: seq<DualStore.MediaRecord>, total: nat)

  /** `get_bad_files`: every match, primary first, unpaged; `([], 0)` when
      the pattern does not compile. */
  function GetBadFiles(cfg: SearchConfig, query: string, fileType: Option<string>,
                       compiles: string -> bool, matches: (string, string) -> bool, snap: Snapshot): (r: BadFiles)
    requires WellFormed(snap)
    ensures r.total == |r.files|
    ensures !compiles(QueryPattern(Strip(query), BadFilesSeparator)) ==> r == BadFiles([], 0)
    ensures forall i :: 0 <= i < |r.files| ==>
              Selects(cfg, matches, QueryPattern(Strip(query), BadFilesSeparator), fileType, r.files[i])
    ensures compiles(QueryPattern(Strip(query), BadFilesSeparator)) ==>
              forall m :: m in Docs(snap.stores.primary, snap.primaryOrder)
                          && Selects(cfg, matches, QueryPattern(Strip(query), BadFilesSeparator), fileType, m)
                          ==> m in r.files
    ensures compiles(QueryPattern(Strip(query), BadFilesSeparator)) && cfg.multipleDb ==>
              forall m :: m in Docs(snap.stores.secondary, snap.secondaryOrder)
                          && Selects(cfg, matches, QueryPattern(Strip(query), BadFilesSeparator), fileType, m)
                          ==> m in r.files
    ensures !cfg.multipleDb ==>
              forall i :: 0 <= i < |r.files| ==> r.files[i] in Docs(snap.stores.primary, snap.primaryOrder)
  {
    var pattern := QueryPattern(Strip(query), BadFilesSeparator);
    if !compiles(pattern) then BadFiles([], 0)
    else
      var m1 := Matching(cfg, matches, pattern, fileType, snap.stores.primary, snap.primaryOrder);
      var m2 := Matching(cfg, matches, pattern, fileType, snap.stores.secondary, snap.secondaryOrder);
      var files := if cfg.multipleDb then m1 + m2 else m1;
      assert forall i :: 0 <= i < |files| ==> files[i] in m1 || files[i] in m2;
      BadFiles(files, |files|)
  }

  /** `get_bad_files` keeps, in order and with their multiplicity, the
      selected records of the primary's documents followed (with
      `MULTIPLE_DB`) by the secondary's: the primary's matches come first. */
  lemma GetBadFilesIsFilter(cfg: SearchConfig, query: string, fileType: Option<string>,
                            compiles: string -> bool, matches: (string, string) -> bool, snap: Snapshot)
    requires WellFormed(snap)
    requires compiles(QueryPattern(Strip(query), BadFilesSeparator))
    ensures var pattern := QueryPattern(Strip(query), BadFilesSeparator);
            var docs := Docs(snap.stores.primary, snap.primaryOrder)
                        + (if cfg.multipleDb then Docs(snap.stores.secondary, snap.secondaryOrder) else []);
            GetBadFiles(cfg, query, fileType, compiles, matches, snap).files
            == Filter(docs, (m: DualStore.MediaRecord) => Selects(cfg, matches, pattern, fileType, m))
  {
    var pattern := QueryPattern(Strip(query), BadFilesSeparator);
    var keep := (m: DualStore.MediaRecord) => Selects(cfg, matches, pattern, fileType, m);
    var d1 := Docs(snap.stores.primary, snap.primaryOrder);
    var d2 := Docs(snap.stores.secondary, snap.secondaryOrder);
    if cfg.multipleDb {
      FilterConcat(d1, d2, keep);
    } else {
      assert d1 + [] == d1;
    }
  }

  /** For a one-word query that names no series, walking the search pages
      lists exactly what `get_bad_files` returns. */
  lemma SearchWalkListsBadFiles(cfg: SearchConfig, query: string, fileType: Option<string>,
                                compiles: string -> bool, matches: (string, string) -> bool,
                                series: SeriesGroups.SeriesStore, snap: Snapshot, size: nat)
    requires WellFormed(snap)
    requires size >= 1
    requires ' ' !in Strip(query)
    requires Strip(query) !in series
    requires compiles(QueryPattern(Strip(query), SearchSeparator))
    ensures Walk(Candidates(cfg, query, fileType, matches, series, snap), 0, size)
            == GetBadFiles(cfg, query, fileType, compiles, matches, snap).files
  {
    var all := Candidates(cfg, query, fileType, matches, series, snap);
    PatternsAgreeOnOneWord(Strip(query));
    WalkVisitsAll(all, 0, size);
    assert all[0..] == all;
  }
}

=== FILE: series.dfy ===
/** Series grouping in `database/ia_filterdb.py`: the `Series` collection maps
    a series name to a list of media identifiers; `save_series_group` creates
    or extends an entry, `get_series_files` resolves it against both media
    collections, `delete_series_group` removes it. A `false` store flag stands
    for the collection raising. */
module SeriesGroups {
  import opened Common
  import DualStore

  /** `Series` documents, keyed by `series_name`. */
  type SeriesStore = map<string, seq<string>>

  datatype SeriesUpdate = SeriesUpdate(ok: bool, series: SeriesStore)

  /** No identifier is listed twice. */
  predicate Distinct(ids: seq<string>)
  {
    forall i, j :: 0 <= i < j < |ids| ==> ids[i] != ids[j]
  }

  /** `save_series_group`: refuses an empty name or an empty list; otherwise
      stores the union of the known and the new identifiers, each once. */
  function SaveSeriesGroup(series: SeriesStore, name: string, ids: seq<string>, storeOk: bool): (r: SeriesUpdate)
    ensures r.ok <==> name != "" && ids != [] && storeOk
    ensures !r.ok ==> r.series == series
    ensures r.ok ==> r.series.Keys == series.Keys + {name}
    ensures r.ok ==> forall n :: n in series && n != name ==> r.series[n] == series[n]
    ensures r.ok ==> Distinct(r.series[name])
    ensures r.ok ==> forall i :: 0 <= i < |ids| ==> ids[i] in r.series[name]
    ensures r.ok && name in series ==> forall i :: 0 <= i < |series[name]| ==> series[name][i] in r.series[name]
    ensures r.ok ==> forall i :: 0 <= i < |r.series[name]| ==>
              r.series[name][i] in ids || (name in series && r.series[name][i] in series[name])
  {
    if name == "" || ids == [] || !storeOk then SeriesUpdate(false, series)
    else if name in series then
      var joined := series[name] + ids;
      assert forall i :: 0 <= i < |series[name]| ==> joined[i] == series[name][i];
      assert forall i :: 0 <= i < |ids| ==> joined[|series[name]| + i] == ids[i];
      SeriesUpdate(true, series[name := Dedup(joined)])
    else SeriesUpdate(true, series[name := Dedup(ids)])
  }

  /** Appending elements already present leaves the de-duplicated list as it was. */
  lemma {:induction false} DedupAbsorbs(s: seq<string>, t: seq<string>)
    requires forall i :: 0 <= i < |t| ==> t[i] in s
    ensures Dedup(s + t) == Dedup(s)
    decreases |t|
  {
    if |t| == 0 {
      assert s + t == s;
    } else {
      var t' := t[..|t| - 1];
      DedupAbsorbs(s, t');
      assert (s + t)[..|s + t| - 1] == s + t';
      assert (s + t)[|s + t| - 1] == t[|t| - 1];
    }
  }

  /** A de-duplicated list has nothing left to remove. */
  lemma {:induction false} DedupOfDistinct(s: seq<string>)
    requires Distinct(s)
    ensures Dedup(s) == s
    decreases |s|
  {
    if |s| > 0 {
      var s' := s[..|s| - 1];
      DedupOfDistinct(s');
      assert s[|s| - 1] !in s';
      assert s' + [s[|s| - 1]] == s;
    }
  }

  /** Saving the same identifiers again changes nothing. */
  lemma SaveSeriesGroupIdempotent(series: SeriesStore, name: string, ids: seq<string>)
    requires SaveSeriesGroup(series, name, ids, true).ok
    ensures var once := SaveSeriesGroup(series, name, ids, true).series;
            SaveSeriesGroup(once, name, ids, true).series == once
  {
    var once := SaveSeriesGroup(series, name, ids, true).series;
    assert name in once;
    var kept := once[name];
    assert Dedup(kept + ids) == kept by {
      DedupAbsorbs(kept, ids);
      DedupOfDistinct(kept);
    }
    assert once[name := kept] == once;
  }

  /** Where `get_series_files` finds the media for one identifier: the
      dictionary it builds is filled from the primary first and the secondary
      after, so the secondary's record wins when both hold the identifier. */
  function FindMedia(st: DualStore.Stores, multipleDb: bool, id: string): (r: Option<DualStore.MediaRecord>)
    ensures r.Some? <==> id in st.primary || (multipleDb && id in st.secondary)
    ensures multipleDb && id in st.secondary ==> r == Some(st.secondary[id])
    ensures !(multipleDb && id in st.secondary) && id in st.primary ==> r == Some(st.primary[id])
  {
    if multipleDb && id in st.secondary then Some(st.secondary[id])
    else if id in st.primary then Some(st.primary[id])
    else None
  }

  /** The resolved records of `ids`, in list order, skipping identifiers
      neither collection holds. */
  function Resolve(st: DualStore.Stores, multipleDb: bool, ids: seq<string>): (r: seq<DualStore.MediaRecord>)
    ensures |r| <= |ids|
    decreases |ids|
  {
    if |ids| == 0 then []
    else
      (match FindMedia(st, multipleDb, ids[0])
       case None => []
       case Some(m) => [m]) + Resolve(st, multipleDb, ids[1..])
  }

  /** Every resolved record belongs to a listed identifier, and every listed
      identifier some collection holds is resolved. */
  lemma {:induction false} ResolveContents(st: DualStore.Stores, multipleDb: bool, ids: seq<string>)
    requires DualStore.WellKeyed(st.primary) && DualStore.WellKeyed(st.secondary)
    ensures var r := Resolve(st, multipleDb, ids);
            && (forall m :: m in r ==> m.fileId in ids)
            && (forall k :: 0 <= k < |ids| && FindMedia(st, multipleDb, ids[k]).Some? ==>
                  FindMedia(st, multipleDb, ids[k]).value in r)
    decreases |ids|
  {
    if |ids| > 0 {
      ResolveContents(st, multipleDb, ids[1..]);
      var rest := Resolve(st, multipleDb, ids[1..]);
      assert forall k :: 1 <= k < |ids| ==> ids[k] == ids[1..][k - 1];
      var head: seq<DualStore.MediaRecord> := match FindMedia(st, multipleDb, ids[0]) case None => [] case Some(m) => [m];
      assert ids == [ids[0]] + ids[1..];
      assert Resolve(st, multipleDb, ids) == head + rest;
      forall m | m in head + rest
        ensures m.fileId in ids
      {
        if m in head {
          assert m.fileId == ids[0];
        } else {
          assert m.fileId in ids[1..];
        }
      }
    }
  }

  /** When every listed identifier is held somewhere, the records come back
      one per identifier, in list order. */
  lemma {:induction false} ResolveAllPresent(st: DualStore.Stores, multipleDb: bool, ids: seq<string>)
    requires forall k :: 0 <= k < |ids| ==> FindMedia(st, multipleDb, ids[k]).Some?
    ensures var r := Resolve(st, multipleDb, ids);
            |r| == |ids| && forall k :: 0 <= k < |ids| ==> r[k] == FindMedia(st, multipleDb, ids[k]).value
    decreases |ids|
  {
    if |ids| > 0 {
      assert forall k :: 1 <= k < |ids| ==> ids[k] == ids[1..][k - 1];
      ResolveAllPresent(st, multipleDb, ids[1..]);
    }
  }

  /** Whether some collection holds an identifier. */
  function HeldIn(st: DualStore.Stores, multipleDb: bool): string -> bool
  {
    id => FindMedia(st, multipleDb, id).Some?
  }

  /** Resolving skips the identifiers no collection holds. */
  lemma {:induction false} ResolveSkipsUnknown(st: DualStore.Stores, multipleDb: bool, ids: seq<string>)
    ensures Resolve(st, multipleDb, ids) == Resolve(st, multipleDb, Filter(ids, HeldIn(st, multipleDb)))
    decreases |ids|
  {
    if |ids| > 0 {
      ResolveSkipsUnknown(st, multipleDb, ids[1..]);
      var rest := Filter(ids[1..], HeldIn(st, multipleDb));
      if FindMedia(st, multipleDb, ids[0]).Some? {
        assert Filter(ids, HeldIn(st, multipleDb)) == [ids[0]] + rest;
        assert ([ids[0]] + rest)[1..] == rest;
      } else {
        assert Filter(ids, HeldIn(st, multipleDb)) == rest;
      }
    }
  }

  /** The records come back one per held identifier, in list order. */
  lemma ResolveFound(st: DualStore.Stores, multipleDb: bool, ids: seq<string>)
    ensures var held := Filter(ids, HeldIn(st, multipleDb));
            var r := Resolve(st, multipleDb, ids);
            && |r| == |held|
            && forall k :: 0 <= k < |r| ==> r[k] == FindMedia(st, multipleDb, held[k]).value
  {
    var held := Filter(ids, HeldIn(st, multipleDb));
    ResolveSkipsUnknown(st, multipleDb, ids);
    assert forall k :: 0 <= k < |held| ==> HeldIn(st, multipleDb)(held[k]);
    ResolveAllPresent(st, multipleDb, held);
  }

  datatype SeriesFiles = SeriesFiles(files: seq<DualStore.MediaRecord>, total: int)

  /** `get_series_files`: `([], 0)` for an unknown name, otherwise the
      resolved records and their count. */
  function GetSeriesFiles(series: SeriesStore, st: DualStore.Stores, multipleDb: bool, name: string): (r: SeriesFiles)
    requires DualStore.WellKeyed(st.primary) && DualStore.WellKeyed(st.secondary)
    ensures r.total == |r.files|
    ensures name !in series ==> r.files == []
    ensures name in series ==> |r.files| <= |series[name]|
    ensures name in series ==> forall i :: 0 <= i < |r.files| ==> r.files[i].fileId in series[name]
    ensures name in series ==> forall k :: 0 <= k < |series[name]| && FindMedia(st, multipleDb, series[name][k]).Some? ==>
              FindMedia(st, multipleDb, series[name][k]).value in r.files
    ensures name in series ==>
              var held := Filter(series[name], HeldIn(st, multipleDb));
              && |r.files| == |held|
              && forall k :: 0 <= k < |r.files| ==> r.files[k] == FindMedia(st, multipleDb, held[k]).value
  {
    if name !in series then SeriesFiles([], 0)
    else
      var files := Resolve(st, multipleDb, series[name]);
      ResolveContents(st, multipleDb, series[name]);
      ResolveFound(st, multipleDb, series[name]);
      assert forall i :: 0 <= i < |files| ==> files[i] in files;
      SeriesFiles(files, |files|)
  }

  /** `delete_series_group`: `true` exactly when an entry was removed. */
  function DeleteSeriesGroup(series: SeriesStore, name: string, storeOk: bool): (r: SeriesUpdate)
    ensures r.ok <==> storeOk && name in series
    ensures storeOk ==> r.series.Keys == series.Keys - {name}
    ensures !storeOk ==> r.series == series
    ensures forall n :: n in r.series ==> n in series && r.series[n] == series[n]
  {
    if !storeOk then SeriesUpdate(false, series)
    else if name in series then SeriesUpdate(true, series - {name})
    else SeriesUpdate(false, series)
  }

  /** After a successful save, looking the series up yields every known
      record of the old and the new identifiers, and nothing else. */
  lemma SavedSeriesResolves(series: SeriesStore, st: DualStore.Stores, multipleDb: bool, name: string, ids: seq<string>)
    requires DualStore.WellKeyed(st.primary) && DualStore.WellKeyed(st.secondary)
    requires SaveSeriesGroup(series, name, ids, true).ok
    ensures var r := GetSeriesFiles(SaveSeriesGroup(series, name, ids, true).series, st, multipleDb, name);
            && (forall k :: 0 <= k < |ids| && FindMedia(st, multipleDb, ids[k]).Some? ==>
                  FindMedia(st, multipleDb, ids[k]).value in r.files)
            && (forall i :: 0 <= i < |r.files| ==>
                  r.files[i].fileId in ids || (name in series && r.files[i].fileId in series[name]))
  {
    var s' := SaveSeriesGroup(series, name, ids, true).series;
    var r := GetSeriesFiles(s', st, multipleDb, name);
    forall k | 0 <= k < |ids| && FindMedia(st, multipleDb, ids[k]).Some?
      ensures FindMedia(st, multipleDb, ids[k]).value in r.files
    {
      var j :| 0 <= j < |s'[name]| && s'[name][j] == ids[k];
    }
  }

  /** A deleted series resolves to nothing. */
  lemma DeletedSeriesIsEmpty(series: SeriesStore, st: DualStore.Stores, multipleDb: bool, name: string)
    requires DualStore.WellKeyed(st.primary) && DualStore.WellKeyed(st.secondary)
    ensures GetSeriesFiles(DeleteSeriesGroup(series, name, true).series, st, multipleDb, name) == SeriesFiles([], 0)
  {
  }
}

=== FILE: session.dfy ===
/** The in-memory conversation state of `utils.py`: pending flows keyed by
    chat and then by flow key, and the last info and video message shown
    in each chat. Flow data is a string-keyed dictionary; the empty
    dictionary is what a lookup of nothing yields. */
module Session {
  import opened Common

  type FlowData = map<string, string>
  type Pending = map<int, map<string, FlowData>>

  const DefaultKey: string := "default"

  datatype State = State(
    pending: Pending,
    lastBotMessage: map<int, int>,
    lastVideoMessage: map<int, int>)

  /** `reset_state`. */
  function ResetState(s: State): (r: State)
    ensures r.pending == map[] && r.lastBotMessage == map[] && r.lastVideoMessage == map[]
  {
    State(map[], map[], map[])
  }

  /** `set_pending`: creates the chat's inner dictionary on first use. */
  function SetPending(p: Pending, chat: int, data: FlowData, key: string): (r: Pending)
    ensures chat in r && key in r[chat] && r[chat][key] == data
    ensures r.Keys == p.Keys + {chat}
    ensures forall k :: k in r[chat] && k != key ==> chat in p && k in p[chat] && r[chat][k] == p[chat][k]
    ensures chat in p ==> forall k :: k in p[chat] && k != key ==> k in r[chat] && r[chat][k] == p[chat][k]
    ensures forall c :: c in p && c != chat ==> r[c] == p[c]
  {
    var inner := if chat in p then p[chat] else map[];
    p[chat := inner[key := data]]
  }

  /** `get_pending`: `{}` for an unknown chat or key. */
  function GetPending(p: Pending, chat: int, key: string): (r: FlowData)
    ensures chat in p && key in p[chat] ==> r == p[chat][key]
    ensures !(chat in p && key in p[chat]) ==> r == map[]
  {
    if chat in p && key in p[chat] then p[chat][key] else map[]
  }

  /** `pop_pending`: the stored value, which is removed, or `{}`. The
      chat's inner dictionary stays even when it becomes empty. */
  function PopPending(p: Pending, chat: int, key: string): (r: (FlowData, Pending))
    ensures r.0 == GetPending(p, chat, key)
    ensures r.1.Keys == p.Keys
    ensures chat in p ==> r.1[chat] == p[chat] - {key}
  {
    if chat in p && key in p[chat] then (p[chat][key], p[chat := p[chat] - {key}])
    else (map[], p)
  }

  /** `set_last_bot_msg` and `set_last_video_msg`. */
  function SetLast(m: map<int, int>, chat: int, message: int): (r: map<int, int>)
    ensures chat in r && r[chat] == message
    ensures forall c :: c in m && c != chat ==> c in r && r[c] == m[c]
  {
    m[chat := message]
  }

  /** `get_last_bot_msg` and `get_last_video_msg`: `None` for an unknown
      chat. */
  function GetLast(m: map<int, int>, chat: int): (r: Option<int>)
    ensures r.Some? <==> chat in m
    ensures r.Some? ==> r.value == m[chat]
  {
    if chat in m then Some(m[chat]) else None
  }

  lemma GetAfterSet(p: Pending, chat: int, data: FlowData, key: string)
    ensures GetPending(SetPending(p, chat, data, key), chat, key) == data
  {
  }

  /** Setting one (chat, key) entry leaves every other entry as it was. */
  lemma SetLeavesOthers(p: Pending, chat: int, data: FlowData, key: string, c: int, k: string)
    requires c != chat || k != key
    ensures GetPending(SetPending(p, chat, data, key), c, k) == GetPending(p, c, k)
  {
  }

  /** Popping returns what was set and a second pop finds nothing. */
  lemma PopAfterSet(p: Pending, chat: int, data: FlowData, key: string)
    ensures PopPending(SetPending(p, chat, data, key), chat, key).0 == data
    ensures var q := PopPending(SetPending(p, chat, data, key), chat, key).1;
      PopPending(q, chat, key).0 == map[] && PopPending(q, chat, key).1 == q
  {
  }

  /** Popping one (chat, key) entry leaves every other entry as it was. */
  lemma PopLeavesOthers(p: Pending, chat: int, key: string, c: int, k: string)
    requires c != chat || k != key
    ensures GetPending(PopPending(p, chat, key).1, c, k) == GetPending(p, c, k)
  {
  }

  /** After a reset nothing is pending and no message is remembered. */
  lemma ResetForgetsAll(s: State, chat: int, key: string)
    ensures GetPending(ResetState(s).pending, chat, key) == map[]
    ensures GetLast(ResetState(s).lastBotMessage, chat) == None
    ensures GetLast(ResetState(s).lastVideoMessage, chat) == None
  {
  }

  /** The last write wins. */
  lemma LastWriteWins(m: map<int, int>, chat: int, a: int, b: int)
    ensures GetLast(SetLast(SetLast(m, chat, a), chat, b), chat) == Some(b)
  {
  }
}

=== FILE: singlestore.dfy ===
/** The single-collection media index of `src/database/utils/files.py`:
    name normalisation and `file_type` derivation on save, the string
    outcomes of `save_file`, the pattern and stride paging of
    `search_files`, `get_bad_files`, `get_file_details`, and the display
    helper `formate_file_name`. The identifier codec is the one in
    `FileIdCodec`; this copy returns `(None, None)` instead of raising. */
module SingleStore {
  import opened Common
  import opened Text
  import FileIdCodec
  import DualStore
  import FederatedSearch

  /** The characters `save_file` turns into spaces. */
  predicate IsNameSeparator(c: char)
  {
    c == '_' || c == '-' || c == '.' || c == '+'
  }

  /** The name as stored: every separator becomes a space. */
  function NormaliseName(s: string): (r: string)
    ensures |r| == |s|
    ensures forall i :: 0 <= i < |s| ==> r[i] == (if IsNameSeparator(s[i]) then ' ' else s[i])
  {
    if |s| == 0 then ""
    else [if IsNameSeparator(s[0]) then ' ' else s[0]] + NormaliseName(s[1..])
  }

  lemma NormaliseNameIdempotent(s: string)
    ensures NormaliseName(NormaliseName(s)) == NormaliseName(s)
  {
  }

  /** Four successive single-character replacements give the same name. */
  lemma {:induction false} NormaliseNameIsReplacements(s: string)
    ensures NormaliseName(s)
            == ReplaceChar(ReplaceChar(ReplaceChar(ReplaceChar(s, '_', " "), '-', " "), '.', " "), '+', " ")
    decreases |s|
  {
    if |s| > 0 {
      NormaliseNameIsReplacements(s[1..]);
      var c := s[0];
      ReplaceCharCons(c, s[1..], '_', " ");
      var a := ReplaceChar([c], '_', " ");
      var a1 := ReplaceChar(s[1..], '_', " ");
      ReplaceCharConcat(a, a1, '-', " ");
      var b := ReplaceChar(a, '-', " ");
      var b1 := ReplaceChar(a1, '-', " ");
      ReplaceCharConcat(b, b1, '.', " ");
      var d := ReplaceChar(b, '.', " ");
      var d1 := ReplaceChar(b1, '.', " ");
      ReplaceCharConcat(d, d1, '+', " ");
    }
  }

  lemma ReplaceCharCons(c: char, t: string, x: char, repl: string)
    ensures ReplaceChar([c] + t, x, repl) == ReplaceChar([c], x, repl) + ReplaceChar(t, x, repl)
  {
    assert ([c] + t)[1..] == t;
  }

  lemma {:induction false} ReplaceCharConcat(a: string, b: string, x: char, repl: string)
    ensures ReplaceChar(a + b, x, repl) == ReplaceChar(a, x, repl) + ReplaceChar(b, x, repl)
    decreases |a|
  {
    if |a| > 0 {
      ReplaceCharConcat(a[1..], b, x, repl);
      assert (a + b)[1..] == a[1..] + b;
    } else {
      assert a + b == b;
    }
  }

  /** Python's `str(x)` for an optional name. */
  function PyStr(o: Option<string>): string
  {
    match o
    case None => "None"
    case Some(s) => s
  }

  /** `mime_type.split('/')[0] if mime_type else None`. */
  function FileTypeOf(mime: Option<string>): (r: Option<string>)
    ensures r.Some? <==> mime.Some? && mime.value != ""
    ensures r.Some? ==> '/' !in r.value && StartsWith(mime.value, r.value)
    ensures r.Some? ==> |r.value| == |mime.value| || mime.value[|r.value|] == '/'
  {
    if mime.None? || mime.value == "" then None
    else Some(mime.value[..IndexOf(mime.value, '/')])
  }

  /** The part before the first separator is the first part of the split. */
  lemma {:induction false} FirstSplitPart(s: string, c: char)
    ensures SplitOn(s, c)[0] == s[..IndexOf(s, c)]
    decreases |s|
  {
    if |s| > 0 && s[0] != c {
      FirstSplitPart(s[1..], c);
      assert s[..IndexOf(s, c)] == [s[0]] + s[1..][..IndexOf(s[1..], c)];
    }
  }

  lemma FileTypeIsFirstSplitPart(mime: string)
    requires mime != ""
    ensures FileTypeOf(Some(mime)) == Some(SplitOn(mime, '/')[0])
  {
    FirstSplitPart(mime, '/');
  }

  /** The outcomes `save_file` reports. */
  datatype SaveOutcome = Suc | Dup | Err

  datatype SaveResult = SaveResult(outcome: SaveOutcome, store: DualStore.Store)

  /** The record `save_file` builds: normalised name, `file_type` from the
      MIME type. */
  function BuildRecord(ids: (string, string), m: DualStore.IncomingMedia): DualStore.MediaRecord
  {
    DualStore.MediaRecord(ids.0, ids.1, NormaliseName(PyStr(m.fileName)), m.fileSize,
                          FileTypeOf(m.mimeType), m.mimeType, m.caption)
  }

  /** `save_file`. An identifier that does not decode leaves the required
      `file_id` empty, which the document rejects, so it reports `'err'`. */
  function SaveFile(m: DualStore.IncomingMedia, fault: DualStore.StoreFault, store: DualStore.Store): (r: SaveResult)
    ensures r.outcome == Suc <==>
              && FileIdCodec.UnpackNewFileId(m.decoded).Some? && fault == DualStore.NoFault
              && FileIdCodec.UnpackNewFileId(m.decoded).value.0 !in store
    ensures r.outcome == Dup <==>
              && FileIdCodec.UnpackNewFileId(m.decoded).Some? && fault == DualStore.NoFault
              && FileIdCodec.UnpackNewFileId(m.decoded).value.0 in store
    ensures r.outcome != Suc ==> r.store == store
    ensures r.outcome == Suc ==>
              var ids := FileIdCodec.UnpackNewFileId(m.decoded).value;
              r.store == store[ids.0 := BuildRecord(ids, m)]
  {
    match FileIdCodec.UnpackNewFileId(m.decoded)
    case None => SaveResult(Err, store)
    case Some(ids) =>
      match fault
      case Invalid => SaveResult(Err, store)
      case Broken => SaveResult(Err, store)
      case NoFault =>
        if ids.0 in store then SaveResult(Dup, store)
        else SaveResult(Suc, store[ids.0 := BuildRecord(ids, m)])
  }

  /** A second save of the same media reports `'dup'` and changes nothing. */
  lemma SecondSaveIsDup(m: DualStore.IncomingMedia, store: DualStore.Store)
    requires SaveFile(m, DualStore.NoFault, store).outcome == Suc
    ensures var once := SaveFile(m, DualStore.NoFault, store).store;
            SaveFile(m, DualStore.NoFault, once) == SaveResult(Dup, once)
  {
  }

  /** What `search_files` joins the words with. */
  const WordSeparator: string := ".*[\\s\\.\\+\\-_]"

  /** The `search_files` and `get_bad_files` pattern for a stripped query. */
  function FilesPattern(q: string): (r: string)
    ensures ' ' in q ==> r == Join(SplitOn(q, ' '), WordSeparator)
    ensures ' ' in q ==> ' ' !in r
    ensures ' ' !in q ==> r == FederatedSearch.Wrap(q)
    ensures q != "" && ' ' !in q ==> r == FederatedSearch.QueryPattern(q, FederatedSearch.BadFilesSeparator)
  {
    ReplaceIsSplitJoin(q, ' ', WordSeparator);
    ReplaceRemoves(q, ' ', WordSeparator);
    if ' ' !in q then "(\\b|[\\.\\+\\-_])" + q + "(\\b|[\\.\\+\\-_])"
    else ReplaceChar(q, ' ', WordSeparator)
  }

  /** The name filter: the compiled pattern, or when the pattern does not
      compile, the stripped query compared as a plain string. */
  datatype NameFilter = Pattern(p: string) | Exact(q: string)

  function SearchFilter(query: string, compiles: string -> bool): (f: NameFilter)
    ensures f.Pattern? <==> compiles(FilesPattern(Strip(query)))
    ensures f.Exact? ==> f.q == Strip(query)
    ensures f.Pattern? ==> f.p == FilesPattern(Strip(query))
  {
    var q := Strip(query);
    var p := FilesPattern(q);
    if compiles(p) then Pattern(p) else Exact(q)
  }

  predicate NameSelected(f: NameFilter, matches: (string, string) -> bool, name: string)
  {
    match f
    case Pattern(p) => matches(p, name)
    case Exact(q) => name == q
  }

  /** The collection as read: the map and its `_id`s newest first. */
  datatype Collection = Collection(store: DualStore.Store, order: seq<string>)

  predicate Listed(c: Collection)
  {
    forall i :: 0 <= i < |c.order| ==> c.order[i] in c.store
  }

  function Selected(c: Collection, f: NameFilter, matches: (string, string) -> bool): seq<DualStore.MediaRecord>
    requires Listed(c)
  {
    Filter(Docs(c), (m: DualStore.MediaRecord) => NameSelected(f, matches, m.fileName))
  }

  /** The following offset of the stride pager, `None` for the `''` it
      returns at the end. */
  function StrideNext(offset: nat, size: nat, total: nat): (n: Option<nat>)
    ensures n.Some? <==> offset + size < total
    ensures n.Some? ==> n.value == offset + size
  {
    if offset + size < total then Some(offset + size) else None
  }

  datatype FilesPage = FilesPage(files: seq<DualStore.MediaRecord>, nextOffset: Option<nat>, total: nat)

  /** `search_files`: with a language, the matches whose lower-cased name
      contains it; otherwise all matches. `lower` is Python's `str.lower`. */
  function SearchFiles(query: string, size: nat, offset: nat, lang: Option<string>,
                       compiles: string -> bool, matches: (string, string) -> bool,
                       lower: string -> string, c: Collection): (r: FilesPage)
    requires Listed(c)
    ensures |r.files| <= size
    ensures r.nextOffset.Some? <==> offset + size < r.total
    ensures r.nextOffset.Some? ==> r.nextOffset.value == offset + size
  {
    var all := Selected(c, SearchFilter(query, compiles), matches);
    if lang.Some? && lang.value != "" then
      var langFiles := Filter(all, (m: DualStore.MediaRecord) => Contains(lower(m.fileName), lang.value));
      FilesPage(Slice(Slice(langFiles, offset, |langFiles|), 0, size), StrideNext(offset, size, |langFiles|), |langFiles|)
    else
      FilesPage(Slice(all, offset, size), StrideNext(offset, size, |all|), |all|)
  }

  /** `needle in hay` for strings. */
  predicate Contains(hay: string, needle: string)
    decreases |hay|
  {
    StartsWith(hay, needle) || (|hay| > 0 && Contains(hay[1..], needle))
  }

  /** Python's `xs[offset:][:size]` is the window `[offset, offset + size)`. */
  lemma {:induction false} SliceOfSlice<T>(s: seq<T>, offset: nat, size: nat)
    ensures Slice(Slice(s, offset, |s|), 0, size) == Slice(s, offset, size)
  {
    if offset < |s| {
      var t := s[offset..];
      assert Slice(s, offset, |s|) == t;
      if size <= |t| {
        assert offset + size <= |s|;
        assert Slice(t, 0, size) == t[..size];
        assert t[..size] == s[offset..offset + size];
      } else {
        assert Slice(t, 0, size) == t;
        assert Slice(s, offset, size) == s[offset..];
      }
    } else {
      assert Slice(s, offset, |s|) == [];
    }
  }

  /** The items a client sees following the stride pager from `offset`. */
  function StrideWalk<T>(all: seq<T>, offset: nat, size: nat): seq<T>
    requires size >= 1
    decreases |all| - offset
  {
    var page := Slice(all, offset, size);
    match StrideNext(offset, size, |all|)
    case None => page
    case Some(n) => page + StrideWalk(all, n, size)
  }

  /** Walking `offset, offset + size, ...` until `''` visits every remaining
      item once, in order. */
  lemma {:induction false} StrideWalkVisitsAll<T>(all: seq<T>, offset: nat, size: nat)
    requires size >= 1 && offset <= |all|
    ensures StrideWalk(all, offset, size) == all[offset..]
    decreases |all| - offset
  {
    if offset + size < |all| {
      StrideWalkVisitsAll(all, offset + size, size);
      assert all[offset..] == all[offset..offset + size] + all[offset + size..];
    }
  }

  /** Every page of `search_files` is the window of its candidate list. */
  lemma SearchFilesIsWindow(query: string, size: nat, offset: nat, lang: Option<string>,
                            compiles: string -> bool, matches: (string, string) -> bool,
                            lower: string -> string, c: Collection)
    requires Listed(c)
    ensures var all := Selected(c, SearchFilter(query, compiles), matches);
            var cands := if lang.Some? && lang.value != ""
                         then Filter(all, (m: DualStore.MediaRecord) => Contains(lower(m.fileName), lang.value))
                         else all;
            var r := SearchFiles(query, size, offset, lang, compiles, matches, lower, c);
            r.files == Slice(cands, offset, size) && r.total == |cands|
  {
    var all := Selected(c, SearchFilter(query, compiles), matches);
    if lang.Some? && lang.value != "" {
      SliceOfSlice(Filter(all, (m: DualStore.MediaRecord) => Contains(lower(m.fileName), lang.value)), offset, size);
    }
  }

  /** `get_bad_files`: every match with the file type, when one is given;
      an uncompilable pattern returns a bare empty list rather than a pair. */
  datatype BadFilesResult = NotCompiled | Found(files: seq<DualStore.MediaRecord>, total: nat)

  function GetBadFiles(query: string, fileType: Option<string>, compiles: string -> bool,
                       matches: (string, string) -> bool, c: Collection): (r: BadFilesResult)
    requires Listed(c)
    ensures r.NotCompiled? <==> !compiles(FilesPattern(Strip(query)))
    ensures r.Found? ==> r.total == |r.files|
    ensures r.Found? ==> forall i :: 0 <= i < |r.files| ==>
              && matches(FilesPattern(Strip(query)), r.files[i].fileName)
              && (fileType.None? || fileType.value == "" || r.files[i].fileType == fileType)
    ensures r.Found? ==>
              forall i :: (&& 0 <= i < |c.order|
                           && matches(FilesPattern(Strip(query)), c.store[c.order[i]].fileName)
                           && (fileType.None? || fileType.value == "" || c.store[c.order[i]].fileType == fileType))
                          ==> c.store[c.order[i]] in r.files
  {
    var p := FilesPattern(Strip(query));
    if !compiles(p) then NotCompiled
    else
      assert forall i :: 0 <= i < |c.order| ==> Docs(c)[i] == c.store[c.order[i]];
      var files := Filter(Selected(c, Pattern(p), matches),
                          (m: DualStore.MediaRecord) => fileType.None? || fileType.value == "" || m.fileType == fileType);
      Found(files, |files|)
  }

  /** The documents of the collection, newest first. */
  function Docs(c: Collection): (r: seq<DualStore.MediaRecord>)
    requires Listed(c)
    ensures |r| == |c.order|
    ensures forall i :: 0 <= i < |r| ==> r[i] == c.store[c.order[i]]
  {
    seq(|c.order|, i requires 0 <= i < |c.order| => c.store[c.order[i]])
  }

  /** `get_bad_files` keeps, in collection order and with their
      multiplicity, exactly the documents whose name matches the pattern and
      whose type is the one asked for. */
  lemma GetBadFilesIsFilter(query: string, fileType: Option<string>, compiles: string -> bool,
                            matches: (string, string) -> bool, c: Collection)
    requires Listed(c)
    requires compiles(FilesPattern(Strip(query)))
    ensures var p := FilesPattern(Strip(query));
            GetBadFiles(query, fileType, compiles, matches, c).files
            == Filter(Docs(c), (m: DualStore.MediaRecord) =>
                 matches(p, m.fileName) && (fileType.None? || fileType.value == "" || m.fileType == fileType))
  {
    var p := FilesPattern(Strip(query));
    FilterFilter(Docs(c), (m: DualStore.MediaRecord) => NameSelected(Pattern(p), matches, m.fileName),
                 (m: DualStore.MediaRecord) => fileType.None? || fileType.value == "" || m.fileType == fileType,
                 (m: DualStore.MediaRecord) =>
                   matches(p, m.fileName) && (fileType.None? || fileType.value == "" || m.fileType == fileType));
  }

  /** `get_file_details`: at most the one record under the identifier; a
      failing store reads as empty. */
  function GetFileDetails(store: DualStore.Store, id: string, storeOk: bool): (r: seq<DualStore.MediaRecord>)
    ensures |r| <= 1
    ensures |r| == 1 <==> storeOk && id in store
    ensures |r| == 1 ==> r[0] == store[id]
  {
    if storeOk && id in store then [store[id]] else []
  }

  /** A saved media is found again under its identifier. */
  lemma SavedIsFound(m: DualStore.IncomingMedia, store: DualStore.Store)
    requires SaveFile(m, DualStore.NoFault, store).outcome == Suc
    ensures var ids := FileIdCodec.UnpackNewFileId(m.decoded).value;
            GetFileDetails(SaveFile(m, DualStore.NoFault, store).store, ids.0, true) == [BuildRecord(ids, m)]
  {
  }

  /** Tokens `formate_file_name` keeps. */
  predicate KeepToken(t: string)
  {
    !StartsWith(t, "[") && !StartsWith(t, "@") && !StartsWith(t, "www.")
  }

  /** `formate_file_name`: the whitespace-separated tokens that start with
      none of `[`, `@`, `www.`, joined by single spaces. */
  function FormateFileName(name: string): (r: string)
    ensures SplitWs(r) == Filter(SplitWs(name), KeepToken)
    ensures r == Join(SplitWs(r), " ")
  {
    FilteredTokensAreWords(name);
    SplitWsJoin(Filter(SplitWs(name), KeepToken));
    Join(Filter(SplitWs(name), KeepToken), " ")
  }

  lemma FilteredTokensAreWords(name: string)
    ensures AllWords(Filter(SplitWs(name), KeepToken))
  {
    FilterKeepsWords(SplitWs(name), KeepToken);
  }

  /** Filtering a list of words leaves a list of words. */
  lemma {:induction false} FilterKeepsWords(ws: seq<string>, keep: string -> bool)
    requires AllWords(ws)
    ensures AllWords(Filter(ws, keep))
  {
    if |ws| > 0 {
      FilterKeepsWords(ws[1..], keep);
      var rest := Filter(ws[1..], keep);
      if keep(ws[0]) {
        assert Filter(ws, keep) == [ws[0]] + rest;
        assert ([ws[0]] + rest)[1..] == rest;
      } else {
        assert Filter(ws, keep) == rest;
      }
    }
  }

  lemma FormateFileNameIdempotent(name: string)
    ensures FormateFileName(FormateFileName(name)) == FormateFileName(name)
  {
    FilterIdempotent(SplitWs(name), KeepToken);
  }
}

=== FILE: startlink.dfy ===
/** The deep-link and caching logic of `src/modules/start.py`: the
    `file_<id>` start payload, the file-details cache, and the cached
    search with its age limit. Clocks are integer ticks passed in. */
module StartLink {
  import opened Common
  import opened Text
  import DualStore
  import FileIdCodec
  import Base64Url
  import ZeroRun
  import SingleStore
  import QuerySearch

  // ---- the start payload ----

  /** What `start` makes of its argument: no file link, a link with an
      optional chat id and a file id, or the invalid-format reply. */
  datatype Payload = NotFileLink | FileLink(chatId: Option<string>, fileId: string) | InvalidLink

  const LinkPrefix: string := "file_"

  /** `data.split("_", 2)` on a `file_` argument. */
  function ParsePayload(data: Option<string>): (r: Payload)
    ensures r.NotFileLink? <==> data.None? || !StartsWith(data.value, LinkPrefix)
  {
    if data.Some? && StartsWith(data.value, LinkPrefix) then
      var parts := SplitN(data.value, '_', 2);
      if |parts| == 3 then FileLink(Some(parts[1]), parts[2])
      else if |parts| == 2 then FileLink(None, parts[1])
      else InvalidLink
    else NotFileLink
  }

  lemma PrefixSplit(x: string)
    ensures var d := LinkPrefix + x;
            IndexOf(d, '_') == 4 && d[..4] == "file" && d[5..] == x
  {
    var d := LinkPrefix + x;
    assert forall j :: 0 <= j < 5 ==> d[j] == LinkPrefix[j];
    IndexOfFirst(d, '_', 4);
    assert d[..4] == "file";
    assert d[5..] == x;
  }

  /** `split("_", 1)` of the text after the prefix. */
  lemma SplitOnce(x: string)
    ensures '_' !in x ==> SplitN(x, '_', 1) == [x]
    ensures '_' in x ==> SplitN(x, '_', 1) == [x[..IndexOf(x, '_')], x[IndexOf(x, '_') + 1..]]
  {
    if '_' in x {
      SplitOnceAt(x);
    } else {
      SplitOnceNone(x);
    }
  }

  lemma SplitOnceNone(x: string)
    requires '_' !in x
    ensures SplitN(x, '_', 1) == [x]
  {
    assert IndexOf(x, '_') == |x|;
  }

  lemma SplitOnceAt(x: string)
    requires '_' in x
    ensures SplitN(x, '_', 1) == [x[..IndexOf(x, '_')], x[IndexOf(x, '_') + 1..]]
  {
    var i := IndexOf(x, '_');
    var tail := x[i + 1..];
    assert SplitN(tail, '_', 0) == [tail];
    assert SplitN(x, '_', 1) == [x[..i]] + SplitN(tail, '_', 0);
  }

  /** The argument after `file_` splits at its first `_`, if any. */
  lemma PayloadOf(x: string)
    ensures '_' !in x ==> ParsePayload(Some(LinkPrefix + x)) == FileLink(None, x)
    ensures '_' in x ==> ParsePayload(Some(LinkPrefix + x))
                         == FileLink(Some(x[..IndexOf(x, '_')]), x[IndexOf(x, '_') + 1..])
  {
    var d := LinkPrefix + x;
    assert StartsWith(d, LinkPrefix) by {
      assert d[..|LinkPrefix|] == LinkPrefix;
    }
    assert SplitN(d, '_', 2) == [d[..4]] + SplitN(x, '_', 1) by {
      PrefixSplit(x);
    }
    SplitOnce(x);
  }

  /** The invalid-format reply cannot happen: a `file_` argument always
      holds a `_`. */
  lemma PayloadNeverInvalid(data: Option<string>)
    ensures !ParsePayload(data).InvalidLink?
  {
    if data.Some? && StartsWith(data.value, LinkPrefix) {
      var d := data.value;
      assert d == LinkPrefix + d[5..];
      PayloadOf(d[5..]);
    }
  }

  /** A link `file_<id>` brings back `<id>` exactly when `<id>` holds no `_`. */
  lemma PayloadRoundTrip(id: string)
    ensures ParsePayload(Some(LinkPrefix + id)).FileLink?
    ensures ParsePayload(Some(LinkPrefix + id)).fileId == id <==> '_' !in id
  {
    PayloadOf(id);
  }

  /** A byte string without zeros compresses to itself. */
  lemma HighByteCompresses(c: seq<byte>)
    requires c == [255, 22, 4]
    ensures ZeroRun.Compress(c) == Some(c)
  {
    var t1: seq<byte>, t2: seq<byte> := [22, 4], [4];
    ZeroRun.CompressLiteral(4, []);
    ZeroRun.PrependNothing([4]);
    assert [4] + [] == t2;
    ZeroRun.CompressLiteral(22, t2);
    assert [22] + t2 == t1;
    ZeroRun.CompressLiteral(255, t1);
    assert [255] + t1 == c;
  }

  /** A byte string that starts with 255 encodes to text that starts with
      `_`, the base64url digit for 63. */
  lemma EncodeStartsWithUnderscore(c: seq<byte>)
    requires |c| >= 3 && c[0] == 255
    ensures |Base64Url.Encode(c)| > 0 && Base64Url.Encode(c)[0] == '_'
  {
    assert Base64Url.Encode(c) == Base64Url.EncodeGroup(c[0], c[1], c[2]) + Base64Url.Encode(c[3..]);
    assert Base64Url.EncodeGroup(c[0], c[1], c[2])[0] == Base64Url.CharOf(63);
  }

  /** `encode_file_id` does write `_`: the identifier of the single byte
      255 starts with it, so some real `_id`s do not survive the payload. */
  lemma CodecWritesUnderscore(b: seq<byte>)
    requires b == [255]
    ensures FileIdCodec.EncodeFileId(b).Some?
    ensures '_' in FileIdCodec.EncodeFileId(b).value
  {
    var c: seq<byte> := [255, 22, 4];
    assert b + FileIdCodec.Sentinel == c;
    HighByteCompresses(c);
    EncodeStartsWithUnderscore(c);
    assert FileIdCodec.EncodeFileId(b) == Some(Base64Url.UrlSafeEncodeStripped(c));
  }

  // ---- the file-details cache ----

  type DetailsCache = map<string, seq<DualStore.MediaRecord>>

  /** Every cached answer is what a healthy store answers now, and none is
      empty. */
  ghost predicate Coherent(cache: DetailsCache, store: DualStore.Store)
  {
    forall id :: id in cache ==> cache[id] == SingleStore.GetFileDetails(store, id, true) && cache[id] != []
  }

  /** `FILE_DETAILS_CACHE` use in `start`: a cached id is served without a
      lookup; a lookup is kept only when it found something. */
  function FileDetails(cache: DetailsCache, id: string, store: DualStore.Store, storeOk: bool)
    : (r: (seq<DualStore.MediaRecord>, DetailsCache))
    ensures id in cache ==> r.0 == cache[id] && r.1 == cache
    ensures id !in cache ==> r.0 == SingleStore.GetFileDetails(store, id, storeOk)
    ensures r.1.Keys == cache.Keys + (if r.0 != [] then {id} else {})
    ensures forall k :: k in cache ==> r.1[k] == cache[k]
  {
    if id in cache then (cache[id], cache)
    else
      var files := SingleStore.GetFileDetails(store, id, storeOk);
      if files != [] then (files, cache[id := files]) else (files, cache)
  }

  /** The cache stays coherent over a store that does not change, and with
      a healthy store it answers as a fresh lookup would. */
  lemma FileDetailsCoherent(cache: DetailsCache, id: string, store: DualStore.Store, storeOk: bool)
    requires Coherent(cache, store)
    ensures Coherent(FileDetails(cache, id, store, storeOk).1, store)
    ensures storeOk || id in cache ==> FileDetails(cache, id, store, storeOk).0 == SingleStore.GetFileDetails(store, id, true)
  {
  }

  /** An id once found keeps being served while the store is unreachable. */
  lemma FoundIdSurvivesOutage(cache: DetailsCache, id: string, store: DualStore.Store)
    requires Coherent(cache, store)
    requires id in store
    ensures var c1 := FileDetails(cache, id, store, true).1;
            FileDetails(c1, id, store, false).0 != []
  {
  }

  // ---- the search cache ----

  /** `max_cache_age`'s default. */
  const MaxCacheAge: int := 300

  /** The page size `get_search_results` takes when none is passed. */
  const DefaultMaxResults: nat := 8

  datatype CacheEntry = CacheEntry(time: int, results: SingleStore.FilesPage)

  type SearchCache = map<string, CacheEntry>

  /** `f"{search}_{offset}"`. */
  function CacheKey(search: string, offset: nat): (r: string)
    ensures |r| > |search| + 1
    ensures r[..|search| + 1] == search + "_"
    ensures ParseNat(r[|search| + 1..]) == offset
  {
    ParseNatToString(offset);
    assert (search + "_" + NatToString(offset))[|search| + 1..] == NatToString(offset);
    search + "_" + NatToString(offset)
  }

  /** Length of the text after the last `_`. */
  function TailLength(s: string): (n: nat)
    ensures n <= |s|
  {
    if |s| == 0 || s[|s| - 1] == '_' then 0 else TailLength(s[..|s| - 1]) + 1
  }

  lemma {:induction false} TailLengthAfterSeparator(a: string, x: string)
    requires '_' !in x
    ensures TailLength(a + "_" + x) == |x|
    decreases |x|
  {
    var s := a + "_" + x;
    if |x| > 0 {
      var x' := x[..|x| - 1];
      assert s[..|s| - 1] == a + "_" + x';
      assert s[|s| - 1] == x[|x| - 1];
      TailLengthAfterSeparator(a, x');
    }
  }

  lemma SuffixAfterLastSeparator(a: string, x: string, b: string, y: string)
    requires '_' !in x && '_' !in y
    requires a + "_" + x == b + "_" + y
    ensures a == b && x == y
  {
    var s := a + "_" + x;
    TailLengthAfterSeparator(a, x);
    TailLengthAfterSeparator(b, y);
    assert x == s[|s| - |x|..] == y;
    assert a == s[..|a|] == b;
  }

  /** Distinct (search, offset) pairs have distinct keys: the offset is the
      text after the last `_`, since digits hold none. */
  lemma CacheKeyInjective(s1: string, o1: nat, s2: string, o2: nat)
    requires CacheKey(s1, o1) == CacheKey(s2, o2)
    ensures s1 == s2 && o1 == o2
  {
    var x, y := NatToString(o1), NatToString(o2);
    assert forall i | 0 <= i < |x| :: x[i] != '_';
    assert forall i | 0 <= i < |y| :: y[i] != '_';
    SuffixAfterLastSeparator(s1, x, s2, y);
    NatToStringInjective(o1, o2);
  }

  /** The cache step: an entry younger than `maxAge` at time `now` is
      returned as it is, otherwise `compute` is the answer and it replaces
      the entry, stamped with `stamp`, the clock read again once the search
      has finished. */
  function CachedLookup(cache: SearchCache, now: int, stamp: int, key: string, maxAge: int,
                        compute: SingleStore.FilesPage)
    : (r: (SingleStore.FilesPage, SearchCache))
    ensures key in cache && now - cache[key].time < maxAge ==> r.0 == cache[key].results && r.1 == cache
    ensures !(key in cache && now - cache[key].time < maxAge) ==>
              r.0 == compute && r.1 == cache[key := CacheEntry(stamp, compute)]
    ensures key in r.1
    ensures forall k :: k in cache && k != key ==> k in r.1 && r.1[k] == cache[k]
  {
    if key in cache && now - cache[key].time < maxAge then (cache[key].results, cache)
    else (compute, cache[key := CacheEntry(stamp, compute)])
  }

  /** `get_search_results_cached` as the code calls it: the offset lands in
      the `max_results` parameter and the search always starts at 0. */
  function CachedSearchAsWritten(cache: SearchCache, now: int, stamp: int, search: string, offset: nat, maxAge: int,
                                 compiles: string -> bool, matches: (string, string) -> bool,
                                 lower: string -> string, c: SingleStore.Collection)
    : (r: (SingleStore.FilesPage, SearchCache))
    requires SingleStore.Listed(c)
  {
    CachedLookup(cache, now, stamp, CacheKey(search, offset), maxAge,
                 QuerySearch.GetSearchResults(search, offset, 0, None, compiles, matches, lower, c))
  }

  /** `get_search_results_cached` as evidently intended: the page at
      `offset`, of the default size. */
  function CachedSearch(cache: SearchCache, now: int, stamp: int, search: string, offset: nat, maxAge: int,
                        compiles: string -> bool, matches: (string, string) -> bool,
                        lower: string -> string, c: SingleStore.Collection)
    : (r: (SingleStore.FilesPage, SearchCache))
    requires SingleStore.Listed(c)
    ensures CacheKey(search, offset) in r.1
    ensures forall k :: k in cache && k != CacheKey(search, offset) ==> k in r.1 && r.1[k] == cache[k]
  {
    CachedLookup(cache, now, stamp, CacheKey(search, offset), maxAge,
                 QuerySearch.GetSearchResults(search, DefaultMaxResults, offset, None, compiles, matches, lower, c))
  }

  /** Every entry holds the page its key names, over an unchanging
      collection. */
  ghost predicate SearchCacheCoherent(cache: SearchCache, compiles: string -> bool, matches: (string, string) -> bool,
                                      lower: string -> string, c: SingleStore.Collection)
    requires SingleStore.Listed(c)
  {
    forall s, o :: CacheKey(s, o) in cache ==>
      cache[CacheKey(s, o)].results == QuerySearch.GetSearchResults(s, DefaultMaxResults, o, None, compiles, matches, lower, c)
  }

  /** Refreshing the entry under the key of (search, offset) with its own
      page keeps the cache coherent. */
  lemma RefreshKeepsCoherent(cache: SearchCache, now: int, search: string, offset: nat,
                             compiles: string -> bool, matches: (string, string) -> bool,
                             lower: string -> string, c: SingleStore.Collection)
    requires SingleStore.Listed(c)
    requires SearchCacheCoherent(cache, compiles, matches, lower, c)
    ensures var page := QuerySearch.GetSearchResults(search, DefaultMaxResults, offset, None, compiles, matches, lower, c);
            SearchCacheCoherent(cache[CacheKey(search, offset) := CacheEntry(now, page)], compiles, matches, lower, c)
  {
    var key := CacheKey(search, offset);
    var page := QuerySearch.GetSearchResults(search, DefaultMaxResults, offset, None, compiles, matches, lower, c);
    var next := cache[key := CacheEntry(now, page)];
    forall s, o | CacheKey(s, o) in next
      ensures next[CacheKey(s, o)].results
              == QuerySearch.GetSearchResults(s, DefaultMaxResults, o, None, compiles, matches, lower, c)
    {
      if CacheKey(s, o) == key {
        CacheKeyInjective(s, o, search, offset);
      }
    }
  }

  /** A coherent cache stays coherent, and what it returns is the window
      `[offset, offset + 8)` of the matches, cached or not. */
  lemma CachedSearchIsWindow(cache: SearchCache, now: int, stamp: int, search: string, offset: nat, maxAge: int,
                             compiles: string -> bool, matches: (string, string) -> bool,
                             lower: string -> string, c: SingleStore.Collection)
    requires SingleStore.Listed(c)
    requires SearchCacheCoherent(cache, compiles, matches, lower, c)
    ensures var r := CachedSearch(cache, now, stamp, search, offset, maxAge, compiles, matches, lower, c);
            && SearchCacheCoherent(r.1, compiles, matches, lower, c)
            && r.0.files == Slice(QuerySearch.Candidates(search, None, compiles, matches, lower, c), offset, DefaultMaxResults)
  {
    var key := CacheKey(search, offset);
    var page := QuerySearch.GetSearchResults(search, DefaultMaxResults, offset, None, compiles, matches, lower, c);
    var r := CachedSearch(cache, now, stamp, search, offset, maxAge, compiles, matches, lower, c);
    assert r == CachedLookup(cache, now, stamp, key, maxAge, page);
    QuerySearch.SearchResultsIsWindow(search, DefaultMaxResults, offset, None, compiles, matches, lower, c);
    if key in cache && now - cache[key].time < maxAge {
      assert r.0 == cache[key].results && r.1 == cache;
      assert cache[CacheKey(search, offset)].results == page;
    } else {
      assert r.0 == page && r.1 == cache[key := CacheEntry(stamp, page)];
      RefreshKeepsCoherent(cache, stamp, search, offset, compiles, matches, lower, c);
    }
  }

  /** As written, the requested offset comes back as the next offset
      whenever there are more matches than it: the pager never moves. The
      page holds the first `offset` matches. At the one call site the
      offset is 0, so any query with a match gets an empty page and is told
      to fetch offset 0 again. */
  lemma AsWrittenNextOffsetRepeats(cache: SearchCache, now: int, stamp: int, search: string, offset: nat, maxAge: int,
                                   compiles: string -> bool, matches: (string, string) -> bool,
                                   lower: string -> string, c: SingleStore.Collection)
    requires SingleStore.Listed(c)
    requires CacheKey(search, offset) !in cache
    requires offset < |QuerySearch.Candidates(search, None, compiles, matches, lower, c)|
    ensures CachedSearchAsWritten(cache, now, stamp, search, offset, maxAge, compiles, matches, lower, c).0.nextOffset
            == Some(offset)
    ensures CachedSearchAsWritten(cache, now, stamp, search, offset, maxAge, compiles, matches, lower, c).0.files
            == QuerySearch.Candidates(search, None, compiles, matches, lower, c)[..offset]
    ensures offset == 0 ==>
              CachedSearchAsWritten(cache, now, stamp, search, offset, maxAge, compiles, matches, lower, c).0.files == []
  {
    var cands := QuerySearch.Candidates(search, None, compiles, matches, lower, c);
    var page := QuerySearch.GetSearchResults(search, offset, 0, None, compiles, matches, lower, c);
    assert CachedSearchAsWritten(cache, now, stamp, search, offset, maxAge, compiles, matches, lower, c).0 == page;
    assert page.files == cands[..offset] by {
      QuerySearch.SearchResultsIsWindow(search, offset, 0, None, compiles, matches, lower, c);
      assert Slice(cands, 0, offset) == cands[0..offset];
    }
  }

  /** As intended, the next offset moves on by the page size. */
  lemma CachedSearchAdvances(cache: SearchCache, now: int, stamp: int, search: string, offset: nat, maxAge: int,
                             compiles: string -> bool, matches: (string, string) -> bool,
                             lower: string -> string, c: SingleStore.Collection)
    requires SingleStore.Listed(c)
    requires CacheKey(search, offset) !in cache
    requires offset + DefaultMaxResults < |QuerySearch.Candidates(search, None, compiles, matches, lower, c)|
    ensures CachedSearch(cache, now, stamp, search, offset, maxAge, compiles, matches, lower, c).0.nextOffset
            == Some(offset + DefaultMaxResults)
  {
  }
}

=== FILE: text.dfy ===
/** The pieces of Python's `str` behaviour the media index relies on:
    whitespace, `strip`, `split(sep)`, `split(sep, maxsplit)`, `split()`,
    `join`, `startswith`, and decimal rendering of integers. */
module Text {

  /** Python's `str.isspace()`: tab to carriage return, the four
      information separators and space, and the Unicode space separators. */
  predicate IsSpace(c: char)
  {
    || ('\t' <= c <= '\r')
    || ('\U{001C}' <= c <= ' ')
    || c == '\U{0085}' || c == '\U{00A0}' || c == '\U{1680}'
    || ('\U{2000}' <= c <= '\U{200A}')
    || c == '\U{2028}' || c == '\U{2029}' || c == '\U{202F}' || c == '\U{205F}'
    || c == '\U{3000}'
  }

  predicate NoSpace(s: string)
  {
    forall i :: 0 <= i < |s| ==> !IsSpace(s[i])
  }

  function TrimStart(s: string): (r: string)
    ensures |r| <= |s|
    ensures r == s[|s| - |r|..]
    ensures |r| > 0 ==> !IsSpace(r[0])
  {
    if |s| > 0 && IsSpace(s[0]) then TrimStart(s[1..]) else s
  }

  /** What `TrimStart` drops is whitespace. */
  lemma {:induction false} TrimStartDropsSpace(s: string)
    ensures forall i :: 0 <= i < |s| - |TrimStart(s)| ==> IsSpace(s[i])
  {
    if |s| > 0 && IsSpace(s[0]) {
      TrimStartDropsSpace(s[1..]);
      assert forall i :: 1 <= i < |s| ==> s[i] == s[1..][i - 1];
    }
  }

  function TrimEnd(s: string): (r: string)
    ensures |r| <= |s|
    ensures r == s[..|r|]
    ensures |r| > 0 ==> !IsSpace(r[|r| - 1])
  {
    if |s| > 0 && IsSpace(s[|s| - 1]) then TrimEnd(s[..|s| - 1]) else s
  }

  /** What `TrimEnd` drops is whitespace. */
  lemma {:induction false} TrimEndDropsSpace(s: string)
    ensures forall i :: |TrimEnd(s)| <= i < |s| ==> IsSpace(s[i])
  {
    if |s| > 0 && IsSpace(s[|s| - 1]) {
      TrimEndDropsSpace(s[..|s| - 1]);
    }
  }

  /** Python's `s.strip()`: the window of `s` that starts after its
      leading whitespace, with only whitespace outside it. */
  function Strip(s: string): (r: string)
    ensures |r| <= |s|
    ensures |r| > 0 ==> !IsSpace(r[0]) && !IsSpace(r[|r| - 1])
    ensures |s| - |TrimStart(s)| + |r| <= |s|
    ensures r == s[|s| - |TrimStart(s)|..|s| - |TrimStart(s)| + |r|]
    ensures forall j :: 0 <= j < |s| - |TrimStart(s)| ==> IsSpace(s[j])
    ensures forall j :: |s| - |TrimStart(s)| + |r| <= j < |s| ==> IsSpace(s[j])
  {
    TrimStartDropsSpace(s);
    TrimEndDropsSpace(TrimStart(s));
    StripWindow(s, TrimStart(s), TrimEnd(TrimStart(s)));
    TrimEnd(TrimStart(s))
  }

  /** A prefix `r` of a suffix `t` of `s`, with whitespace dropped on
      either side, is a window of `s` with only whitespace outside it. */
  lemma StripWindow(s: string, t: string, r: string)
    requires |t| <= |s| && t == s[|s| - |t|..]
    requires |r| <= |t| && r == t[..|r|]
    requires forall j :: 0 <= j < |s| - |t| ==> IsSpace(s[j])
    requires forall j :: |r| <= j < |t| ==> IsSpace(t[j])
    ensures |s| - |t| + |r| <= |s|
    ensures r == s[|s| - |t|..|s| - |t| + |r|]
    ensures forall j :: |s| - |t| + |r| <= j < |s| ==> IsSpace(s[j])
  {
    var i := |s| - |t|;
    PrefixOfSuffix(s, i, |r|);
    forall j | i + |r| <= j < |s|
      ensures IsSpace(s[j])
    {
      assert s[j] == t[j - i];
    }
  }

  lemma PrefixOfSuffix(s: string, i: nat, k: nat)
    requires i + k <= |s|
    ensures s[i..][..k] == s[i..i + k]
  {
  }

  lemma StripOfTrimmed(s: string)
    requires |s| == 0 || (!IsSpace(s[0]) && !IsSpace(s[|s| - 1]))
    ensures Strip(s) == s
  {
  }

  function StartsWith(s: string, p: string): bool
  {
    |p| <= |s| && s[..|p|] == p
  }

  /** `parts[0] + sep + parts[1] + sep + ...`, Python's `sep.join(parts)`. */
  function Join(parts: seq<string>, sep: string): string
  {
    if |parts| == 0 then ""
    else if |parts| == 1 then parts[0]
    else parts[0] + sep + Join(parts[1..], sep)
  }

  /** Python's `s.split(c)` for a one-character separator: every occurrence
      of `c` separates two (possibly empty) parts. */
  function SplitOn(s: string, c: char): (parts: seq<string>)
    ensures |parts| >= 1
    ensures forall k :: 0 <= k < |parts| ==> c !in parts[k]
  {
    if |s| == 0 then [""]
    else
      var rest := SplitOn(s[1..], c);
      if s[0] == c then [""] + rest
      else [[s[0]] + rest[0]] + rest[1..]
  }

  lemma {:induction false} JoinSplitOn(s: string, c: char)
    ensures Join(SplitOn(s, c), [c]) == s
  {
    if |s| > 0 {
      var rest := SplitOn(s[1..], c);
      JoinSplitOn(s[1..], c);
      if s[0] == c {
        assert SplitOn(s, c) == [""] + rest;
        assert (["" ] + rest)[1..] == rest;
      } else {
        var ps := [[s[0]] + rest[0]] + rest[1..];
        assert SplitOn(s, c) == ps;
        if |rest| == 1 {
          assert Join(ps, [c]) == [s[0]] + rest[0];
        } else {
          assert ps[1..] == rest[1..];
          assert Join(rest, [c]) == rest[0] + [c] + Join(rest[1..], [c]);
        }
      }
    }
  }

  /** A part produced by `SplitOn` has no separator, so the parts of a string
      without the separator is the string itself. */
  lemma {:induction false} SplitOnAbsent(s: string, c: char)
    requires c !in s
    ensures SplitOn(s, c) == [s]
  {
    if |s| > 0 {
      SplitOnAbsent(s[1..], c);
      assert [s[0]] + s[1..] == s;
    }
  }

  /** Index of the first `c` in `s`, or `|s|` when there is none. */
  function IndexOf(s: string, c: char): (i: nat)
    ensures i <= |s|
    ensures i < |s| ==> s[i] == c
    ensures c !in s[..i]
    ensures i == |s| <==> c !in s
  {
    if |s| == 0 then 0
    else if s[0] == c then 0
    else
      var j := IndexOf(s[1..], c);
      assert s[1..][..j] == s[1..j + 1];
      assert s[..j + 1] == [s[0]] + s[1..j + 1];
      j + 1
  }

  /** The first `c` of `s` is found where it is. */
  lemma {:induction false} IndexOfFirst(s: string, c: char, k: nat)
    requires k < |s| && s[k] == c
    requires forall j :: 0 <= j < k ==> s[j] != c
    ensures IndexOf(s, c) == k
  {
    if k > 0 {
      IndexOfFirst(s[1..], c, k - 1);
    }
  }

  /** Python's `s.split(c, maxsplit)`: at most `maxsplit` splits, the
      remainder kept whole in the last part. */
  function SplitN(s: string, c: char, maxsplit: nat): (parts: seq<string>)
    ensures 1 <= |parts| <= maxsplit + 1
    decreases maxsplit
  {
    var i := IndexOf(s, c);
    if maxsplit == 0 || i == |s| then [s]
    else [s[..i]] + SplitN(s[i + 1..], c, maxsplit - 1)
  }

  /** Number of leading characters before the first whitespace. */
  function TokenLength(s: string): (k: nat)
    ensures k <= |s|
    ensures NoSpace(s[..k])
    ensures k < |s| ==> IsSpace(s[k])
    ensures |s| > 0 && !IsSpace(s[0]) ==> k >= 1
  {
    if |s| == 0 || IsSpace(s[0]) then 0
    else
      var k := TokenLength(s[1..]);
      assert s[..k + 1] == [s[0]] + s[1..][..k];
      k + 1
  }

  /** A non-empty run of non-whitespace. */
  predicate IsWord(w: string)
  {
    |w| > 0 && NoSpace(w)
  }

  /** Every part is a word. */
  predicate AllWords(parts: seq<string>)
  {
    |parts| == 0 || (IsWord(parts[0]) && AllWords(parts[1..]))
  }

  lemma {:induction false} AllWordsAt(parts: seq<string>, k: int)
    requires AllWords(parts) && 0 <= k < |parts|
    ensures IsWord(parts[k])
  {
    if k > 0 {
      AllWordsAt(parts[1..], k - 1);
    }
  }

  lemma {:induction false} AllWordsOf(parts: seq<string>)
    requires forall k :: 0 <= k < |parts| ==> IsWord(parts[k])
    ensures AllWords(parts)
  {
    if |parts| > 0 {
      assert forall k :: 0 <= k < |parts| - 1 ==> parts[1..][k] == parts[k + 1];
      AllWordsOf(parts[1..]);
    }
  }

  /** Python's `s.split()`: maximal runs of non-whitespace, in order. */
  function SplitWs(s: string): (parts: seq<string>)
    ensures AllWords(parts)
    decreases |s|
  {
    var t := TrimStart(s);
    if |t| == 0 then []
    else
      var k := TokenLength(t);
      var word := t[..k];
      var rest := SplitWs(t[k..]);
      assert IsWord(word);
      assert ([word] + rest)[1..] == rest;
      [word] + rest
  }

  /** Every non-empty whitespace-free token list survives a join with single
      spaces followed by a whitespace split. */
  lemma {:induction false} SplitWsJoin(parts: seq<string>)
    requires AllWords(parts)
    ensures SplitWs(Join(parts, " ")) == parts
  {
    if |parts| == 1 {
      SplitWsOne(parts[0]);
    } else if |parts| > 1 {
      SplitWsJoin(parts[1..]);
      SplitWsJoinStep(parts);
    }
  }

  /** A single word splits to itself. */
  lemma SplitWsOnlyWord(p: string)
    requires IsWord(p)
    ensures SplitWs(p) == [p]
  {
    assert p + "" == p;
    SplitWsWord(p, "");
  }

  lemma SplitWsOne(p: string)
    requires IsWord(p)
    ensures SplitWs(Join([p], " ")) == [p]
  {
    assert p + "" == p;
    SplitWsWord(p, "");
  }

  lemma SplitWsJoinStep(parts: seq<string>)
    requires |parts| > 1 && IsWord(parts[0])
    requires SplitWs(Join(parts[1..], " ")) == parts[1..]
    ensures SplitWs(Join(parts, " ")) == parts
  {
    var p, tail := parts[0], parts[1..];
    var rest := Join(tail, " ");
    assert Join(parts, " ") == p + " " + rest;
    SplitWsCons(p, rest);
    assert parts == [p] + tail;
  }

  /** A word and a space in front of a string add that word in front of its
      parts. */
  lemma SplitWsCons(p: string, rest: string)
    requires IsWord(p)
    ensures SplitWs(p + " " + rest) == [p] + SplitWs(rest)
  {
    assert p + " " + rest == p + (" " + rest);
    SplitWsWord(p, " " + rest);
    SplitWsLeadingSpace(rest);
  }

  /** A word followed by nothing or by whitespace is the first token. */
  lemma SplitWsWord(p: string, tail: string)
    requires IsWord(p)
    requires |tail| == 0 || IsSpace(tail[0])
    ensures SplitWs(p + tail) == [p] + SplitWs(tail)
  {
    var s := p + tail;
    assert TrimStart(s) == s;
    TokenOfWord(p, tail);
    assert s[|p|..] == tail;
  }

  lemma SplitWsLeadingSpace(rest: string)
    ensures SplitWs(" " + rest) == SplitWs(rest)
  {
    assert (" " + rest)[1..] == rest;
    assert TrimStart(" " + rest) == TrimStart(rest);
  }

  lemma {:induction false} TokenOfWord(p: string, tail: string)
    requires |p| > 0 && NoSpace(p)
    requires |tail| == 0 || IsSpace(tail[0])
    ensures TokenLength(p + tail) == |p|
    ensures (p + tail)[..|p|] == p
  {
    var s := p + tail;
    assert s[0] == p[0];
    if |p| == 1 {
      assert s[1..] == tail;
    } else {
      assert s[1..] == p[1..] + tail;
      TokenOfWord(p[1..], tail);
    }
  }

  lemma JoinStartsWithWord(parts: seq<string>)
    requires |parts| > 0 && AllWords(parts)
    ensures |Join(parts, " ")| > 0 && !IsSpace(Join(parts, " ")[0])
  {
    assert Join(parts, " ")[0] == parts[0][0];
  }

  /** `s` with every `c` replaced by `repl`: Python's `s.replace(c, repl)`. */
  function ReplaceChar(s: string, c: char, repl: string): string
  {
    if |s| == 0 then ""
    else (if s[0] == c then repl else [s[0]]) + ReplaceChar(s[1..], c, repl)
  }

  /** Replacing every `c` by a text without `c` leaves no `c`. */
  lemma {:induction false} ReplaceRemoves(s: string, c: char, repl: string)
    requires c !in repl
    ensures c !in ReplaceChar(s, c, repl)
    decreases |s|
  {
    if |s| > 0 {
      ReplaceRemoves(s[1..], c, repl);
    }
  }

  /** Replacing a separator is the same as splitting on it and joining the
      parts with the replacement. */
  lemma {:induction false} ReplaceIsSplitJoin(s: string, c: char, repl: string)
    ensures ReplaceChar(s, c, repl) == Join(SplitOn(s, c), repl)
  {
    if |s| > 0 {
      ReplaceIsSplitJoin(s[1..], c, repl);
      var rest := SplitOn(s[1..], c);
      if s[0] == c {
        assert SplitOn(s, c) == [""] + rest;
        assert ([""] + rest)[1..] == rest;
      } else {
        var ps := [[s[0]] + rest[0]] + rest[1..];
        assert SplitOn(s, c) == ps;
        if |rest| > 1 {
          assert ps[1..] == rest[1..];
        }
      }
    }
  }

  function DigitChar(d: int): char
    requires 0 <= d < 10
  {
    ['0', '1', '2', '3', '4', '5', '6', '7', '8', '9'][d]
  }

  function DigitValue(c: char): int
  {
    if '0' <= c <= '9' then (c as int) - ('0' as int) else 0
  }

  predicate IsDigit(c: char)
  {
    '0' <= c <= '9'
  }

  /** Decimal digits of a natural number, as Python's `str(n)` for `n >= 0`. */
  function NatToString(n: nat): (r: string)
    ensures |r| >= 1
    ensures forall i :: 0 <= i < |r| ==> IsDigit(r[i])
  {
    if n < 10 then [DigitChar(n)] else NatToString(n / 10) + [DigitChar(n % 10)]
  }

  /** The inverse of `NatToString` on strings of digits. */
  function ParseNat(s: string): nat
  {
    if |s| == 0 then 0 else 10 * ParseNat(s[..|s| - 1]) + DigitValue(s[|s| - 1])
  }

  lemma {:induction false} ParseNatToString(n: nat)
    ensures ParseNat(NatToString(n)) == n
  {
    if n >= 10 {
      var s := NatToString(n);
      assert s[..|s| - 1] == NatToString(n / 10);
      ParseNatToString(n / 10);
    }
  }

  lemma NatToStringInjective(a: nat, b: nat)
    requires NatToString(a) == NatToString(b)
    ensures a == b
  {
    ParseNatToString(a);
    ParseNatToString(b);
  }
}

=== FILE: zerorun.dfy ===
/** The zero-run compression inside `encode_file_id`: every maximal run of
    `n` zero bytes that is followed by a non-zero byte becomes the pair
    `(0x00, n)`, non-zero bytes pass through, and a run still pending when
    the input ends is never written out. A run longer than 255 makes
    `bytes([n])` raise, modelled as `None`. */
module ZeroRun {
  import opened Common

  function Zeros(n: nat): (z: seq<byte>)
    ensures |z| == n
    ensures forall i :: 0 <= i < n ==> z[i] == 0
  {
    if n == 0 then [] else [0 as byte] + Zeros(n - 1)
  }

  /** Length of the run of zero bytes at the front of `s`. */
  function LeadingZeros(s: seq<byte>): (k: nat)
    ensures k <= |s|
    ensures forall i :: 0 <= i < k ==> s[i] == 0
    ensures k < |s| ==> s[k] != 0
  {
    if |s| == 0 || s[0] != 0 then 0 else 1 + LeadingZeros(s[1..])
  }

  /** A run of at least 256 zero bytes directly followed by a non-zero byte:
      the input on which `encode_file_id`'s `bytes([n])` raises. */
  ghost predicate HasLongRun(s: seq<byte>)
  {
    exists i :: 256 <= i < |s| && s[i] != 0 && AllZero(s[i - 256..i])
  }

  predicate AllZero(s: seq<byte>)
  {
    forall i :: 0 <= i < |s| ==> s[i] == 0
  }

  function StripTrailingZeros(s: seq<byte>): (r: seq<byte>)
    ensures |r| <= |s| && r == s[..|r|]
    ensures |r| > 0 ==> r[|r| - 1] != 0
    ensures AllZero(s[|r|..])
  {
    if |s| > 0 && s[|s| - 1] == 0 then
      var r := StripTrailingZeros(s[..|s| - 1]);
      assert s[|r|..] == s[..|s| - 1][|r|..] + [0];
      r
    else s
  }

  /** The shape of compressed output: a zero is always a run marker, followed
      by its (non-zero) length and then by a non-zero literal byte. */
  predicate Canonical(c: seq<byte>)
  {
    forall i :: 0 <= i < |c| && c[i] == 0 ==> i + 2 < |c| && c[i + 1] != 0 && c[i + 2] != 0
  }

  predicate NoAdjacentZeros(c: seq<byte>)
  {
    forall i :: 0 <= i < |c| - 1 ==> c[i] != 0 || c[i + 1] != 0
  }

  lemma CanonicalHasNoAdjacentZeros(c: seq<byte>)
    requires Canonical(c)
    ensures NoAdjacentZeros(c)
  {
  }

  /** The inverse reading: each `(0x00, n)` pair becomes `n` zero bytes. */
  function Expand(c: seq<byte>): seq<byte>
  {
    if |c| == 0 then []
    else if c[0] != 0 then [c[0]] + Expand(c[1..])
    else if |c| == 1 then []
    else Zeros(c[1]) + Expand(c[2..])
  }

  /** The compression, one run at a time. */
  function Compress(s: seq<byte>): (r: Option<seq<byte>>)
    ensures r.Some? ==> Canonical(r.value)
    ensures r.None? ==> |s| > 256
  {
    if |s| == 0 then Some([])
    else if s[0] != 0 then
      match Compress(s[1..])
      case None => None
      case Some(t) => Some([s[0]] + t)
    else
      var k := LeadingZeros(s);
      if k == |s| then Some([])
      else if k > 255 then None
      else
        match Compress(s[k..])
        case None => None
        case Some(t) =>
          assert s[k..][0] == s[k] != 0;
          Some([0 as byte, k as byte] + t)
  }

  /** The compression fails exactly on inputs holding a run of more than 255
      zero bytes that is followed by a non-zero byte. */
  lemma {:induction false} CompressFailsIffLongRun(s: seq<byte>)
    ensures Compress(s).None? <==> HasLongRun(s)
    decreases |s|
  {
    if |s| == 0 {
    } else if s[0] != 0 {
      CompressFailsIffLongRun(s[1..]);
      if |s| > 1 {
        LongRunDropPrefix(s, 1);
      }
    } else {
      var k := LeadingZeros(s);
      if k == |s| {
        NoLongRunInZeros(s);
      } else if k > 255 {
        assert AllZero(s[k - 256..k]);
      } else {
        CompressFailsIffLongRun(s[k..]);
        LongRunDropPrefix(s, k);
      }
    }
  }

  /** Dropping a prefix that ends just before a non-zero byte and holds fewer
      than 256 bytes neither creates nor removes a long run. */
  lemma LongRunDropPrefix(s: seq<byte>, k: nat)
    requires 0 < k < |s| && k <= 255
    requires s[k - 1] != 0 || s[k] != 0
    ensures HasLongRun(s) <==> HasLongRun(s[k..])
  {
    LongRunSuffix(s, k);
    if HasLongRun(s) {
      var i :| 256 <= i < |s| && s[i] != 0 && AllZero(s[i - 256..i]);
      var w := s[i - 256..i];
      assert forall j :: i - 256 <= j < i ==> s[j] == w[j - (i - 256)] == 0;
      assert s[k..][i - 256 - k..i - k] == w;
    }
  }

  lemma NoLongRunInZeros(s: seq<byte>)
    requires AllZero(s)
    ensures !HasLongRun(s)
  {
  }

  lemma LongRunSuffix(s: seq<byte>, k: nat)
    requires k <= |s|
    ensures HasLongRun(s[k..]) ==> HasLongRun(s)
  {
    if HasLongRun(s[k..]) {
      var t := s[k..];
      var i :| 256 <= i < |t| && t[i] != 0 && AllZero(t[i - 256..i]);
      assert s[k + i - 256..k + i] == t[i - 256..i];
      assert s[k + i] != 0;
    }
  }

  lemma ExpandCons(b: byte, t: seq<byte>)
    requires b != 0
    ensures Expand([b] + t) == [b] + Expand(t)
  {
    assert ([b] + t)[1..] == t;
  }

  lemma ExpandRun(k: byte, t: seq<byte>)
    requires k != 0
    ensures Expand([0 as byte, k] + t) == Zeros(k) + Expand(t)
  {
    assert ([0 as byte, k] + t)[2..] == t;
  }

  /** Expanding the compressed bytes gives the input back, short of the zero
      bytes that trail it. */
  lemma {:induction false} ExpandCompress(s: seq<byte>)
    requires Compress(s).Some?
    ensures Expand(Compress(s).value) == StripTrailingZeros(s)
    decreases |s|
  {
    if |s| == 0 {
    } else if s[0] != 0 {
      ExpandCompress(s[1..]);
      ExpandCons(s[0], Compress(s[1..]).value);
      StripTrailingZerosCons(s);
    } else {
      var k := LeadingZeros(s);
      if k == |s| {
        AllZeroStrips(s);
      } else {
        ExpandCompress(s[k..]);
        ExpandRun(k as byte, Compress(s[k..]).value);
        StripAfterRun(s, k);
      }
    }
  }

  lemma StripTrailingZerosCons(s: seq<byte>)
    requires |s| > 0 && s[0] != 0
    ensures StripTrailingZeros(s) == [s[0]] + StripTrailingZeros(s[1..])
    decreases |s|
  {
    if |s| > 1 && s[|s| - 1] == 0 {
      StripTrailingZerosCons(s[..|s| - 1]);
      assert s[..|s| - 1][1..] == s[1..][..|s[1..]| - 1];
      StripLastZero(s);
      StripLastZero(s[1..]);
    } else if |s| > 1 {
      StripNonZeroLast(s);
      StripNonZeroLast(s[1..]);
      assert s == [s[0]] + s[1..];
    } else {
      StripNonZeroLast(s);
      assert s[1..] == [];
    }
  }

  lemma AllZeroStrips(s: seq<byte>)
    requires AllZero(s)
    ensures StripTrailingZeros(s) == []
  {
  }

  lemma {:induction false} StripAfterRun(s: seq<byte>, k: nat)
    requires 0 < k < |s|
    requires forall i :: 0 <= i < k ==> s[i] == 0
    requires s[k] != 0
    ensures StripTrailingZeros(s) == Zeros(k) + StripTrailingZeros(s[k..])
    decreases |s|
  {
    if s[|s| - 1] == 0 {
      var s' := s[..|s| - 1];
      StripAfterRun(s', k);
      StripAfterRunStep(s, k);
    } else {
      ZerosPrefix(s, k);
    }
  }

  lemma StripAfterRunStep(s: seq<byte>, k: nat)
    requires 0 < k < |s| - 1 && s[|s| - 1] == 0
    requires StripTrailingZeros(s[..|s| - 1]) == Zeros(k) + StripTrailingZeros(s[..|s| - 1][k..])
    ensures StripTrailingZeros(s) == Zeros(k) + StripTrailingZeros(s[k..])
  {
    var t := s[k..];
    assert s[..|s| - 1][k..] == t[..|t| - 1];
    StripLastZero(s);
    StripLastZero(t);
  }

  lemma StripNonZeroLast(x: seq<byte>)
    requires |x| > 0 && x[|x| - 1] != 0
    ensures StripTrailingZeros(x) == x
  {
  }

  lemma StripLastZero(x: seq<byte>)
    requires |x| > 0 && x[|x| - 1] == 0
    ensures StripTrailingZeros(x) == StripTrailingZeros(x[..|x| - 1])
  {
  }

  /** A sequence that starts with `k` zeros is `Zeros(k)` and the rest. */
  lemma ZerosPrefix(s: seq<byte>, k: nat)
    requires k <= |s|
    requires forall i :: 0 <= i < k ==> s[i] == 0
    ensures s == Zeros(k) + s[k..]
  {
    var z := Zeros(k);
    assert forall i :: 0 <= i < k ==> (z + s[k..])[i] == s[i];
    assert forall i :: k <= i < |s| ==> (z + s[k..])[i] == s[i];
  }

  /** `encode_file_id`'s loop: `n` counts the zero bytes seen since the last
      non-zero one, and the pair is written when the next non-zero byte
      arrives. */
  method CompressBytes(s: seq<byte>) returns (r: Option<seq<byte>>)
    ensures r == Compress(s)
  {
    var out: seq<byte> := [];
    var n: nat := 0;
    var i := 0;
    assert Zeros(0) + s[0..] == s;
    PrependEmpty(Compress(s));
    while i < |s|
      invariant 0 <= i <= |s|
      invariant Compress(s) == Prepend(out, Compress(Zeros(n) + s[i..]))
    {
      if s[i] == 0 {
        ZeroStep(s, i, n, out);
        n := n + 1;
      } else if n > 255 {
        LongRunStep(s, i, n, out);
        return None;
      } else {
        var flushed: seq<byte> := if n > 0 then [0 as byte, n as byte] else [];
        LiteralStep(s, i, n, out);
        out := out + flushed + [s[i]];
        n := 0;
      }
      i := i + 1;
    }
    FinalStep(s, n, out);
    r := Some(out);
  }

  /** A zero byte lengthens the pending run. */
  lemma ZeroStep(s: seq<byte>, i: nat, n: nat, out: seq<byte>)
    requires i < |s| && s[i] == 0
    requires Compress(s) == Prepend(out, Compress(Zeros(n) + s[i..]))
    ensures Compress(s) == Prepend(out, Compress(Zeros(n + 1) + s[i + 1..]))
  {
    assert s[i..] == [s[i]] + s[i + 1..];
    ZerosSnoc(n);
    assert Zeros(n) + s[i..] == Zeros(n + 1) + s[i + 1..];
  }

  /** A non-zero byte after a run longer than 255 zeros makes the whole
      compression fail. */
  lemma LongRunStep(s: seq<byte>, i: nat, n: nat, out: seq<byte>)
    requires i < |s| && s[i] != 0 && n > 255
    requires Compress(s) == Prepend(out, Compress(Zeros(n) + s[i..]))
    ensures Compress(s) == None
  {
    CompressAfterZeros(n, s[i..]);
  }

  /** A non-zero byte flushes the pending run, if any, and is copied. */
  lemma LiteralStep(s: seq<byte>, i: nat, n: nat, out: seq<byte>)
    requires i < |s| && s[i] != 0 && n <= 255
    requires Compress(s) == Prepend(out, Compress(Zeros(n) + s[i..]))
    ensures var flushed: seq<byte> := if n > 0 then [0 as byte, n as byte] else [];
            Compress(s) == Prepend(out + flushed + [s[i]], Compress(Zeros(0) + s[i + 1..]))
  {
    var rest := s[i + 1..];
    var flushed: seq<byte> := if n > 0 then [0 as byte, n as byte] else [];
    assert s[i..] == [s[i]] + rest;
    CompressLiteral(s[i], rest);
    FlushRun(n, s[i..]);
    PrependAssoc(out, flushed, Compress(s[i..]));
    PrependAssoc(out + flushed, [s[i]], Compress(rest));
    NoZerosAhead(rest);
  }

  /** Zeros pending at the end are dropped. */
  lemma FinalStep(s: seq<byte>, n: nat, out: seq<byte>)
    requires Compress(s) == Prepend(out, Compress(Zeros(n) + s[|s|..]))
    ensures Compress(s) == Some(out)
  {
    NothingAfter(s, n);
    CompressZeros(n);
    PrependNothing(out);
  }

  lemma NothingAfter(s: seq<byte>, n: nat)
    ensures Zeros(n) + s[|s|..] == Zeros(n)
  {
  }

  lemma PrependNothing(out: seq<byte>)
    ensures Prepend(out, Some([])) == Some(out)
  {
    assert out + [] == out;
  }

  /** A run of at most 255 zeros ahead of a non-zero byte is written as
      its marker pair, or as nothing when it is empty. */
  lemma FlushRun(n: nat, t: seq<byte>)
    requires n <= 255 && |t| > 0 && t[0] != 0
    ensures Compress(Zeros(n) + t) == Prepend(if n > 0 then [0 as byte, n as byte] else [], Compress(t))
  {
    if n > 0 {
      CompressAfterZeros(n, t);
    } else {
      NoZerosAhead(t);
      PrependEmpty(Compress(t));
    }
  }

  lemma NoZerosAhead(t: seq<byte>)
    ensures Zeros(0) + t == t
  {
  }

  lemma PrependEmpty(x: Option<seq<byte>>)
    ensures Prepend([], x) == x
  {
    if x.Some? {
      assert [] + x.value == x.value;
    }
  }

  lemma PrependAssoc(a: seq<byte>, b: seq<byte>, x: Option<seq<byte>>)
    ensures Prepend(a, Prepend(b, x)) == Prepend(a + b, x)
  {
    if x.Some? {
      assert a + (b + x.value) == (a + b) + x.value;
    }
  }

  lemma CompressLiteral(b: byte, t: seq<byte>)
    requires b != 0
    ensures Compress([b] + t) == Prepend([b], Compress(t))
  {
    assert ([b] + t)[1..] == t;
  }

  /** `out` written before a possibly failing remainder. */
  function Prepend(out: seq<byte>, rest: Option<seq<byte>>): Option<seq<byte>>
  {
    match rest
    case None => None
    case Some(t) => Some(out + t)
  }

  lemma {:induction false} ZerosSnoc(n: nat)
    ensures Zeros(n + 1) == Zeros(n) + [0 as byte]
  {
    if n > 0 {
      ZerosSnoc(n - 1);
    }
  }

  lemma LeadingZerosOfRun(n: nat, t: seq<byte>)
    requires |t| > 0 && t[0] != 0
    ensures LeadingZeros(Zeros(n) + t) == n
  {
    var s := Zeros(n) + t;
    assert s[n] == t[0];
  }

  /** What the compression does with a run of `n > 0` zeros followed by a
      non-zero byte. */
  lemma CompressAfterZeros(n: nat, t: seq<byte>)
    requires n > 0 && |t| > 0 && t[0] != 0
    ensures n > 255 ==> Compress(Zeros(n) + t) == None
    ensures n <= 255 ==> Compress(Zeros(n) + t) == Prepend([0 as byte, n as byte], Compress(t))
  {
    var s := Zeros(n) + t;
    LeadingZerosOfRun(n, t);
    assert s[n..] == t;
  }

  lemma CompressZeros(n: nat)
    ensures Compress(Zeros(n)) == Some([])
  {
  }
}
